=== FILE: README.md ===
# AdaptivePELE epoch control, clustering bookkeeping and helpers in Dafny

AdaptivePELE runs PELE Monte Carlo simulations epoch by epoch. After each
epoch the snapshots are clustered with a leader algorithm, and an exit
condition decides whether to stop. Walkers are then respawned from the
clusters, and a processor-to-cluster mapping is carried from one epoch to
the next. This project models the deterministic bookkeeping around those
steps and proves what it promises.

The modelled parts are:

- **Exit conditions.** Three objects (clustering count, metric threshold,
  metric over several trajectories) and the builder that validates their
  comparison string.
- **The simulation runner's bookkeeping.**
  - The processor mapping: one-step rotation, zero mapping, and the
    colon-separated file encoding.
  - `hasExitCondition` / `checkExitCondition` dispatch.
  - The choice of metric column.
  - The last-snapshot and scored equilibration selection: row offsets,
    argmax and the reverse lookup.
  - The run-once flag of the test runner.
- **Clustering bookkeeping.**
  - The cluster list and its clusters: element counts, element-wise
    minimum metrics, metric lookup.
  - The bounded priority queue of alternative structures.
  - The contact-map inner limit.
  - The leader rule of `addSnapshotToCluster`.
  - The conformation network (nodes with their discovery parent, edge
    transition counts) and the pathway back to the root.
  - `getOptimalMetric`, `setCol`, and the last-snapshot sequential
    clustering.
- **Helpers.**
  - Atom-name generation.
  - Report-file naming: suffix, report number, wildcards.
  - Epoch folder listing.
  - Splitting a PDB trajectory into models.
  - The SASA column lookup.
  - Tagging report rows of an epoch.
  - Atom-name lookup in place.
  - The processor-mapping and topology-mapping files.
  - The `Topology` object's epoch maps.

Modules:

- `Wrappers` holds `Option` and `Result`.
- `Text` covers decimal digits, `str`/`int` of integers, `strip`, `split`/`join`, `find` and `lower`.
- `PyList` covers Python list indexing, `insert`, `del s[k:]`, rotation and `range`.
- `OsPath` covers `basename`, `splitext` and `join`.
- `Utilities`, `Clustering` and `Simulation` follow the three source files.

Objects whose fields the source updates are classes with `modifies`
clauses: `Topology`, `AltStructures`, `Cluster`, `Clusters`,
`ConformationNetwork`, `Clustering`, `SequentialLastSnapshotClustering`,
the three exit conditions, `SimulationRunner` and `TestSimulation`.
Loops in the source are methods with loop invariants: `setCol`,
`getOptimalMetric`, `addSnapshotToCluster`, `createPathwayToCluster`, the
exit checks, `getMetricColumns`, the offset loop and argmax of
`selectEquilibratedStructure`, `getMetricsFromReportsInEpoch` and
`getAtomNames`. Each such method is proved against a specification
function.

Other parts are replaced by parameters:

- The file system is a map from path to text (`FileSystem`).
- A loaded report is a table `seq<seq<real>>` produced by a `loadtxt`
  function parameter.
- Geometry is given per snapshot by `SnapshotGeometry`. This covers
  centroid differences, the similarity evaluator's distance to each
  cluster (the snapshot is similar when it is below the cluster's
  threshold, as both evaluators decide), contacts per atom, and the threshold for a new cluster, an `int` or a
  `float` as the configuration gives it (`Radius`).

`clustering.py` and `simulationrunner.py` are Python 2 code, so `None < 100`
is true. `getOptimalMetric` is modelled with that ordering (`Py2Less`).
For the same reason `cluster.threshold/2` is floor division when the
threshold is an `int` (`HalfThreshold`).

## Model

| member | source | states |
|---|---|---|
| Utilities.GenAtomName | AdaptivePELE/utilities/utilities.py:526-534 | below 175760 the name has four characters: three capital letters and a decimal digit |
| Utilities.AtomNameRoundTrip | AdaptivePELE/utilities/utilities.py:526-534 | reading the name back as a mixed-radix 26·26·26·10 number gives the index: the encoding is invertible |
| Utilities.GenAtomNameInjective | AdaptivePELE/utilities/utilities.py:526-534 | two different indices below 175760 never get the same atom name |
| Utilities.FileSuffixIsLastPiece | AdaptivePELE/utilities/utilities.py:331-343 | the suffix holds no separator and is exactly what follows the last separator of the name without its extension (the whole name when there is none) |
| Utilities.ReportNumOfReport | AdaptivePELE/utilities/utilities.py:345-365 | for a name that is a report (all-digit, non-empty suffix), the report number parses and equals the suffix's decimal value |
| Utilities.MakeWildcard | AdaptivePELE/utilities/utilities.py:615-628 | root followed by extension is the basename; the extension is empty or a dot-led, dot-free tail |
| Utilities.ReportAndTrajectoryWildcard | AdaptivePELE/utilities/utilities.py:615-628 | both patterns are the basename's root, then "_%d", then its extension |
| Utilities.WildcardReportNum | AdaptivePELE/utilities/utilities.py:615-628 | filling a report wildcard with any n >= 0 gives a report name whose report number is n: the wildcard and `getReportNum` are inverse |
| Utilities.DigitNames | AdaptivePELE/utilities/utilities.py:520-521 | keeps every all-digit name as often as it is listed, and nothing else |
| Utilities.SortByValue | AdaptivePELE/utilities/utilities.py:522 | result is ordered by integer value and is a permutation of the input |
| Utilities.EpochFolders | AdaptivePELE/utilities/utilities.py:509-523 | every folder returned is all-digit, and the list is sorted by integer value |
| Utilities.EpochFoldersAreDigitNames | AdaptivePELE/utilities/utilities.py:509-523 | the folders are exactly the all-digit names of the listing, each as often as listed: a name is returned iff it is all digits |
| Utilities.PdbSnapshots | AdaptivePELE/utilities/utilities.py:280-292 | there is always at least one snapshot |
| Utilities.PdbSnapshotsReassemble | AdaptivePELE/utilities/utilities.py:285-289 | no snapshot contains ENDMDL; text without ENDMDL is one snapshot; otherwise the text is each snapshot followed by ENDMDL, then a dropped tail without ENDMDL |
| Utilities.VerboseSnapshots | AdaptivePELE/utilities/utilities.py:291-292 | verbose mode yields as many snapshots, the i-th being a REMARK header with 1-based model number i+1 followed by the plain snapshot |
| Utilities.SasaColumnFrom | AdaptivePELE/utilities/utilities.py:662-668 | from position i: the first metric whose lower-cased type contains "sasa", plus 4; an error when no later metric does |
| Utilities.SasaColumn | AdaptivePELE/utilities/utilities.py:662-668 | succeeds iff some metric type contains "sasa" (case-insensitively); the column is 4 past the first such metric; otherwise an error |
| Utilities.TaggedRows | AdaptivePELE/utilities/utilities.py:653-658 | one tagged row per report row (a single-row report counts as one row) |
| Utilities.EpochMetricsAt | AdaptivePELE/utilities/utilities.py:646-659 | row j of trajectory t sits at index (rows of trajectories before t) + j of the epoch table and is tagged (t, j) |
| Utilities.EpochMetricsLength | AdaptivePELE/utilities/utilities.py:646-659 | the epoch table has as many rows as all reports 1 .. nTrajs-1 together |
| Utilities.MetricsFromReportsInEpoch | AdaptivePELE/utilities/utilities.py:646-659 | the loop that extends the list produces the row-tagged concatenation of the reports of trajectories 1 .. nTrajs-1 in order |
| Utilities.AtomNameOf | AdaptivePELE/utilities/utilities.py:600-612 | -1 is named "O", 0 "H" and 1 "N"; a name exists iff -4 <= v <= 1, where `v + 1` is a valid (possibly negative) Python index into the three names |
| Utilities.GetAtomNames | AdaptivePELE/utilities/utilities.py:600-612 | every array entry is incremented in place; the names are the lookup of every old value, and the call fails iff one value has no name |
| Utilities.IntsTextRoundTrip | AdaptivePELE/utilities/utilities.py:177-191 | `':'.join(map(str, xs))` followed by trailing whitespace parses back to xs for every non-empty integer list |
| Utilities.EmptyIntsText | AdaptivePELE/utilities/utilities.py:177-191 | an empty list is written as an empty line, which does not parse back (`int('')` fails) |
| Utilities.EntryTextParses | AdaptivePELE/utilities/utilities.py:801-824 | `literal_eval(str(e))` gives back e for every integer and every (epoch, trajectory, snapshot) triple |
| Utilities.WriteProcessorMapping | AdaptivePELE/utilities/utilities.py:795-808 | the mapping file exists afterwards and no other file changes |
| Utilities.ReadProcessorMapping | AdaptivePELE/utilities/utilities.py:811-826 | a missing file gives `None` without error; a mapping read from a file has at least one entry |
| Utilities.ProcessorMappingRoundTrip | AdaptivePELE/utilities/utilities.py:795-826 | reading back a written non-empty mapping gives exactly that mapping |
| Utilities.EmptyProcessorMapping | AdaptivePELE/utilities/utilities.py:795-826 | writing an empty mapping and reading it back is an error |
| Utilities.WriteTopologyMapping | AdaptivePELE/utilities/utilities.py:170-179 | the topology mapping file exists afterwards and no other file changes |
| Utilities.TopologyMappingRoundTrip | AdaptivePELE/utilities/utilities.py:170-193 | a written non-empty list parses back to itself; an empty one does not parse |
| Utilities.MappedTopologies | AdaptivePELE/utilities/utilities.py:117-118 | one topology index per mapping entry |
| Utilities.NextEpochTopologies | AdaptivePELE/utilities/utilities.py:108-118 | after the rotation, trajectory k of the new epoch has the topology of the trajectory named by mapping entry k+1 (the last by entry 0) |
| Utilities.Topology.constructor | AdaptivePELE/utilities/utilities.py:56-62 | no topologies, no files, empty epoch map |
| Utilities.Topology.GetTopologyIndex | AdaptivePELE/utilities/utilities.py:157-168 | the index is one recorded for that epoch |
| Utilities.Topology.GetTopologyFromIndex | AdaptivePELE/utilities/utilities.py:146-155 | the result is one of the stored topologies |
| Utilities.Topology.GetTopology | AdaptivePELE/utilities/utilities.py:120-131 | the topology of a known trajectory is one of the stored topologies |
| Utilities.Topology.GetTopologyFile | AdaptivePELE/utilities/utilities.py:133-144 | the file of a known trajectory is one of the stored topology files |
| Utilities.Topology.MapEpochTopologies | AdaptivePELE/utilities/utilities.py:108-118 | only the new epoch's entry changes; trajectory k of it takes the topology index of rotated mapping entry k, and the last one that of entry 0 |
| Utilities.Topology.WriteMappingToDisk | AdaptivePELE/utilities/utilities.py:170-179 | the written file parses back to the epoch's list when it is non-empty |
| Utilities.Topology.ReadMappingFromDisk | AdaptivePELE/utilities/utilities.py:181-193 | a missing file leaves the map unchanged without error; an unparsable one is an error; otherwise the epoch's list is replaced by what the file holds |
| Text.IntToStringParses | AdaptivePELE/utilities/utilities.py:189-191 | `int(str(i)) == i` for every integer |
| Text.SplitJoin | AdaptivePELE/utilities/utilities.py:189-191 | joining the pieces of a split with the same separator gives back the text |
| Text.LowerContainsIsContains | AdaptivePELE/utilities/utilities.py:662-668 | the case-insensitive test searches the lower-cased text |
| OsPath.SplitExt | AdaptivePELE/utilities/utilities.py:342 | root followed by extension is the path; the extension is empty or starts with a dot and has no other |
| OsPath.Basename | AdaptivePELE/utilities/utilities.py:624-625 | the result is a suffix of the path with no '/' |
| OsPath.PathJoinSuffix | AdaptivePELE/utilities/utilities.py:806-808 | a joined path ends with the joined name |
| PyList.Insert | AdaptivePELE/clustering/clustering.py:47-56 | `list.insert` adds exactly the one element |
| PyList.RotateLeftAt | AdaptivePELE/simulation/simulationrunner.py:90-99 | rotation keeps the elements and moves each one place left, the first to the end |
| PyList.RotateFullCircle | AdaptivePELE/simulation/simulationrunner.py:90-99 | as many rotations as elements give the list back |
| PyList.MapAllRange | AdaptivePELE/simulation/simulationrunner.py:303-315 | a comprehension over `range(lo, hi)` succeeds iff each element does, holding f(lo+k) at k |
| Clustering.CleanedPQ | AdaptivePELE/clustering/clustering.py:247-255 | a queue shorter than the limit is unchanged, one exactly at the limit is emptied, a longer one keeps its first `limitSize` entries |
| Clustering.AltStructures.CleanPQ | AdaptivePELE/clustering/clustering.py:247-255 | the queue becomes its cleaned form; the limit stays |
| Clustering.HeapPush | AdaptivePELE/clustering/clustering.py:286-292 | `heappush` adds exactly the one entry |
| Clustering.FirstClose | AdaptivePELE/clustering/clustering.py:280-290 | the first sub-cluster whose distance is below half its threshold, none before it; none at all when no sub-cluster is close |
| Clustering.AddedStructureSize | AdaptivePELE/clustering/clustering.py:257-294 | the queue keeps its size when a sub-cluster absorbs the structure, grows by one otherwise, and is cut to the limit when it passes twice the limit |
| Clustering.AltStructures.AddStructure | AdaptivePELE/clustering/clustering.py:257-294 | the queue becomes the specified result of adding the structure: first close sub-cluster grown and re-pushed, else a new one-element sub-cluster; the limit stays |
| Clustering.AltStructures.Repush | AdaptivePELE/clustering/clustering.py:284-288 | the grown sub-cluster is deleted, re-pushed with its new size, and the queue bounded |
| Clustering.AltStructures.PushAndBound | AdaptivePELE/clustering/clustering.py:291-294 | the queue is the old one with the entry pushed, then cleaned when above twice the limit |
| Clustering.AltStructures.SizePQ | AdaptivePELE/clustering/clustering.py:296-302 | the number of queued sub-clusters |
| Clustering.AltStructures.constructor | AdaptivePELE/clustering/clustering.py:201-203 | empty queue with limit 10 |
| Clustering.Minimum | AdaptivePELE/clustering/clustering.py:429-430 | the element-wise minimum with NumPy broadcasting of a one-element side |
| Clustering.MergedMetrics | AdaptivePELE/clustering/clustering.py:413-430 | no metrics: they become the new ones; an empty side: unchanged; equal lengths: each component is the minimum of old and new |
| Clustering.MergedMetricsIdempotent | AdaptivePELE/clustering/clustering.py:413-430 | merging the same metrics twice is the same as merging them once |
| Clustering.HalfThreshold | AdaptivePELE/clustering/clustering.py:926 | `threshold/2` under Python 2: true division of a `float` threshold; for an `int` threshold a whole number h with 2h <= threshold <= 2h + 1 (floor division) |
| Clustering.IntThresholdHalvedDown | AdaptivePELE/clustering/clustering.py:926-927 | with an odd `int` threshold, a snapshot exactly half the threshold away is queued as alternative structure; with the same `float` threshold it is not |
| Clustering.Cluster.constructor | AdaptivePELE/clustering/clustering.py:311-355 | one element, the radius as threshold (remembering whether it was an `int`), its square as threshold2, metrics and original metrics the given ones, an empty alternative-structure queue |
| Clustering.Cluster.GetMetric | AdaptivePELE/clustering/clustering.py:389-398 | `None` exactly when the metrics are empty; otherwise one of the metrics |
| Clustering.Cluster.GetMetricFromColumn | AdaptivePELE/clustering/clustering.py:400-411 | `None` exactly when the metrics are empty; otherwise one of the metrics |
| Clustering.Cluster.Absorb | AdaptivePELE/clustering/clustering.py:925-928 | one more element, merged metrics, original metrics set by the first merge, the snapshot queued as alternative structure only when it lies beyond half the threshold (halved as Python 2 does), and threshold, contacts, column, position and queue limit unchanged |
| Clustering.Cluster.AddElement | AdaptivePELE/clustering/clustering.py:413-430 | exactly one more element; metrics merged; threshold, contacts and position unchanged |
| Clustering.Clusters.constructor | AdaptivePELE/clustering/clustering.py:24-25 | no clusters |
| Clustering.Clusters.AddCluster | AdaptivePELE/clustering/clustering.py:38-45 | the cluster is appended: count up by one, new one last, the others unchanged |
| Clustering.Clusters.InsertCluster | AdaptivePELE/clustering/clustering.py:47-56 | the cluster sits at the Python position of the index, the others keep their order |
| Clustering.Clusters.GetNumberClusters | AdaptivePELE/clustering/clustering.py:58-64 | the number of clusters |
| Clustering.Clusters.GetCluster | AdaptivePELE/clustering/clustering.py:66-74 | the result is one of the clusters |
| Clustering.WithNode | AdaptivePELE/clustering/clustering.py:134-148 | an edge's end node is added if missing and existing nodes keep their attributes |
| Clustering.Pathway | AdaptivePELE/clustering/clustering.py:178-192 | the pathway ends at the leaf, starts at a child of the root, and follows first-discovery edges with strictly increasing cluster numbers |
| Clustering.ConformationNetwork.constructor | AdaptivePELE/clustering/clustering.py:104-108 | no nodes and no edges |
| Clustering.ConformationNetwork.AddNode | AdaptivePELE/clustering/clustering.py:121-132 | the node gets its parent and epoch; edges unchanged |
| Clustering.ConformationNetwork.AddEdge | AdaptivePELE/clustering/clustering.py:134-148 | the transition count of the edge is set to 1 or incremented, no other edge changes, and both ends become nodes |
| Clustering.Reversed | AdaptivePELE/clustering/clustering.py:192 | `s[::-1]`: same length, element i is element n-1-i of the input |
| Clustering.ConformationNetwork.AddDiscovery | AdaptivePELE/clustering/clustering.py:951-960 | the nodes are the old ones with the new cluster's attributes set and the source added if missing, nothing else; the discovery edge counted; every parent still precedes its child |
| Clustering.ConformationNetwork.CreatePathwayToCluster | AdaptivePELE/clustering/clustering.py:178-192 | the loop following parents terminates and returns the pathway from the root child to the leaf |
| Clustering.ParentsBelowKept | AdaptivePELE/clustering/clustering.py:951-960 | adding a node whose parent is the root or a lower cluster, and adding edges, keeps every parent below its child |
| Clustering.CoveredTraceable | AdaptivePELE/clustering/clustering.py:178-192 | when parents lie below children and clusters 0 .. n-1 all carry attributes, following parents from any of them reaches the root, so `createPathwayToCluster` terminates without a missing node |
| Clustering.CMInnerLimit | AdaptivePELE/clustering/clustering.py:684-689 | always within [4, 25]; 4 above 2 contacts per atom, 25 below 0.5 |
| Clustering.CMInnerLimitAntitone | AdaptivePELE/clustering/clustering.py:684-689 | more contacts never give a larger inner limit |
| Clustering.OptimalIndexChoice | AdaptivePELE/clustering/clustering.py:997-1016 | the first cluster without a metric when there is one (Python 2 ordering); else the first strict minimum below 100; else 0 |
| Clustering.MetricsOfAt | AdaptivePELE/clustering/clustering.py:1004-1007 | entry i of the metric list is the metric of cluster i in the requested column |
| Clustering.Clustering.constructor | AdaptivePELE/clustering/clustering.py:702-739 | no clusters, the given column, epoch -1, an empty network |
| Clustering.Clustering.SetCol | AdaptivePELE/clustering/clustering.py:769-779 | every cluster's column is the new one and nothing else of any cluster changes |
| Clustering.Clustering.GetOptimalMetric | AdaptivePELE/clustering/clustering.py:997-1016 | the loop returns the optimal index of the clusters' metrics |
| Clustering.Clustering.JoinCluster | AdaptivePELE/clustering/clustering.py:925-932 | the admitting cluster, whose distance is below its threshold, absorbs the snapshot (every field as `Absorb` states), the transition from the originating cluster is counted and its ends become nodes |
| Clustering.Clustering.AddSnapshotToCluster | AdaptivePELE/clustering/clustering.py:896-965 | needs broadcastable metrics only for the first admitting cluster; the leader rule: the result is the first cluster that admits the snapshot (list unchanged, the cluster absorbs it field by field, edge ends added as nodes), or a new last cluster with all its fields, recorded with its parent; no other cluster or queue changes; the edge is counted; parents stay below children and every cluster keeps its attributes |
| Clustering.Clustering.FoundCluster | AdaptivePELE/clustering/clustering.py:934-965 | a new cluster is appended with all its fields set from the snapshot and geometry; the nodes gain exactly its attributes and the source if missing; the edge is counted; parents stay below children and every cluster keeps its attributes |
| Clustering.TransitionSource | AdaptivePELE/clustering/clustering.py:929-930 | the transition starts at `origCluster`, or at the cluster itself when there is none |
| Clustering.DiscoveryParent | AdaptivePELE/clustering/clustering.py:951-959 | the root exactly when there is no `origCluster` or it is the new cluster; otherwise `origCluster` |
| Clustering.ColumnMinimum | AdaptivePELE/clustering/clustering.py:1244-1248 | the minimum of one report column: no row is below it and some row has it |
| Clustering.ColumnMinima | AdaptivePELE/clustering/clustering.py:1244-1248 | `metrics.min(axis=0)`: for every column, no row is below the minimum and some row has it |
| Clustering.SequentialLastSnapshotClustering.constructor | AdaptivePELE/clustering/clustering.py:702-739 | no clusters and the given column |
| Clustering.SequentialLastSnapshotClustering.Cluster | AdaptivePELE/clustering/clustering.py:1226-1252 | one new cluster per trajectory, holding its last snapshot and its report's column minima, with threshold 0, `threshold2` 0.0, original metrics equal to its metrics and an empty queue of size 10 |
| Clustering.SequentialLastSnapshotClustering.AddSnapshot | AdaptivePELE/clustering/clustering.py:1254-1279 | the new cluster is appended with threshold 0 (an `int`), `threshold2` 0.0, the given metrics as both metrics and original metrics, and a fresh empty alternative-structure queue of size 10; the others are unchanged |
| Simulation.ComparisonOf | AdaptivePELE/simulation/simulationrunner.py:475-482 | ">" compares with greater-than; any other string with less-than |
| Simulation.ColumnMeetsSome | AdaptivePELE/simulation/simulationrunner.py:503-530 | a column's maximum is above (minimum below) the value iff one of its entries is |
| Simulation.SameCountTwice | AdaptivePELE/simulation/simulationrunner.py:452-471 | with an unchanged cluster count the clustering condition holds iff `ntrajs > 0` |
| Simulation.ClusteringExitCondition.constructor | AdaptivePELE/simulation/simulationrunner.py:452-456 | count 0 |
| Simulation.ClusteringExitCondition.CheckExitCondition | AdaptivePELE/simulation/simulationrunner.py:458-471 | met iff fewer than a tenth of `ntrajs` new clusters since the last check; the new count is always stored |
| Simulation.MetricExitCondition.constructor | AdaptivePELE/simulation/simulationrunner.py:475-482 | the column, the value and the comparison of the condition string |
| Simulation.MetricExitCondition.CheckExitCondition | AdaptivePELE/simulation/simulationrunner.py:484-499 | met iff some cluster has a metric in the column passing the value; clusters without metrics are skipped; nothing changes |
| Simulation.MetricMultipleTrajsExitCondition.constructor | AdaptivePELE/simulation/simulationrunner.py:503-514 | the parameters kept, nothing found yet |
| Simulation.SqueezedReportsUnreadable | AdaptivePELE/simulation/simulationrunner.py:527-528 | a report of fewer than two rows, or of a single column, cannot be read by `report[:, col]` |
| Simulation.MetricMultipleTrajsExitCondition.FirstUnreadable | AdaptivePELE/simulation/simulationrunner.py:524-528 | the first trajectory from `from` on whose report `report[:, col]` cannot read (fewer than two rows, fewer than two columns, or no such column), every report before it readable; the loop end when all are |
| Simulation.MetricMultipleTrajsExitCondition.Meeting | AdaptivePELE/simulation/simulationrunner.py:524-529 | at most one meeting report per trajectory counted |
| Simulation.MetricMultipleTrajsExitCondition.CheckExitCondition | AdaptivePELE/simulation/simulationrunner.py:516-530 | an error iff some report 1 .. nProcessors-1 has fewer than two rows or fewer than two columns, or lacks the column; the counter grows by the number of meeting reports before the first unreadable one (all of them on success), is never reset, and on success the result is true iff it reaches `numTrajs` |
| Simulation.ConditionText | AdaptivePELE/simulation/simulationrunner.py:600 | "<" when the block gives no condition |
| Simulation.BuildExitCondition | AdaptivePELE/simulation/simulationrunner.py:584-613 | an error iff the condition of a metric block is not ">" or "<", or the type is unknown; otherwise a fresh condition with the block's parameters |
| Simulation.ZeroMapping | AdaptivePELE/simulation/simulationrunner.py:128-132 | `processors - 1` zeros |
| Simulation.WriteProcessorMapping | AdaptivePELE/simulation/simulationrunner.py:101-112 | nothing written for an empty mapping; otherwise the mapping file exists and no other file changes |
| Simulation.SimulationRunner.constructor | AdaptivePELE/simulation/simulationrunner.py:37-39 | empty mapping |
| Simulation.SimulationRunner.HasExitCondition | AdaptivePELE/simulation/simulationrunner.py:44-50 | true iff an exit condition was configured |
| Simulation.SimulationRunner.CheckExitCondition | AdaptivePELE/simulation/simulationrunner.py:52-64 | the multi-trajectory condition reads the output folder's reports and fails exactly when one cannot be read; the others read the clustering and always succeed; each with its own result and state change |
| Simulation.SimulationRunner.UpdateMappingProcessors | AdaptivePELE/simulation/simulationrunner.py:90-99 | the mapping becomes the given one rotated one place left |
| Simulation.SimulationRunner.WriteMappingToDisk | AdaptivePELE/simulation/simulationrunner.py:101-126 | nothing written for an empty mapping; otherwise the mapping file parses back to the runner's own mapping |
| Simulation.SimulationRunner.ReadMappingFromDisk | AdaptivePELE/simulation/simulationrunner.py:114-126 | a missing file leaves the mapping unchanged without error; a non-integer field is an error; otherwise the mapping is replaced by the file's numbers |
| Simulation.SimulationRunner.SetZeroMapping | AdaptivePELE/simulation/simulationrunner.py:128-132 | the mapping becomes the zero mapping |
| Simulation.MappingRotationCycle | AdaptivePELE/simulation/simulationrunner.py:90-99 | rotation keeps the multiset, sets new[i] = old[i+1] and new[n-1] = old[0], and n rotations give the mapping back |
| Simulation.ProcessorMappingRoundTrip | AdaptivePELE/simulation/simulationrunner.py:101-126 | reading back a written non-empty mapping gives it back; an empty mapping leaves the files unchanged |
| Simulation.TestSimulation.constructor | AdaptivePELE/simulation/simulationrunner.py:432-436 | not yet copied |
| Simulation.TestSimulation.RunSimulation | AdaptivePELE/simulation/simulationrunner.py:438-446 | copies iff it had not copied before, and is marked copied afterwards |
| Simulation.LastWhere | AdaptivePELE/simulation/simulationrunner.py:228-235 | the last matching position, present iff some position matches |
| Simulation.LastWhereIs | AdaptivePELE/simulation/simulationrunner.py:228-235 | a matching position with no later match is the last one |
| Simulation.MetricColumnChoice | AdaptivePELE/simulation/simulationrunner.py:216-241 | the column is 4 past the last "rmsd" metric if any; else 4 past the last "distance" metric; else none |
| Simulation.ScanMetricTypes | AdaptivePELE/simulation/simulationrunner.py:228-235 | the single loop finds the last match of the first test, and of the second when the first never matches |
| Simulation.GetMetricColumns | AdaptivePELE/simulation/simulationrunner.py:216-241 | returns the specified metric column |
| Simulation.SelectEquilibrationLastSnapshot | AdaptivePELE/simulation/simulationrunner.py:303-315 | succeeds iff every trajectory 1 .. nTrajs-1 exists, then holds the last snapshot of each in order |
| Simulation.FlattenAt | AdaptivePELE/simulation/simulationrunner.py:361-363 | row j of trajectory t lands at that trajectory's offset plus j |
| Simulation.OffsetsGrow | AdaptivePELE/simulation/simulationrunner.py:339-363 | offsets start at 0, each is the previous plus that trajectory's row count, and they never decrease |
| Simulation.RowOffsets | AdaptivePELE/simulation/simulationrunner.py:339-363 | the loop builds the concatenated rows and the list of running row totals |
| Simulation.FirstArgMax | AdaptivePELE/simulation/simulationrunner.py:382-383 | the first position holding the largest value |
| Simulation.TrajectoryOfRowChoice | AdaptivePELE/simulation/simulationrunner.py:385-393 | the trajectory starts at or before the row; it is the first one starting exactly there, or the last one starting before it |
| Simulation.SelectedRowInTrajectory | AdaptivePELE/simulation/simulationrunner.py:385-393 | when the chosen trajectory is non-empty, `offsets[t] <= sel < offsets[t] + rows of t` |
| Simulation.EmptyTrajectoryChosen | AdaptivePELE/simulation/simulationrunner.py:385-393 | with an empty first trajectory the lookup chooses it for row 0 |
| Simulation.SelectEquilibratedStructure | AdaptivePELE/simulation/simulationrunner.py:317-397 | none iff there are no rows; otherwise a 1-based trajectory and snapshot offset whose row has the maximal score, chosen by the source's lookup |

## Left out

- The file system is a map from path to text, and reports come from a `loadtxt` function parameter. Warnings printed for missing files are not modelled.
- Geometry (`atomset.PDB`, RMSD, centroid differences, contact maps, symmetry, `thresholdCalculator`) is given by `SnapshotGeometry`. `cleanContactMap` and `checkAttributes` are not modelled.
- The mdtraj and `.xtc` branches of `getSnapshots` are not modelled; only the PDB branch is.
- Utilities.GenAtomName: only indices below 175760 are covered. From there on the first character `chr(65 + index // 6760)` is no longer a capital letter (`[` at 175760), and Python 2's `chr` raises `ValueError` from index 1291160 on; the model states neither.
- Utilities.EpochFolders: the stability of the sort among equal values ("01" and "1") is not proved; the order is by value, and the result is a permutation of the digit names.
- Utilities.AtomNameOf: the source indexes a three-name list with `value + 1`, where Python's negative indexing accepts values down to -4; the model follows that lookup on integers, not NumPy arrays.
- Utilities.ParseEntry: `literal_eval` is modelled only for integers and integer triples, the two shapes the writer produces.
- `int()` of text with underscores or non-ASCII digits is not modelled. `isdigit()` (`Utilities.IsDigits`, behind Utilities.DigitNames and Utilities.EpochFolders) and `lower()` are ASCII-only, so a folder or file named with non-ASCII digits is not modelled.
- `setTopologies`, `cleanTopologies`, `writeTopologyObject` and topology file reading are not modelled.
- The `0.1 * ntrajs` comparison is exact rational arithmetic; the float rounding of `0.1` is not modelled.
- Cluster thresholds and contacts are always numbers; a `None` threshold is not modelled.
- Clustering.HeapPush: the heap order is not proved. Entries compare by priority only, so equal priorities are never "less".
- `altSpawnSelection` (random choice), `Clustering.cluster`, pickling, networkx writers and all output text are not modelled.
- Simulation.SelectEquilibratedStructure: the per-row scores are an input. That covers the energy shift and normalisation, the histogram of similarities, and the reference row with similarity 0 when no similarity column exists. The final `getSnapshots(...)[snapshotNum]` read is not modelled; the chosen trajectory and snapshot are returned. NaN scores are not modelled.
- The equilibration lookup follows the code: the first trajectory whose offset equals the selected row, which can be an empty trajectory (Simulation.EmptyTrajectoryChosen).
- Simulation.BuildExitCondition: JSON and template parsing of the control file are not modelled; the block is a datatype and the report wildcard is given.
- Simulation.MetricMultipleTrajsExitCondition.CheckExitCondition: NumPy's `IndexError` is an `Err` result, raised by a report of fewer than two rows or fewer than two columns (which `loadtxt` squeezes to one dimension) or without the column; a file `loadtxt` itself rejects (ragged rows, text) is a `loadtxt` result the model does not see.
- NumPy's `ValueError` from `np.minimum` on metrics that do not broadcast is excluded by preconditions, not modelled as an error: Clustering.Minimum, Clustering.MergedMetrics, Clustering.Cluster.AddElement, Clustering.Cluster.Absorb, Clustering.Clustering.JoinCluster, and Clustering.Clustering.AddSnapshotToCluster for the cluster the snapshot joins.
- Clustering.SequentialLastSnapshotClustering.Cluster: the `ValueError` of `metrics.min(axis=0)` on an empty report and the `IndexError` of `snapshots[-1]` on a trajectory without snapshots are excluded by its precondition (`Rectangular`, non-empty snapshots).
- Clustering.ColumnMinima: requires a non-empty report of rows of one width; the `ValueError` of an empty one is not modelled.
- Simulation.MetricExitCondition.CheckExitCondition: a cluster whose metrics are `None` or too short for the column (where `getMetricFromColumn` raises) is excluded by its precondition.
- Clustering.Clustering.GetOptimalMetric: `MetricsReadable` excludes the Python errors of a cluster whose metric cannot be read: the `TypeError` of `len(None)` and `metrics[None]` when a cluster has no metrics or no preferred column, and the `IndexError` of a metric list too short for the column (including the call with column `None` from `writePathwayOptimalCluster`).
- Clustering.Cluster.GetMetric: requires metrics and a preferred column; the `TypeError` of `len(None)` or `metrics[None]` and the `IndexError` of a short metric list are not modelled.
- Clustering.Cluster.GetMetricFromColumn: requires metrics and a column within them when they are non-empty; the same `TypeError` and `IndexError` are not modelled.
- Clustering.Clusters.GetCluster: requires an index Python accepts; the `IndexError` of any other index is not modelled.
- Utilities.Topology.GetTopologyIndex, Utilities.Topology.GetTopology, Utilities.Topology.GetTopologyFile: `KnownTrajectory` (and the index bounds) exclude the `KeyError` of an unknown epoch and the `IndexError` of an unknown trajectory or topology index. Utilities.Topology.GetTopologyFromIndex likewise excludes the `IndexError` of an index out of range.
- Utilities.Topology.MapEpochTopologies: requires a non-empty mapping whose positions are all known; the `IndexError` of `trajectoryMapping[0]` on an empty mapping and the `KeyError`/`IndexError` of an unknown epoch or trajectory are not modelled.
- Utilities.Topology.WriteMappingToDisk: requires the epoch to be in the map; the `KeyError` of a missing epoch is not modelled.
- Utilities.Wildcard.Fill: only the `_%d` marker is replaced. Python `%`-formats the whole name, so a report name that itself contains `%` is not modelled: `%%` would collapse to `%`, and `%s` or `%b` would raise `TypeError` or `ValueError`. Utilities.WildcardReportNum and the members that fill wildcards (Utilities.MetricsFromReportsInEpoch, Simulation.SelectEquilibrationLastSnapshot, Simulation.MetricMultipleTrajsExitCondition.FirstUnreadable) hold for names without `%`.
- When networkx is missing (`NETWORK = False`), `add_node` and `add_edge` do nothing and the conformation network is `None`. That branch is not modelled; Clustering.ConformationNetwork always records nodes and edges.
- Simulation.GetMetricColumns: adds 4 once after the scan rather than at each match, which gives the same column.
- Simulation.TestSimulation.RunSimulation: the directory copy itself is not modelled, only the flag.
- Process launching, folder creation and cleanup, symbolic links, protonation, linear algebra, worker polling and concurrency are not modelled.

=== FILE: clustering.dfy ===
/** The clustering bookkeeping of `clustering.py`: clusters and their
    alternative-structure queues, the conformation network of first
    discoveries and transitions, and the leader rule that assigns a snapshot
    to the first similar cluster or opens a new one.

    Structures are represented by their snapshot text; the geometry that
    compares two structures (centroid distance, RMSD, contact maps) is
    passed in as the values it computes. */
module Clustering {
  import opened Wrappers
  import opened PyList
  import Utilities

  type Structure = string

  // ----------------------------------------------------------------------
  // Alternative structures
  // ----------------------------------------------------------------------

  /** A sub-cluster of alternative structures inside a cluster. */
  datatype SubCluster = SubCluster(pdb: Structure, elements: nat, threshold: real,
                                   trajPosition: Utilities.TrajectoryPosition)

  /** A queue entry `(priority, subCluster)`. */
  datatype AltEntry = AltEntry(priority: nat, subCluster: SubCluster)

  /** `cleanPQ` on a queue: a queue shorter than the limit is kept; otherwise
      `del pq[limit - len(pq):]` runs, which keeps the first `limit` entries
      of a longer queue and, because the slice starts at 0, empties a queue of
      exactly `limit` entries. */
  function CleanedPQ(pq: seq<AltEntry>, limit: nat): (r: seq<AltEntry>)
    ensures |pq| < limit ==> r == pq
    ensures |pq| == limit ==> r == []
    ensures |pq| > limit ==> r == pq[..limit]
  {
    if |pq| < limit then pq else DelFrom(pq, limit - |pq|)
  }

  /** `heapq._siftdown(heap, 0, pos)`: move the entry at `pos` towards the
      root while it has a smaller priority than its parent. */
  function SiftUp(heap: seq<AltEntry>, pos: nat): (r: seq<AltEntry>)
    requires pos < |heap|
    ensures |r| == |heap|
    ensures multiset(r) == multiset(heap)
    decreases pos
  {
    if pos == 0 then heap
    else
      var parent := (pos - 1) / 2;
      if heap[pos].priority < heap[parent].priority then
        var swapped := heap[pos := heap[parent]][parent := heap[pos]];
        assert multiset(swapped) == multiset(heap) by {
          var a := heap[pos := heap[parent]];
          assert multiset(a) == multiset(heap) - multiset{heap[pos]} + multiset{heap[parent]};
        }
        SiftUp(swapped, parent)
      else heap
  }

  /** `heapq.heappush(heap, entry)`. */
  function HeapPush(heap: seq<AltEntry>, entry: AltEntry): (r: seq<AltEntry>)
    ensures |r| == |heap| + 1
    ensures multiset(r) == multiset(heap) + multiset{entry}
  {
    SiftUp(heap + [entry], |heap|)
  }

  /** The position of the first sub-cluster closer to the structure than half
      its threshold; `distance` gives the distance to each sub-cluster. */
  function FirstClose(pq: seq<AltEntry>, distance: SubCluster -> real, from: nat): (r: Option<nat>)
    requires from <= |pq|
    ensures r.Some? ==> from <= r.value < |pq|
                        && distance(pq[r.value].subCluster) < pq[r.value].subCluster.threshold / 2.0
    ensures r.Some? ==> forall j :: from <= j < r.value ==>
                          distance(pq[j].subCluster) >= pq[j].subCluster.threshold / 2.0
    ensures r.None? ==> forall j :: from <= j < |pq| ==>
                          distance(pq[j].subCluster) >= pq[j].subCluster.threshold / 2.0
    decreases |pq| - from
  {
    if from == |pq| then None
    else if distance(pq[from].subCluster) < pq[from].subCluster.threshold / 2.0 then Some(from)
    else FirstClose(pq, distance, from + 1)
  }

  /** The queue after `addStructure`: the first close sub-cluster gains an
      element and is re-pushed with its new size as priority, or a new
      sub-cluster of one element is pushed; a queue longer than twice the
      limit is then cleaned. */
  function AddedStructure(pq: seq<AltEntry>, limit: nat, pdb: Structure, threshold: real,
                          trajPosition: Utilities.TrajectoryPosition, distance: SubCluster -> real)
    : seq<AltEntry>
  {
    match FirstClose(pq, distance, 0)
    case Some(i) => Repushed(pq, i, limit)
    case None => Bounded(HeapPush(pq, AltEntry(1, SubCluster(pdb, 1, threshold, trajPosition))), limit)
  }

  /** A threshold radius as the threshold calculator hands it over: a
      Python `int` or a `float`, as written in the configuration. */
  datatype Radius = IntRadius(n: int) | FloatRadius(x: real) {
    function Value(): real {
      match this
      case IntRadius(n) => n as real
      case FloatRadius(x) => x
    }
  }

  /** `threshold/2` under Python 2: floor division for an `int` threshold,
      true division for a `float` one. */
  function HalfThreshold(threshold: real, isInt: bool): (h: real)
    ensures !isInt ==> h == threshold / 2.0
    ensures isInt ==> h == h.Floor as real && 2.0 * h <= threshold.Floor as real <= 2.0 * h + 1.0
  {
    if isInt then (threshold.Floor / 2) as real else threshold / 2.0
  }

  /** The alternative structures after a snapshot `dist` away joins a
      cluster of threshold `threshold`: only a snapshot beyond half the
      threshold (`thresholdIsInt` says how it is halved) is recorded. */
  function Absorbed(pq: seq<AltEntry>, limit: nat, pdb: Structure, threshold: real, thresholdIsInt: bool,
                    dist: real, trajPosition: Utilities.TrajectoryPosition, distance: SubCluster -> real)
    : seq<AltEntry>
  {
    if dist > HalfThreshold(threshold, thresholdIsInt) then AddedStructure(pq, limit, pdb, threshold, trajPosition, distance)
    else pq
  }

  /** With an odd `int` threshold, a snapshot exactly half the threshold
      away is recorded as an alternative structure, since the half is
      rounded down; with the same threshold as a `float` it is not. */
  lemma IntThresholdHalvedDown(pq: seq<AltEntry>, limit: nat, pdb: Structure, t: int,
                               trajPosition: Utilities.TrajectoryPosition, distance: SubCluster -> real)
    requires t % 2 == 1
    ensures Absorbed(pq, limit, pdb, t as real, true, t as real / 2.0, trajPosition, distance)
            == AddedStructure(pq, limit, pdb, t as real, trajPosition, distance)
    ensures Absorbed(pq, limit, pdb, t as real, false, t as real / 2.0, trajPosition, distance) == pq
  {
  }

  /** The sub-cluster at `i` leaves the queue and comes back grown. */
  function Repushed(pq: seq<AltEntry>, i: nat, limit: nat): seq<AltEntry>
    requires i < |pq|
  {
    Bounded(HeapPush(pq[..i] + pq[i + 1..], Grown(pq[i].subCluster)), limit)
  }

  lemma AddedAtClose(pq: seq<AltEntry>, limit: nat, pdb: Structure, threshold: real,
                     trajPosition: Utilities.TrajectoryPosition, distance: SubCluster -> real, i: nat)
    requires i < |pq| && FirstClose(pq, distance, i) == FirstClose(pq, distance, 0)
    requires distance(pq[i].subCluster) < pq[i].subCluster.threshold / 2.0
    ensures AddedStructure(pq, limit, pdb, threshold, trajPosition, distance) == Repushed(pq, i, limit)
  {
    assert FirstClose(pq, distance, i) == Some(i);
  }

  lemma AddedWhenNoneClose(pq: seq<AltEntry>, limit: nat, pdb: Structure, threshold: real,
                           trajPosition: Utilities.TrajectoryPosition, distance: SubCluster -> real)
    requires FirstClose(pq, distance, |pq|) == FirstClose(pq, distance, 0)
    ensures AddedStructure(pq, limit, pdb, threshold, trajPosition, distance)
            == Bounded(HeapPush(pq, AltEntry(1, SubCluster(pdb, 1, threshold, trajPosition))), limit)
  {
  }

  /** The entry re-pushed for a sub-cluster that gains an element. */
  function Grown(sub: SubCluster): AltEntry {
    AltEntry(sub.elements + 1, sub.(elements := sub.elements + 1))
  }

  /** A pushed queue is cleaned once it is longer than twice the limit. */
  function Bounded(pushed: seq<AltEntry>, limit: nat): seq<AltEntry> {
    if |pushed| > 2 * limit then CleanedPQ(pushed, limit) else pushed
  }

  /** The queue keeps its size when the structure joins a sub-cluster, grows
      by one otherwise, and is cut back to the limit once it exceeds twice
      the limit. */
  lemma AddedStructureSize(pq: seq<AltEntry>, limit: nat, pdb: Structure, threshold: real,
                           trajPosition: Utilities.TrajectoryPosition, distance: SubCluster -> real)
    ensures var grown := if FirstClose(pq, distance, 0).Some? then |pq| else |pq| + 1;
            |AddedStructure(pq, limit, pdb, threshold, trajPosition, distance)|
            == if grown > 2 * limit then limit else grown
  {
    match FirstClose(pq, distance, 0)
    case Some(i) =>
      var rest := pq[..i] + pq[i + 1..];
      assert |rest| == |pq| - 1;
      BoundedSize(HeapPush(rest, Grown(pq[i].subCluster)), limit);
    case None =>
      BoundedSize(HeapPush(pq, AltEntry(1, SubCluster(pdb, 1, threshold, trajPosition))), limit);
  }

  lemma BoundedSize(pushed: seq<AltEntry>, limit: nat)
    ensures |Bounded(pushed, limit)| == if |pushed| > 2 * limit then limit else |pushed|
  {
  }

  /** The alternative structures of a cluster, a queue of sub-clusters. */
  class AltStructures {
    var altStructPQ: seq<AltEntry>
    var limitSize: nat

    constructor ()
      ensures altStructPQ == [] && limitSize == 10
    {
      altStructPQ := [];
      limitSize := 10;
    }

    /** `cleanPQ()`. */
    method CleanPQ()
      modifies this
      ensures altStructPQ == CleanedPQ(old(altStructPQ), limitSize)
      ensures limitSize == old(limitSize)
    {
      if |altStructPQ| < limitSize {
        return;
      }
      var limit := |altStructPQ|;
      altStructPQ := altStructPQ[..Clamp(limitSize - limit, |altStructPQ|)];
    }

    /** `addStructure(PDB, threshold, ..., trajPosition)`, where `distance`
        is the similarity evaluator's distance from the structure to each
        sub-cluster. */
    method AddStructure(pdb: Structure, threshold: real, trajPosition: Utilities.TrajectoryPosition,
                        distance: SubCluster -> real)
      modifies this
      ensures altStructPQ == AddedStructure(old(altStructPQ), limitSize, pdb, threshold, trajPosition, distance)
      ensures limitSize == old(limitSize)
    {
      var i := 0;
      while i < |altStructPQ|
        invariant 0 <= i <= |altStructPQ|
        invariant altStructPQ == old(altStructPQ) && limitSize == old(limitSize)
        invariant FirstClose(altStructPQ, distance, 0) == FirstClose(altStructPQ, distance, i)
      {
        var subCluster := altStructPQ[i].subCluster;
        if distance(subCluster) < subCluster.threshold / 2.0 {
          AddedAtClose(altStructPQ, limitSize, pdb, threshold, trajPosition, distance, i);
          Repush(i);
          return;
        }
        i := i + 1;
      }
      AddedWhenNoneClose(altStructPQ, limitSize, pdb, threshold, trajPosition, distance);
      PushAndBound(AltEntry(1, SubCluster(pdb, 1, threshold, trajPosition)));
    }

    /** The entry at `i` gains an element: it is deleted and pushed again
        with its new size as priority. */
    method Repush(i: nat)
      requires i < |altStructPQ|
      modifies this
      ensures altStructPQ == Repushed(old(altStructPQ), i, limitSize)
      ensures limitSize == old(limitSize)
    {
      var subCluster := altStructPQ[i].subCluster;
      altStructPQ := altStructPQ[..i] + altStructPQ[i + 1..];
      PushAndBound(Grown(subCluster));
    }

    /** The `heappush` followed by `cleanPQ` once the queue is longer than
        twice the limit, with which `addStructure` ends on both paths. */
    method PushAndBound(entry: AltEntry)
      modifies this
      ensures altStructPQ == Bounded(HeapPush(old(altStructPQ), entry), limitSize)
      ensures limitSize == old(limitSize)
    {
      altStructPQ := HeapPush(altStructPQ, entry);
      if |altStructPQ| > 2 * limitSize {
        CleanPQ();
      }
    }

    /** `sizePQ()`. */
    function SizePQ(): (n: nat)
      reads this
      ensures n == |altStructPQ|
    {
      |altStructPQ|
    }
  }

  /** `addElement(newMetrics)` can merge `newMetrics` into `metrics`. */
  predicate Mergeable(metrics: Option<seq<real>>, newMetrics: seq<real>) {
    metrics.Some? && |metrics.value| > 0 && |newMetrics| > 0 ==> Broadcastable(metrics.value, newMetrics)
  }

  /** Cluster `c` took in a snapshot `dist` away with `newMetrics`: one
      more element, the metrics merged, the original metrics set by the
      first merge, the queue of alternative structures as `Absorbed` says,
      and everything else as it was. */
  twostate predicate AbsorbedInto(c: Cluster, snapshot: Structure, dist: real,
                                  trajPosition: Utilities.TrajectoryPosition, altDistance: SubCluster -> real,
                                  newMetrics: seq<real>)
    requires old(Mergeable(c.metrics, newMetrics))
    reads c, c.altStructure
  {
    && c.elements == old(c.elements) + 1
    && c.metrics == MergedMetrics(old(c.metrics), newMetrics)
    && c.originalMetrics == (if old(c.metrics).Some? && old(c.originalMetrics).None? then Some(newMetrics)
                             else old(c.originalMetrics))
    && c.threshold == old(c.threshold) && c.threshold2 == old(c.threshold2) && c.contacts == old(c.contacts)
    && c.metricCol == old(c.metricCol) && c.trajPosition == old(c.trajPosition)
    && c.altStructure.limitSize == old(c.altStructure.limitSize)
    && c.altStructure.altStructPQ
       == Absorbed(old(c.altStructure.altStructPQ), old(c.altStructure.limitSize), snapshot, old(c.threshold),
                   c.thresholdIsInt, dist, trajPosition, altDistance)
  }

  // ----------------------------------------------------------------------
  // Clusters
  // ----------------------------------------------------------------------

  /** numpy broadcasting of two one-dimensional arrays: equal lengths, or one
      of them of length 1. */
  predicate Broadcastable(a: seq<real>, b: seq<real>) {
    |a| == |b| || |a| == 1 || |b| == 1
  }

  function Min(x: real, y: real): (m: real)
    ensures m <= x && m <= y && (m == x || m == y)
  {
    if x <= y then x else y
  }

  /** Element `i` of `a` under broadcasting. */
  function Broadcast(a: seq<real>, i: nat): real
    requires |a| > 0 && (|a| == 1 || i < |a|)
  {
    a[if |a| == 1 then 0 else i]
  }

  /** `np.minimum(a, b)`: the element-wise minimum, an array of length one
      standing for that many copies of its element. */
  function Minimum(a: seq<real>, b: seq<real>): (r: seq<real>)
    requires |a| > 0 && |b| > 0 && Broadcastable(a, b)
    ensures |r| == if |a| >= |b| then |a| else |b|
    ensures forall i :: 0 <= i < |r| ==>
              r[i] <= Broadcast(a, i) && r[i] <= Broadcast(b, i)
              && (r[i] == Broadcast(a, i) || r[i] == Broadcast(b, i))
  {
    var n := if |a| >= |b| then |a| else |b|;
    seq(n, i requires 0 <= i < n => Min(Broadcast(a, i), Broadcast(b, i)))
  }

  /** The metrics of a cluster after `addElement(newMetrics)`: `None` is
      replaced outright; otherwise, when both are non-empty, they are merged
      by element-wise minimum; an empty side leaves the metrics as they were. */
  function MergedMetrics(metrics: Option<seq<real>>, newMetrics: seq<real>): (r: Option<seq<real>>)
    requires metrics.Some? && |metrics.value| > 0 && |newMetrics| > 0 ==> Broadcastable(metrics.value, newMetrics)
    ensures metrics.None? ==> r == Some(newMetrics)
    ensures metrics.Some? && (|metrics.value| == 0 || |newMetrics| == 0) ==> r == metrics
    ensures metrics.Some? && |metrics.value| == |newMetrics| > 0 ==>
              r.Some? && |r.value| == |newMetrics|
              && forall i :: 0 <= i < |newMetrics| ==>
                   r.value[i] <= metrics.value[i] && r.value[i] <= newMetrics[i]
                   && (r.value[i] == metrics.value[i] || r.value[i] == newMetrics[i])
  {
    match metrics
    case None => Some(newMetrics)
    case Some(m) => if |newMetrics| > 0 && |m| > 0 then Some(Minimum(m, newMetrics)) else metrics
  }

  /** Merging the same metrics twice changes nothing the second time. */
  lemma MergedMetricsIdempotent(metrics: seq<real>, newMetrics: seq<real>)
    requires |metrics| == |newMetrics|
    ensures MergedMetrics(MergedMetrics(Some(metrics), newMetrics), newMetrics)
            == MergedMetrics(Some(metrics), newMetrics)
  {
    if |metrics| > 0 {
      var once := MergedMetrics(Some(metrics), newMetrics).value;
      var twice := MergedMetrics(Some(once), newMetrics).value;
      assert |twice| == |once|;
      assert forall i :: 0 <= i < |metrics| ==> twice[i] == once[i];
      assert twice == once;
    }
  }

  /** A cluster: a representative structure, its population, its size
      threshold, its contacts per ligand atom and its metrics. */
  class Cluster {
    const pdb: Structure
    const altStructure: AltStructures
    /** The threshold radius was a Python `int`. */
    const thresholdIsInt: bool
    var elements: nat
    var threshold: real
    var threshold2: real
    var contacts: real
    var metrics: Option<seq<real>>
    var originalMetrics: Option<seq<real>>
    var metricCol: Option<int>
    var trajPosition: Option<Utilities.TrajectoryPosition>

    constructor (pdb: Structure, thresholdRadius: Radius, contacts: real, metrics: Option<seq<real>>,
                 metricCol: Option<int>, trajPosition: Option<Utilities.TrajectoryPosition>)
      ensures this.pdb == pdb && elements == 1
      ensures threshold == thresholdRadius.Value() && thresholdIsInt == thresholdRadius.IntRadius?
      ensures threshold2 == threshold * threshold
      ensures this.contacts == contacts && this.metrics == metrics && originalMetrics == metrics
      ensures this.metricCol == metricCol && this.trajPosition == trajPosition
      ensures fresh(altStructure) && altStructure.altStructPQ == [] && altStructure.limitSize == 10
    {
      this.pdb := pdb;
      altStructure := new AltStructures();
      elements := 1;
      threshold := thresholdRadius.Value();
      thresholdIsInt := thresholdRadius.IntRadius?;
      threshold2 := thresholdRadius.Value() * thresholdRadius.Value();
      this.contacts := contacts;
      this.metrics := metrics;
      originalMetrics := metrics;
      this.metricCol := metricCol;
      this.trajPosition := trajPosition;
    }

    /** `len(self.metrics)` does not raise and, for a non-empty array, the
        preferred column indexes it. */
    predicate HasMetric()
      reads this
    {
      metrics.Some? && (|metrics.value| > 0 ==> metricCol.Some? && -|metrics.value| <= metricCol.value < |metrics.value|)
    }

    /** `getMetric()`: the metric in the preferred column, `None` exactly
        when the cluster has no metrics. */
    function GetMetric(): (r: Option<real>)
      reads this
      requires HasMetric()
      ensures r.None? <==> |metrics.value| == 0
      ensures r.Some? ==> r.value in metrics.value
    {
      if |metrics.value| > 0 then Some(At(metrics.value, metricCol.value)) else None
    }

    /** `getMetricFromColumn(numcol)`: the metric in column `numcol`, `None`
        exactly when the cluster has no metrics. */
    function GetMetricFromColumn(numcol: int): (r: Option<real>)
      reads this
      requires metrics.Some? && (|metrics.value| > 0 ==> -|metrics.value| <= numcol < |metrics.value|)
      ensures r.None? <==> |metrics.value| == 0
      ensures r.Some? ==> r.value in metrics.value
    {
      if |metrics.value| > 0 then Some(At(metrics.value, numcol)) else None
    }

    /** What `addSnapshotToCluster` does to the cluster a snapshot joins:
        a snapshot `dist` away, beyond half the threshold, also goes to the
        alternative structures; then `addElement`. */
    method Absorb(snapshot: Structure, dist: real, trajPosition: Utilities.TrajectoryPosition,
                  altDistance: SubCluster -> real, newMetrics: seq<real>)
      requires Mergeable(metrics, newMetrics)
      modifies this, altStructure
      ensures AbsorbedInto(this, snapshot, dist, trajPosition, altDistance, newMetrics)
    {
      if dist > HalfThreshold(threshold, thresholdIsInt) {
        altStructure.AddStructure(snapshot, threshold, trajPosition, altDistance);
      }
      AddElement(newMetrics);
    }

    /** `addElement(newMetrics)`. */
    method AddElement(newMetrics: seq<real>)
      requires metrics.Some? && |metrics.value| > 0 && |newMetrics| > 0 ==> Broadcastable(metrics.value, newMetrics)
      modifies this
      ensures elements == old(elements) + 1
      ensures metrics == MergedMetrics(old(metrics), newMetrics)
      ensures originalMetrics == if old(metrics).Some? && old(originalMetrics).None? then Some(newMetrics)
                                 else old(originalMetrics)
      ensures threshold == old(threshold) && threshold2 == old(threshold2) && contacts == old(contacts)
      ensures metricCol == old(metricCol) && trajPosition == old(trajPosition)
    {
      elements := elements + 1;
      if metrics.None? {
        metrics := Some(newMetrics);
        return;
      }
      if originalMetrics.None? {
        originalMetrics := Some(newMetrics);
      }
      if |newMetrics| > 0 && |metrics.value| > 0 {
        metrics := Some(Minimum(metrics.value, newMetrics));
      }
    }
  }

  /** The ordered list of clusters. */
  class Clusters {
    var clusters: seq<Cluster>

    constructor ()
      ensures clusters == []
    {
      clusters := [];
    }

    /** `addCluster(cluster)`: appended last, the others unchanged. */
    method AddCluster(cluster: Cluster)
      modifies this
      ensures clusters == old(clusters) + [cluster]
      ensures |clusters| == |old(clusters)| + 1 && clusters[|clusters| - 1] == cluster
    {
      clusters := clusters + [cluster];
    }

    /** `insertCluster(index, cluster)`: Python's `list.insert`. */
    method InsertCluster(index: int, cluster: Cluster)
      modifies this
      ensures clusters == Insert(old(clusters), index, cluster)
      ensures clusters[Clamp(index, |old(clusters)|)] == cluster
    {
      clusters := Insert(clusters, index, cluster);
    }

    /** `getNumberClusters()`. */
    function GetNumberClusters(): (n: nat)
      reads this
      ensures n == |clusters|
    {
      |clusters|
    }

    /** `getCluster(clusterNum)`. */
    function GetCluster(clusterNum: int): (c: Cluster)
      reads this
      requires -|clusters| <= clusterNum < |clusters|
      ensures c in clusters
    {
      At(clusters, clusterNum)
    }
  }

  // ----------------------------------------------------------------------
  // Conformation network
  // ----------------------------------------------------------------------

  /** The `parent` attribute of a node: the root, or the cluster from which
      the node was first discovered. */
  datatype Parent = Root | ParentCluster(cluster: int)

  datatype NodeAttributes = NodeAttributes(parent: Parent, epoch: int)

  /** The number of transitions recorded on the edge `source -> target`. */
  function Transitions(edges: map<(int, int), nat>, source: int, target: int): nat {
    if (source, target) in edges then edges[(source, target)] else 0
  }

  /** A node that an edge mentions is added, without attributes, when absent. */
  function WithNode(nodes: map<int, Option<NodeAttributes>>, node: int): (r: map<int, Option<NodeAttributes>>)
    ensures node in r && r.Keys == nodes.Keys + {node}
    ensures forall n :: n in nodes ==> r[n] == nodes[n]
  {
    if node in nodes then nodes else nodes[node := None]
  }

  /** Every discovered node was discovered from a cluster with a smaller
      number, so following parents always ends at the root. */
  predicate ParentsBelow(nodes: map<int, Option<NodeAttributes>>) {
    forall n :: n in nodes && nodes[n].Some? && nodes[n].value.parent.ParentCluster? ==>
      0 <= nodes[n].value.parent.cluster < n
  }

  /** `node` and all its ancestors carry attributes and lead to the root. */
  predicate Traceable(nodes: map<int, Option<NodeAttributes>>, node: int)
    decreases if node < 0 then 0 else node + 1
  {
    node in nodes && nodes[node].Some? &&
    match nodes[node].value.parent
    case Root => true
    case ParentCluster(p) => 0 <= p < node && Traceable(nodes, p)
  }

  /** The first discovery tree as a set of edges `parent -> node`. */
  function FirstDiscoveryTree(nodes: map<int, Option<NodeAttributes>>): (tree: set<(int, int)>)
    ensures forall e :: e in tree <==>
              e.1 in nodes && nodes[e.1].Some? && nodes[e.1].value.parent == ParentCluster(e.0)
  {
    var tree := set n | n in nodes && nodes[n].Some? && nodes[n].value.parent.ParentCluster? ::
                  (nodes[n].value.parent.cluster, n);
    assert forall n :: n in nodes && nodes[n].Some? && nodes[n].value.parent.ParentCluster? ==>
             (nodes[n].value.parent.cluster, n) in tree;
    tree
  }

  /** The pathway from the root of the first discovery tree to `leaf`. */
  function Pathway(nodes: map<int, Option<NodeAttributes>>, leaf: int): (path: seq<int>)
    requires Traceable(nodes, leaf)
    ensures |path| > 0 && path[|path| - 1] == leaf
    ensures path[0] in nodes && nodes[path[0]].Some? && nodes[path[0]].value.parent == Root
    ensures forall i :: 0 < i < |path| ==> (path[i - 1], path[i]) in FirstDiscoveryTree(nodes)
    ensures forall i :: 0 < i < |path| ==> path[i - 1] < path[i]
    decreases if leaf < 0 then 0 else leaf + 1
  {
    match nodes[leaf].value.parent
    case Root => [leaf]
    case ParentCluster(p) =>
      var prefix := Pathway(nodes, p);
      assert (p, leaf) in FirstDiscoveryTree(nodes);
      prefix + [leaf]
  }

  /** `s[::-1]`. */
  function Reversed<T>(s: seq<T>): (r: seq<T>)
    ensures |r| == |s|
    ensures forall i :: 0 <= i < |s| ==> r[i] == s[|s| - 1 - i]
  {
    if |s| == 0 then [] else [s[|s| - 1]] + Reversed(s[..|s| - 1])
  }

  /** The conformation network: clusters as nodes, transitions between them
      as counted edges, and the parent of each node in the first discovery
      tree. A node added by an edge alone has no attributes (`None`). */
  class ConformationNetwork {
    var nodes: map<int, Option<NodeAttributes>>
    var edges: map<(int, int), nat>

    constructor ()
      ensures nodes == map[] && edges == map[]
    {
      nodes := map[];
      edges := map[];
    }

    /** `add_node(node, parent=..., epoch=...)`: the attributes are set,
        whether or not the node was there. */
    method AddNode(node: int, parent: Parent, epoch: int)
      modifies this
      ensures nodes == old(nodes)[node := Some(NodeAttributes(parent, epoch))]
      ensures edges == old(edges)
    {
      nodes := nodes[node := Some(NodeAttributes(parent, epoch))];
    }

    /** `add_edge(source, target)`: one more transition on the edge, which
        starts at one when new; missing endpoints become nodes. */
    method AddEdge(source: int, target: int)
      modifies this
      ensures edges == old(edges)[(source, target) := Transitions(old(edges), source, target) + 1]
      ensures edges.Keys == old(edges).Keys + {(source, target)}
      ensures nodes == WithNode(WithNode(old(nodes), source), target)
    {
      if (source, target) in edges {
        edges := edges[(source, target) := edges[(source, target)] + 1];
      } else {
        edges := edges[(source, target) := 1];
      }
      nodes := WithNode(WithNode(nodes, source), target);
    }

    /** A node discovered from `source`: `add_node` with its attributes, then
        `add_edge` for the transition that discovered it. */
    method AddDiscovery(node: int, parent: Parent, epoch: int, source: int)
      modifies this
      ensures nodes == WithNode(old(nodes)[node := Some(NodeAttributes(parent, epoch))], source)
      ensures node in nodes && nodes[node] == Some(NodeAttributes(parent, epoch))
      ensures edges == old(edges)[(source, node) := Transitions(old(edges), source, node) + 1]
      ensures old(ParentsBelow(nodes)) && (parent.ParentCluster? ==> 0 <= parent.cluster < node)
              ==> ParentsBelow(nodes)
    {
      ghost var nodes0 := nodes;
      AddNode(node, parent, epoch);
      AddEdge(source, node);
      if ParentsBelow(nodes0) && (parent.ParentCluster? ==> 0 <= parent.cluster < node) {
        ParentsBelowKept(nodes0, node, parent, epoch, source, node);
      }
    }

    /** `createPathwayToCluster(clusterLeave)`: follow the parents up to the
        root, then reverse. */
    method CreatePathwayToCluster(clusterLeave: int) returns (pathway: seq<int>)
      requires Traceable(nodes, clusterLeave)
      ensures pathway == Pathway(nodes, clusterLeave)
    {
      var visited := [];
      var nodeLabel := ParentCluster(clusterLeave);
      while nodeLabel != Root
        invariant nodeLabel.ParentCluster? ==> Traceable(nodes, nodeLabel.cluster)
        invariant Pathway(nodes, clusterLeave)
                  == (if nodeLabel.Root? then [] else Pathway(nodes, nodeLabel.cluster)) + Reversed(visited)
        decreases if nodeLabel.Root? then 0 else if nodeLabel.cluster < 0 then 1 else nodeLabel.cluster + 2
      {
        var node := nodeLabel.cluster;
        assert Reversed(visited + [node]) == [node] + Reversed(visited) by {
          assert (visited + [node])[..|visited|] == visited;
        }
        visited := visited + [node];
        nodeLabel := nodes[node].value.parent;
      }
      pathway := Reversed(visited);
    }
  }

  /** Adding a node whose parent has a smaller number, or an edge, keeps
      every parent below its child. */
  lemma ParentsBelowKept(nodes: map<int, Option<NodeAttributes>>, node: int, parent: Parent, epoch: int,
                         source: int, target: int)
    requires ParentsBelow(nodes)
    requires parent.ParentCluster? ==> 0 <= parent.cluster < node
    ensures ParentsBelow(nodes[node := Some(NodeAttributes(parent, epoch))])
    ensures ParentsBelow(WithNode(WithNode(nodes, source), target))
  {
  }

  /** Every cluster number below `count` is a node with attributes. */
  predicate Covered(nodes: map<int, Option<NodeAttributes>>, count: nat) {
    forall n :: 0 <= n < count ==> n in nodes && nodes[n].Some?
  }

  /** In a network whose parents lie below their children and whose first
      `count` clusters all carry attributes, the pathway to any of those
      clusters can be followed up to the root. */
  lemma {:induction false} CoveredTraceable(nodes: map<int, Option<NodeAttributes>>, count: nat, node: int)
    requires ParentsBelow(nodes) && Covered(nodes, count)
    requires 0 <= node < count
    ensures Traceable(nodes, node)
    decreases node
  {
    match nodes[node].value.parent
    case Root =>
    case ParentCluster(p) =>
      CoveredTraceable(nodes, count, p);
  }

  // ----------------------------------------------------------------------
  // Leader clustering
  // ----------------------------------------------------------------------

  /** Which clustering evaluator bounds the centroid distance: the RMSD
      evaluator uses the square of the cluster's threshold, the contact-map
      evaluator a limit that depends on the cluster's contacts. */
  datatype EvaluatorKind = ContactsEvaluator | ContactMapEvaluator

  /** `CMClusteringEvaluator.getInnerLimit`. */
  function CMInnerLimit(contacts: real): (limit: real)
    ensures 4.0 <= limit <= 25.0
    ensures contacts > 2.0 ==> limit == 4.0
    ensures contacts < 0.5 ==> limit == 25.0
  {
    if contacts > 2.0 then 4.0
    else if contacts < 0.5 then 25.0
    else 16.0 - 8.0 * (contacts - 0.5)
  }

  /** More contacts never widen the contact-map inner limit. */
  lemma CMInnerLimitAntitone(c1: real, c2: real)
    requires c1 <= c2
    ensures CMInnerLimit(c2) <= CMInnerLimit(c1)
  {
  }

  /** `getInnerLimit(cluster)` of either evaluator. */
  function InnerLimit(kind: EvaluatorKind, threshold2: real, contacts: real): real {
    match kind
    case ContactsEvaluator => threshold2
    case ContactMapEvaluator => CMInnerLimit(contacts)
  }

  /** What the geometry of a snapshot yields against the current clusters:
      `scd(i)` is its squared centroid distance to cluster `i`, `distance(i)`
      the evaluator's distance (RMSD or contact-map similarity) to the
      representative of cluster `i`, `altDistance(i)`
      its distance to the sub-clusters of cluster `i`, `contactsPerAtom` its
      contacts per ligand atom and `threshold` the radius the threshold
      calculator gives a new cluster with those contacts, an `int` or a
      `float` as configured. */
  datatype SnapshotGeometry = SnapshotGeometry(
    scd: nat -> real,
    distance: nat -> real,
    altDistance: nat -> (SubCluster -> real),
    contactsPerAtom: real,
    threshold: Radius)

  /** Cluster `i`, with the given threshold, squared threshold and
      contacts, takes the snapshot: the centroid is within the inner limit
      and `isElement` finds the snapshot similar, which both evaluators
      decide as a distance below the cluster's threshold. */
  predicate Admits(kind: EvaluatorKind, threshold: real, threshold2: real, contacts: real,
                   geometry: SnapshotGeometry, i: nat) {
    geometry.scd(i) <= InnerLimit(kind, threshold2, contacts) && geometry.distance(i) < threshold
  }

  /** Python 2 ordering of an optional metric: `None` is below every number. */
  predicate Py2Less(a: Option<real>, b: Option<real>) {
    match (a, b)
    case (None, Some(_)) => true
    case (Some(x), Some(y)) => x < y
    case _ => false
  }

  /** The loop of `getOptimalMetric` from position `i` on, with the best
      metric and its index so far. */
  function OptimalFrom(metrics: seq<Option<real>>, i: nat, best: Option<real>, bestIndex: nat): (r: nat)
    requires i <= |metrics|
    ensures r == bestIndex || i <= r < |metrics|
    decreases |metrics| - i
  {
    if i == |metrics| then bestIndex
    else if Py2Less(metrics[i], best) then OptimalFrom(metrics, i + 1, metrics[i], i)
    else OptimalFrom(metrics, i + 1, best, bestIndex)
  }

  /** `getOptimalMetric` on the list of cluster metrics: starting from 100 at
      index 0, the index of the first strictly smaller metric at each step. */
  function OptimalIndex(metrics: seq<Option<real>>): (r: nat)
    ensures r == 0 || r < |metrics|
  {
    OptimalFrom(metrics, 0, Some(100.0), 0)
  }

  /** Once the best so far is `None`, nothing replaces it. */
  lemma {:induction false} OptimalFromStuck(metrics: seq<Option<real>>, i: nat, bestIndex: nat)
    requires i <= |metrics|
    ensures OptimalFrom(metrics, i, None, bestIndex) == bestIndex
    decreases |metrics| - i
  {
    if i < |metrics| {
      OptimalFromStuck(metrics, i + 1, bestIndex);
    }
  }

  /** With no `None` ahead, the loop ends at the first minimum of what is
      left, provided that minimum is below the best so far. */
  lemma {:induction false} OptimalFromMinimum(metrics: seq<Option<real>>, i: nat, best: real, bestIndex: nat)
    requires i <= |metrics|
    requires forall k :: i <= k < |metrics| ==> metrics[k].Some?
    ensures var r := OptimalFrom(metrics, i, Some(best), bestIndex);
            (r == bestIndex && forall k :: i <= k < |metrics| ==> best <= metrics[k].value)
            || (i <= r < |metrics| && metrics[r].value < best
                && (forall k :: i <= k < |metrics| ==> metrics[r].value <= metrics[k].value)
                && (forall k :: i <= k < r ==> metrics[r].value < metrics[k].value))
    decreases |metrics| - i
  {
    if i < |metrics| {
      var m := metrics[i].value;
      if m < best {
        OptimalFromMinimum(metrics, i + 1, m, i);
      } else {
        OptimalFromMinimum(metrics, i + 1, best, bestIndex);
      }
    }
  }

  /** `getOptimalMetric` picks the first cluster without metrics when there
      is one; otherwise the first cluster of least metric, provided it is
      below 100; otherwise cluster 0. */
  lemma {:induction false} OptimalIndexChoice(metrics: seq<Option<real>>)
    ensures forall j :: 0 <= j < |metrics| && metrics[j].None? ==>
              OptimalIndex(metrics) <= j && metrics[OptimalIndex(metrics)].None?
    ensures (forall k :: 0 <= k < |metrics| ==> metrics[k].Some?) ==>
              var r := OptimalIndex(metrics);
              (r == 0 && forall k :: 0 <= k < |metrics| ==> 100.0 <= metrics[k].value)
              || (r < |metrics| && metrics[r].value < 100.0
                  && (forall k :: 0 <= k < |metrics| ==> metrics[r].value <= metrics[k].value)
                  && (forall k :: 0 <= k < r ==> metrics[r].value < metrics[k].value))
  {
    if forall k :: 0 <= k < |metrics| ==> metrics[k].Some? {
      OptimalFromMinimum(metrics, 0, 100.0, 0);
    } else {
      var j :| 0 <= j < |metrics| && metrics[j].None?;
      FirstNone(metrics, j);
    }
  }

  /** Helper for `OptimalIndexChoice`: the first `None` is chosen. */
  lemma {:induction false} FirstNone(metrics: seq<Option<real>>, j: nat)
    requires j < |metrics| && metrics[j].None?
    ensures exists f :: 0 <= f <= j && metrics[f].None? && (forall k :: 0 <= k < f ==> metrics[k].Some?)
                        && OptimalIndex(metrics) == f
  {
    var f := 0;
    while metrics[f].Some?
      invariant f <= j && forall k :: 0 <= k < f ==> metrics[k].Some?
      decreases j - f
    {
      f := f + 1;
    }
    OptimalFromBeforeNone(metrics, 0, 100.0, 0, f);
  }

  /** Before the first `None` the best so far stays a number; at it, the
      `None` takes over for good. */
  lemma {:induction false} OptimalFromBeforeNone(metrics: seq<Option<real>>, i: nat, best: real, bestIndex: nat, f: nat)
    requires i <= f < |metrics| && metrics[f].None?
    requires forall k :: i <= k < f ==> metrics[k].Some?
    ensures OptimalFrom(metrics, i, Some(best), bestIndex) == f
    decreases f - i
  {
    if i == f {
      OptimalFromStuck(metrics, i + 1, f);
    } else {
      var m := metrics[i].value;
      if m < best {
        OptimalFromBeforeNone(metrics, i + 1, m, i, f);
      } else {
        OptimalFromBeforeNone(metrics, i + 1, best, bestIndex, f);
      }
    }
  }

  /** The alternative-structure queues of a list of clusters. */
  function AltStructuresOf(cs: seq<Cluster>): set<AltStructures> {
    set c | c in cs :: c.altStructure
  }


  /** The metric of cluster `c` can be read, from `column` or, when it is
      `None`, from the cluster's preferred column. */
  predicate MetricReadable(c: Cluster, column: Option<int>)
    reads c
  {
    match column
    case None => c.HasMetric()
    case Some(k) => c.metrics.Some? && (|c.metrics.value| > 0 ==> -|c.metrics.value| <= k < |c.metrics.value|)
  }

  /** The metric a cluster reports for `column`. */
  function MetricOf(c: Cluster, column: Option<int>): Option<real>
    reads c
    requires MetricReadable(c, column)
  {
    match column
    case None => c.GetMetric()
    case Some(k) => c.GetMetricFromColumn(k)
  }

  /** The metrics the clusters report for `column`, in order. */
  function MetricsOf(cs: seq<Cluster>, column: Option<int>): (r: seq<Option<real>>)
    reads set c | c in cs
    requires forall c :: c in cs ==> MetricReadable(c, column)
    ensures |r| == |cs|
  {
    if |cs| == 0 then [] else MetricsOf(cs[..|cs| - 1], column) + [MetricOf(cs[|cs| - 1], column)]
  }

  lemma {:induction false} MetricsOfAt(cs: seq<Cluster>, column: Option<int>, i: nat)
    requires forall c :: c in cs ==> MetricReadable(c, column)
    requires i < |cs|
    ensures MetricsOf(cs, column)[i] == MetricOf(cs[i], column)
    decreases |cs|
  {
    if i < |cs| - 1 {
      MetricsOfAt(cs[..|cs| - 1], column, i);
    }
  }

  /** The leader clustering: the clusters found so far, the preferred metric
      column, the current epoch and the conformation network. */
  class Clustering {
    var clusters: Clusters
    var col: Option<int>
    var epoch: int
    const conformationNetwork: ConformationNetwork
    const evaluator: EvaluatorKind

    constructor (columnOfReportFile: Option<int>, evaluator: EvaluatorKind)
      ensures fresh(clusters) && clusters.clusters == []
      ensures col == columnOfReportFile && epoch == -1 && this.evaluator == evaluator
      ensures fresh(conformationNetwork) && conformationNetwork.nodes == map[] && conformationNetwork.edges == map[]
    {
      clusters := new Clusters();
      col := columnOfReportFile;
      epoch := -1;
      conformationNetwork := new ConformationNetwork();
      this.evaluator := evaluator;
    }

    /** `setCol(col)`: the preferred column of the clustering and of every
        cluster becomes `col`; nothing else changes. */
    method SetCol(col: Option<int>)
      modifies this, clusters.clusters
      ensures this.col == col && clusters == old(clusters) && epoch == old(epoch)
      ensures clusters.clusters == old(clusters.clusters)
      ensures forall c :: c in clusters.clusters ==> c.metricCol == col
      ensures forall c :: c in clusters.clusters ==>
                c.elements == old(c.elements) && c.metrics == old(c.metrics)
                && c.originalMetrics == old(c.originalMetrics) && c.threshold == old(c.threshold)
                && c.threshold2 == old(c.threshold2) && c.contacts == old(c.contacts)
                && c.trajPosition == old(c.trajPosition)
    {
      this.col := col;
      var i := 0;
      while i < |clusters.clusters|
        invariant 0 <= i <= |clusters.clusters|
        invariant this.col == col && clusters == old(clusters) && epoch == old(epoch)
        invariant clusters.clusters == old(clusters.clusters)
        invariant forall j :: 0 <= j < i ==> clusters.clusters[j].metricCol == col
        invariant forall c :: c in clusters.clusters ==>
                    c.elements == old(c.elements) && c.metrics == old(c.metrics)
                    && c.originalMetrics == old(c.originalMetrics) && c.threshold == old(c.threshold)
                    && c.threshold2 == old(c.threshold2) && c.contacts == old(c.contacts)
                    && c.trajPosition == old(c.trajPosition)
      {
        clusters.clusters[i].metricCol := col;
        i := i + 1;
      }
    }

    /** Every cluster's metric can be read, from `column` or, when it is
        `None`, from the cluster's preferred column. */
    predicate MetricsReadable(column: Option<int>)
      reads this, clusters, clusters.clusters
    {
      forall c :: c in clusters.clusters ==> MetricReadable(c, column)
    }

    /** `getOptimalMetric(column)`. */
    method GetOptimalMetric(column: Option<int>) returns (optimalMetricIndex: nat)
      requires MetricsReadable(column)
      ensures optimalMetricIndex == OptimalIndex(MetricsOf(clusters.clusters, column))
    {
      var optimalMetric: Option<real> := Some(100.0);
      optimalMetricIndex := 0;
      var i := 0;
      while i < |clusters.clusters|
        invariant 0 <= i <= |clusters.clusters|
        invariant OptimalIndex(MetricsOf(clusters.clusters, column))
                  == OptimalFrom(MetricsOf(clusters.clusters, column), i, optimalMetric, optimalMetricIndex)
      {
        var cluster := clusters.clusters[i];
        assert MetricReadable(cluster, column);
        var metric := if column.None? then cluster.GetMetric() else cluster.GetMetricFromColumn(column.value);
        assert metric == MetricOf(cluster, column);
        MetricsOfAt(clusters.clusters, column, i);
        if Py2Less(metric, optimalMetric) {
          optimalMetric := metric;
          optimalMetricIndex := i;
        }
        i := i + 1;
      }
    }

    /** Cluster `j` is the first that admits the snapshot, the one it joins. */
    predicate FirstAdmitting(geometry: SnapshotGeometry, j: int)
      reads this, clusters, clusters.clusters
    {
      && 0 <= j < |clusters.clusters|
      && Admits(evaluator, clusters.clusters[j].threshold, clusters.clusters[j].threshold2, clusters.clusters[j].contacts, geometry, j)
      && forall k :: 0 <= k < j ==>
           !Admits(evaluator, clusters.clusters[k].threshold, clusters.clusters[k].threshold2, clusters.clusters[k].contacts, geometry, k)
    }

    /** The snapshot joins cluster `clusterNum`: `addStructure` when it lies
        beyond half the threshold, `addElement`, and one more transition
        from `origCluster` (or from the cluster itself). */
    method JoinCluster(clusterNum: nat, trajNum: int, snapshot: Structure, origCluster: Option<int>,
                       snapshotNum: int, metrics: seq<real>, geometry: SnapshotGeometry)
      requires clusterNum < |clusters.clusters|
      requires Mergeable(clusters.clusters[clusterNum].metrics, metrics)
      modifies clusters.clusters[clusterNum], clusters.clusters[clusterNum].altStructure, conformationNetwork
      ensures AbsorbedInto(clusters.clusters[clusterNum], snapshot, geometry.distance(clusterNum),
                           Utilities.TrajectoryPosition(epoch, trajNum, snapshotNum),
                           geometry.altDistance(clusterNum), metrics)
      ensures var source := TransitionSource(origCluster, clusterNum);
              conformationNetwork.edges
              == old(conformationNetwork.edges)[(source, clusterNum) := Transitions(old(conformationNetwork.edges), source, clusterNum) + 1]
      ensures conformationNetwork.nodes
              == WithNode(WithNode(old(conformationNetwork.nodes), TransitionSource(origCluster, clusterNum)), clusterNum)
    {
      var cluster := clusters.clusters[clusterNum];
      cluster.Absorb(snapshot, geometry.distance(clusterNum), Utilities.TrajectoryPosition(epoch, trajNum, snapshotNum),
                     geometry.altDistance(clusterNum), metrics);
      var source := if origCluster.None? then clusterNum else origCluster.value;
      conformationNetwork.AddEdge(source, clusterNum);
      assert clusters.clusters[clusterNum] == cluster;
    }

    /** `addSnapshotToCluster(trajNum, snapshot, origCluster, snapshotNum,
        metrics, col)`: the leader algorithm. The snapshot joins the first
        cluster that admits it; when none does it founds a new cluster,
        discovered from `origCluster` (the root when there is none). No
        other cluster changes, and a network in which every cluster can be
        traced to the root stays so. */
    method AddSnapshotToCluster(trajNum: int, snapshot: Structure, origCluster: Option<int>, snapshotNum: int,
                                metrics: seq<real>, col: Option<int>, geometry: SnapshotGeometry)
      returns (clusterNum: nat)
      requires origCluster.Some? ==> 0 <= origCluster.value <= |clusters.clusters|
      requires forall j :: FirstAdmitting(geometry, j) ==> Mergeable(clusters.clusters[j].metrics, metrics)
      modifies clusters, clusters.clusters, AltStructuresOf(clusters.clusters), conformationNetwork
      ensures clusterNum <= old(|clusters.clusters|)
      ensures forall j :: 0 <= j < clusterNum ==>
                !Admits(evaluator, old(clusters.clusters[j].threshold), old(clusters.clusters[j].threshold2),
                        old(clusters.clusters[j].contacts), geometry, j)
      ensures clusterNum < old(|clusters.clusters|) ==>
                clusters.clusters == old(clusters.clusters)
                && var c := clusters.clusters[clusterNum];
                Admits(evaluator, old(c.threshold), old(c.threshold2), old(c.contacts), geometry, clusterNum)
                && geometry.distance(clusterNum) < c.threshold
                && old(Mergeable(c.metrics, metrics))
                && AbsorbedInto(c, snapshot, geometry.distance(clusterNum),
                                Utilities.TrajectoryPosition(epoch, trajNum, snapshotNum),
                                geometry.altDistance(clusterNum), metrics)
                && conformationNetwork.nodes
                   == WithNode(WithNode(old(conformationNetwork.nodes), TransitionSource(origCluster, clusterNum)), clusterNum)
      ensures clusterNum == old(|clusters.clusters|) ==>
                |clusters.clusters| == clusterNum + 1 && clusters.clusters[..clusterNum] == old(clusters.clusters)
                && Founded(clusters.clusters[clusterNum], snapshot, metrics, col, geometry,
                           Utilities.TrajectoryPosition(epoch, trajNum, snapshotNum))
                && conformationNetwork.nodes
                   == WithNode(old(conformationNetwork.nodes)[clusterNum := Some(NodeAttributes(DiscoveryParent(origCluster, clusterNum), epoch))],
                               TransitionSource(origCluster, clusterNum))
      ensures forall c :: c in old(clusters.clusters) && c != clusters.clusters[clusterNum] ==> unchanged(c)
      ensures forall c :: c in old(clusters.clusters) && c.altStructure != clusters.clusters[clusterNum].altStructure
                ==> unchanged(c.altStructure)
      ensures var source := TransitionSource(origCluster, clusterNum);
              conformationNetwork.edges
              == old(conformationNetwork.edges)[(source, clusterNum) := Transitions(old(conformationNetwork.edges), source, clusterNum) + 1]
      ensures old(ParentsBelow(conformationNetwork.nodes)) ==> ParentsBelow(conformationNetwork.nodes)
      ensures old(Covered(conformationNetwork.nodes, |clusters.clusters|))
              ==> Covered(conformationNetwork.nodes, |clusters.clusters|)
    {
      var i := 0;
      while i < |clusters.clusters|
        invariant 0 <= i <= |clusters.clusters|
        invariant unchanged(clusters, conformationNetwork) && unchanged(clusters.clusters)
        invariant unchanged(AltStructuresOf(clusters.clusters))
        invariant forall j :: 0 <= j < i ==>
                    !Admits(evaluator, clusters.clusters[j].threshold, clusters.clusters[j].threshold2, clusters.clusters[j].contacts, geometry, j)
      {
        var cluster := clusters.clusters[i];
        var scd := geometry.scd(i);
        if scd > InnerLimit(evaluator, cluster.threshold2, cluster.contacts) {
          i := i + 1;
          continue;
        }
        var isSimilar := geometry.distance(i) < cluster.threshold;
        if isSimilar {
          assert FirstAdmitting(geometry, i);
          ghost var nodes0 := conformationNetwork.nodes;
          JoinCluster(i, trajNum, snapshot, origCluster, snapshotNum, metrics, geometry);
          if ParentsBelow(nodes0) {
            ParentsBelowKept(nodes0, i, Root, epoch, TransitionSource(origCluster, i), i);
          }
          return i;
        }
        i := i + 1;
      }
      clusterNum := FoundCluster(trajNum, snapshot, origCluster, snapshotNum, metrics, col, geometry);
    }

    /** The new cluster that `addSnapshotToCluster` founds when no cluster
        admits the snapshot, and its discovery in the network. */
    method FoundCluster(trajNum: int, snapshot: Structure, origCluster: Option<int>, snapshotNum: int,
                        metrics: seq<real>, col: Option<int>, geometry: SnapshotGeometry)
      returns (clusterNum: nat)
      requires origCluster.Some? ==> 0 <= origCluster.value <= |clusters.clusters|
      modifies clusters, conformationNetwork
      ensures clusterNum == old(|clusters.clusters|)
      ensures |clusters.clusters| == clusterNum + 1 && clusters.clusters[..clusterNum] == old(clusters.clusters)
      ensures Founded(clusters.clusters[clusterNum], snapshot, metrics, col, geometry,
                      Utilities.TrajectoryPosition(epoch, trajNum, snapshotNum))
      ensures conformationNetwork.nodes
              == WithNode(old(conformationNetwork.nodes)[clusterNum := Some(NodeAttributes(DiscoveryParent(origCluster, clusterNum), epoch))],
                          TransitionSource(origCluster, clusterNum))
      ensures var source := TransitionSource(origCluster, clusterNum);
              conformationNetwork.edges
              == old(conformationNetwork.edges)[(source, clusterNum) := Transitions(old(conformationNetwork.edges), source, clusterNum) + 1]
      ensures old(ParentsBelow(conformationNetwork.nodes)) ==> ParentsBelow(conformationNetwork.nodes)
      ensures old(Covered(conformationNetwork.nodes, |clusters.clusters|))
              ==> Covered(conformationNetwork.nodes, |clusters.clusters|)
    {
      var cluster := new Cluster(snapshot, geometry.threshold, geometry.contactsPerAtom, Some(metrics), col,
                                 Some(Utilities.TrajectoryPosition(epoch, trajNum, snapshotNum)));
      clusters.AddCluster(cluster);
      clusterNum := clusters.GetNumberClusters() - 1;
      var network := conformationNetwork;
      var parent;
      if origCluster.None? || clusterNum == origCluster.value {
        parent := Root;
      } else {
        parent := ParentCluster(origCluster.value);
      }
      var source := if origCluster.None? then clusterNum else origCluster.value;
      network.AddDiscovery(clusterNum, parent, epoch, source);
    }
  }

  /** The cluster at which a snapshot's transition starts: `origCluster`,
      or the cluster it ends in when there is none. */
  function TransitionSource(origCluster: Option<int>, clusterNum: int): (source: int)
    ensures origCluster.Some? ==> source == origCluster.value
    ensures origCluster.None? ==> source == clusterNum
  {
    if origCluster.None? then clusterNum else origCluster.value
  }

  /** The parent of a newly founded cluster `clusterNum`: the root when
      there is no `origCluster` or it is the new cluster itself. */
  function DiscoveryParent(origCluster: Option<int>, clusterNum: int): (parent: Parent)
    ensures parent.Root? <==> origCluster.None? || origCluster.value == clusterNum
    ensures parent.ParentCluster? ==> parent.cluster == origCluster.value
  {
    if origCluster.None? || origCluster.value == clusterNum then Root else ParentCluster(origCluster.value)
  }

  /** `c` is a new cluster founded by `snapshot`: one element, the threshold
      and contacts the geometry gives, the snapshot's metrics and position,
      and an empty queue of alternative structures. */
  twostate predicate Founded(new c: Cluster, snapshot: Structure, metrics: seq<real>, col: Option<int>,
                             geometry: SnapshotGeometry, trajPosition: Utilities.TrajectoryPosition)
    reads c, c.altStructure
  {
    && fresh(c) && fresh(c.altStructure)
    && c.pdb == snapshot && c.elements == 1
    && c.threshold == geometry.threshold.Value() && c.thresholdIsInt == geometry.threshold.IntRadius?
    && c.threshold2 == c.threshold * c.threshold
    && c.contacts == geometry.contactsPerAtom && c.metrics == Some(metrics) && c.originalMetrics == Some(metrics)
    && c.metricCol == col && c.trajPosition == Some(trajPosition)
    && c.altStructure.altStructPQ == [] && c.altStructure.limitSize == 10
  }

  // ----------------------------------------------------------------------
  // Sequential last-snapshot clustering
  // ----------------------------------------------------------------------

  /** A trajectory as the sequential clustering reads it: its snapshots, the
      contacts per ligand atom of its last snapshot, and the rows of its
      report. */
  datatype TrajectoryInput = TrajectoryInput(snapshots: seq<Structure>, contactsPerAtom: real,
                                             report: seq<seq<real>>)

  /** A report `metrics.min(axis=0)` can reduce: `np.loadtxt(..., ndmin=2)`
      gives rows of one width, and the reduction needs at least one row
      (on an empty report it raises `ValueError`). */
  predicate Rectangular(rows: seq<seq<real>>) {
    |rows| > 0 && forall r :: 0 <= r < |rows| ==> |rows[r]| == |rows[0]|
  }

  /** The least value in column `c`. */
  function ColumnMinimum(rows: seq<seq<real>>, c: nat): (m: real)
    requires |rows| > 0 && forall r :: 0 <= r < |rows| ==> c < |rows[r]|
    ensures forall r :: 0 <= r < |rows| ==> m <= rows[r][c]
    ensures exists r :: 0 <= r < |rows| && m == rows[r][c]
    decreases |rows|
  {
    if |rows| == 1 then rows[0][c]
    else
      var rest := ColumnMinimum(rows[..|rows| - 1], c);
      assert forall r :: 0 <= r < |rows| - 1 ==> rows[..|rows| - 1][r] == rows[r];
      Min(rest, rows[|rows| - 1][c])
  }

  /** `metrics.min(axis=0)`: the column-wise minimum of a table. */
  function ColumnMinima(rows: seq<seq<real>>): (minima: seq<real>)
    requires Rectangular(rows)
    ensures |minima| == |rows[0]|
    ensures forall c, r :: 0 <= c < |minima| && 0 <= r < |rows| ==> minima[c] <= rows[r][c]
    ensures forall c :: 0 <= c < |minima| ==> exists r :: 0 <= r < |rows| && minima[c] == rows[r][c]
  {
    seq(|rows[0]|, c requires 0 <= c < |rows[0]| => ColumnMinimum(rows, c))
  }

  /** Leader clustering reduced to one cluster per trajectory, holding the
      trajectory's last snapshot; `hasReport` says whether a report file
      name was configured. */
  class SequentialLastSnapshotClustering {
    var clusters: Clusters
    var col: Option<int>
    const hasReport: bool

    constructor (columnOfReportFile: Option<int>, hasReport: bool)
      ensures fresh(clusters) && clusters.clusters == [] && col == columnOfReportFile && this.hasReport == hasReport
    {
      clusters := new Clusters();
      col := columnOfReportFile;
      this.hasReport := hasReport;
    }

    /** `cluster(paths)`: the clusters are replaced by one cluster per
        trajectory, in order, each with threshold 0, the contacts of the last
        snapshot and, with a report, the column-wise minima of the report as
        metrics and the clustering's column as preferred column. */
    method Cluster(trajectories: seq<TrajectoryInput>)
      requires forall t :: t in trajectories ==> |t.snapshots| > 0 && (hasReport ==> Rectangular(t.report))
      modifies this
      ensures fresh(clusters) && |clusters.clusters| == |trajectories| && col == old(col)
      ensures forall i :: 0 <= i < |trajectories| ==>
                var c := clusters.clusters[i];
                var t := trajectories[i];
                fresh(c) && c.pdb == t.snapshots[|t.snapshots| - 1] && c.elements == 1
                && c.threshold == 0.0 && c.thresholdIsInt && c.threshold2 == 0.0 && c.contacts == t.contactsPerAtom
                && c.metrics == Some(if hasReport then ColumnMinima(t.report) else []) && c.originalMetrics == c.metrics
                && c.metricCol == (if hasReport then col else None) && c.trajPosition == None
                && fresh(c.altStructure) && c.altStructure.altStructPQ == [] && c.altStructure.limitSize == 10
    {
      clusters := new Clusters();
      var i := 0;
      while i < |trajectories|
        invariant 0 <= i <= |trajectories|
        invariant fresh(clusters) && |clusters.clusters| == i && col == old(col)
        invariant forall j :: 0 <= j < i ==>
                    var c := clusters.clusters[j];
                    var t := trajectories[j];
                    fresh(c) && c.pdb == t.snapshots[|t.snapshots| - 1] && c.elements == 1
                    && c.threshold == 0.0 && c.thresholdIsInt && c.threshold2 == 0.0 && c.contacts == t.contactsPerAtom
                    && c.metrics == Some(if hasReport then ColumnMinima(t.report) else []) && c.originalMetrics == c.metrics
                    && c.metricCol == (if hasReport then col else None) && c.trajPosition == None
                    && fresh(c.altStructure) && c.altStructure.altStructPQ == [] && c.altStructure.limitSize == 10
      {
        var trajectory := trajectories[i];
        assert trajectory in trajectories;
        var snapshots := trajectory.snapshots;
        if hasReport {
          var metrics := ColumnMinima(trajectory.report);
          AddSnapshot(snapshots[|snapshots| - 1], trajectory.contactsPerAtom, metrics, col);
        } else {
          AddSnapshot(snapshots[|snapshots| - 1], trajectory.contactsPerAtom, [], None);
        }
        i := i + 1;
      }
    }

    /** `addSnapshotToCluster(snapshot, metrics, col)` of the sequential
        clustering: every snapshot founds a cluster of threshold 0. */
    method AddSnapshot(snapshot: Structure, contactsPerAtom: real, metrics: seq<real>, col: Option<int>)
      modifies clusters
      ensures |clusters.clusters| == |old(clusters.clusters)| + 1
      ensures clusters.clusters[..|old(clusters.clusters)|] == old(clusters.clusters)
      ensures var c := clusters.clusters[|clusters.clusters| - 1];
              fresh(c) && c.pdb == snapshot && c.elements == 1 && c.threshold == 0.0 && c.thresholdIsInt
              && c.threshold2 == 0.0 && c.contacts == contactsPerAtom && c.metrics == Some(metrics)
              && c.originalMetrics == Some(metrics) && c.metricCol == col && c.trajPosition == None
              && fresh(c.altStructure) && c.altStructure.altStructPQ == [] && c.altStructure.limitSize == 10
    {
      var cluster := new Cluster(snapshot, IntRadius(0), contactsPerAtom, Some(metrics), col, None);
      clusters.AddCluster(cluster);
    }
  }
}

=== FILE: ospath.dfy ===
/** The POSIX `os.path` functions the core uses on file names. */
module OsPath {
  import opened Wrappers
  import opened Text

  /** `os.path.split(p)[1]`: the text after the last '/'. */
  function Basename(p: string): (b: string)
    ensures '/' !in b
    ensures |b| <= |p| && b == p[|p| - |b|..]
  {
    match LastIndexOf(p, '/')
    case None => p
    case Some(i) => p[i + 1..]
  }

  /** Some character of `p[lo..hi]` is not '.'. */
  predicate NonDotIn(p: string, lo: nat, hi: int)
    requires hi <= |p|
    decreases hi - lo
  {
    lo < hi && (p[lo] != '.' || NonDotIn(p, lo + 1, hi))
  }

  lemma {:induction false} NonDotInIff(p: string, lo: nat, hi: int)
    requires hi <= |p|
    ensures NonDotIn(p, lo, hi) <==> exists k :: lo <= k < hi && p[k] != '.'
    decreases hi - lo
  {
    if lo < hi {
      NonDotInIff(p, lo + 1, hi);
    }
  }

  /** `os.path.splitext(p)`: the extension starts at the last '.' that
      follows the last '/' and is preceded, within the final component, by a
      character other than '.'; otherwise the extension is empty. */
  function SplitExt(p: string): (r: (string, string))
    ensures r.0 + r.1 == p
    ensures r.1 == [] || (r.1[0] == '.' && '.' !in r.1[1..] && '/' !in r.1)
  {
    var sepIndex: int := match LastIndexOf(p, '/') case None => -1 case Some(i) => i;
    match LastIndexOf(p, '.')
    case None => (p, "")
    case Some(dot) =>
      if dot > sepIndex && NonDotIn(p, sepIndex + 1, dot) then
        assert p == p[..dot] + p[dot..];
        (p[..dot], p[dot..])
      else (p, "")
  }

  /** Without '/' and '.' there is no extension. */
  lemma SplitExtNoDot(p: string)
    requires '/' !in p && '.' !in p
    ensures SplitExt(p) == (p, "")
  {
    LastIndexOfNone(p, '/');
    LastIndexOfNone(p, '.');
  }

  /** A last '.' preceded only by dots does not start an extension. */
  lemma SplitExtLeadingDots(p: string, dot: nat)
    requires '/' !in p && dot < |p| && p[dot] == '.'
    requires forall j :: dot < j < |p| ==> p[j] != '.'
    requires forall k :: 0 <= k < dot ==> p[k] == '.'
    ensures SplitExt(p) == (p, "")
  {
    LastIndexOfNone(p, '/');
    LastIndexOfIs(p, '.', dot);
    NonDotInIff(p, 0, dot);
  }

  /** A last '.' with some other character before it starts the extension. */
  lemma SplitExtAt(p: string, dot: nat, k: nat)
    requires '/' !in p && dot < |p| && p[dot] == '.'
    requires forall j :: dot < j < |p| ==> p[j] != '.'
    requires k < dot && p[k] != '.'
    ensures SplitExt(p) == (p[..dot], p[dot..])
  {
    LastIndexOfNone(p, '/');
    LastIndexOfIs(p, '.', dot);
    NonDotInIff(p, 0, dot);
  }

  /** `os.path.join(a, b)` for two components. */
  function PathJoin(a: string, b: string): string {
    if |b| > 0 && b[0] == '/' then b
    else if a == [] || a[|a| - 1] == '/' then a + b
    else a + "/" + b
  }

  /** The joined path ends with its second component, and a relative
      component is appended to the first after exactly one separator. */
  lemma PathJoinSuffix(a: string, b: string)
    ensures var r := PathJoin(a, b); |r| >= |b| && r[|r| - |b|..] == b
    ensures (|b| == 0 || b[0] != '/') && |a| > 0 ==>
              var r := PathJoin(a, b); r[..|a|] == a && (a[|a| - 1] == '/' || r[|a|] == '/')
  {
  }
}

=== FILE: pylist.dfy ===
/** Python list semantics the core relies on: indexing and slice bounds that
    count from the end when negative, `insert`, `del s[k:]`, and the one-step
    left rotation `s[1:] + [s[0]]`. */
module PyList {
  import opened Wrappers

  /** `s[k]`; Python raises `IndexError` outside `-|s| <= k < |s|`. */
  function At<T>(s: seq<T>, k: int): T
    requires -|s| <= k < |s|
  {
    if k < 0 then s[|s| + k] else s[k]
  }

  /** The position that a slice bound or an `insert` index `k` denotes in a
      list of length `n`: negative values count from the end, and the result
      is clamped to `0..n`. */
  function Clamp(k: int, n: nat): (p: nat)
    ensures p <= n
  {
    if k < 0 then (if n + k < 0 then 0 else n + k)
    else if k > n then n
    else k
  }

  /** `s.insert(k, x)`. */
  function Insert<T>(s: seq<T>, k: int, x: T): (r: seq<T>)
    ensures |r| == |s| + 1
    ensures multiset(r) == multiset(s) + multiset{x}
  {
    var p := Clamp(k, |s|);
    assert s == s[..p] + s[p..];
    s[..p] + [x] + s[p..]
  }

  /** `del s[k:]`: keep the elements before position `Clamp(k, |s|)`. */
  function DelFrom<T>(s: seq<T>, k: int): (r: seq<T>)
    ensures r <= s
  {
    s[..Clamp(k, |s|)]
  }

  /** `s[1:] + [s[0]]`: the first element moves to the end. */
  function RotateLeft<T>(s: seq<T>): (r: seq<T>)
    requires |s| > 0
  {
    s[1..] + [s[0]]
  }

  /** Rotation keeps the length and the elements, and moves each element one
      place to the left, the first one wrapping to the end. */
  lemma RotateLeftAt<T>(s: seq<T>)
    requires |s| > 0
    ensures |RotateLeft(s)| == |s|
    ensures multiset(RotateLeft(s)) == multiset(s)
    ensures forall i :: 0 <= i < |s| - 1 ==> RotateLeft(s)[i] == s[i + 1]
    ensures RotateLeft(s)[|s| - 1] == s[0]
  {
    assert s == [s[0]] + s[1..];
  }

  /** `n` successive rotations. */
  function RotateTimes<T>(s: seq<T>, n: nat): (r: seq<T>)
    requires |s| > 0
    ensures |r| == |s|
    decreases n
  {
    if n == 0 then s else RotateLeft(RotateTimes(s, n - 1))
  }

  /** `n <= |s|` rotations move the first `n` elements, in order, to the end. */
  lemma {:induction false} RotateTimesSplit<T>(s: seq<T>, n: nat)
    requires 0 < |s| && n <= |s|
    ensures RotateTimes(s, n) == s[n..] + s[..n]
    decreases n
  {
    if n > 0 {
      RotateTimesSplit(s, n - 1);
      var prev := s[n - 1..] + s[..n - 1];
      assert prev[0] == s[n - 1];
      assert prev[1..] == s[n..] + s[..n - 1];
      assert s[..n] == s[..n - 1] + [s[n - 1]];
    }
  }

  /** Rotating a list as many times as it has elements gives it back. */
  lemma RotateFullCircle<T>(s: seq<T>)
    requires |s| > 0
    ensures RotateTimes(s, |s|) == s
  {
    RotateTimesSplit(s, |s|);
  }

  /** `[f(x) for x in xs]` where `f` may raise: `None` as soon as one
      application fails. */
  function MapAll<S, U>(xs: seq<S>, f: S -> Option<U>): (r: Option<seq<U>>)
    ensures r.Some? <==> forall i :: 0 <= i < |xs| ==> f(xs[i]).Some?
    ensures r.Some? ==> |r.value| == |xs| && forall i :: 0 <= i < |xs| ==> f(xs[i]) == Some(r.value[i])
    decreases |xs|
  {
    if |xs| == 0 then Some([])
    else match f(xs[0])
      case None => None
      case Some(y) =>
        match MapAll(xs[1..], f)
        case None => None
        case Some(ys) => Some([y] + ys)
  }

  /** `range(lo, hi)`. */
  function Range(lo: int, hi: int): (r: seq<int>)
    ensures |r| == (if hi <= lo then 0 else hi - lo)
    ensures forall k :: 0 <= k < |r| ==> r[k] == lo + k
  {
    seq(if hi <= lo then 0 else hi - lo, k => lo + k)
  }

  /** `[f(x) for x in range(lo, hi)]` succeeds exactly when every `f(x)`
      does, and then holds `f(lo + k)` at position `k`. */
  lemma MapAllRange<U>(lo: int, hi: int, f: int -> Option<U>)
    ensures var r := MapAll(Range(lo, hi), f);
            (r.Some? <==> forall x :: lo <= x < hi ==> f(x).Some?)
            && (r.Some? ==> |r.value| == |Range(lo, hi)|
                            && forall k :: 0 <= k < |r.value| ==> f(lo + k) == Some(r.value[k]))
  {
    var xs := Range(lo, hi);
    var r := MapAll(xs, f);
    if r.Some? {
      forall x | lo <= x < hi
        ensures f(x).Some?
      {
        assert xs[x - lo] == x;
      }
    }
  }

  /** `MapAll` succeeds with `ys` when `f` maps each element to its partner. */
  lemma MapAllSome<S, U>(xs: seq<S>, f: S -> Option<U>, ys: seq<U>)
    requires |xs| == |ys|
    requires forall i :: 0 <= i < |xs| ==> f(xs[i]) == Some(ys[i])
    ensures MapAll(xs, f) == Some(ys)
  {
    var r := MapAll(xs, f);
    assert r.Some?;
    assert forall i :: 0 <= i < |xs| ==> r.value[i] == ys[i];
    assert r.value == ys;
  }
}

=== FILE: simulation_runner.dfy ===
/** The epoch control of `simulationrunner.py`: the exit conditions checked
    after every epoch, the processor-to-cluster mapping carried from one
    epoch to the next, the choice of the similarity column and the index
    bookkeeping of the equilibration selection.

    Reports are tables of reals, read through a `loadtxt` oracle from a path;
    other files are the contents of a `FileSystem` map. */
module Simulation {
  import opened Wrappers
  import opened Text
  import opened PyList
  import opened OsPath
  import Utilities
  import Clustering

  // ----------------------------------------------------------------------
  // Comparisons
  // ----------------------------------------------------------------------

  /** The comparison of a metric exit condition. */
  datatype Comparison = Greater | Less

  /** The constructors of the metric exit conditions compare with `>` for
      the condition ">" and with `<` for anything else. */
  function ComparisonOf(condition: string): (c: Comparison)
    ensures c == Greater <==> condition == ">"
  {
    if condition == ">" then Greater else Less
  }

  predicate Holds(c: Comparison, x: real, y: real) {
    match c
    case Greater => x > y
    case Less => x < y
  }

  function MaxOf(xs: seq<real>): (m: real)
    requires |xs| > 0
    ensures forall i :: 0 <= i < |xs| ==> xs[i] <= m
    ensures exists i :: 0 <= i < |xs| && m == xs[i]
    decreases |xs|
  {
    if |xs| == 1 then xs[0]
    else
      var rest := MaxOf(xs[..|xs| - 1]);
      assert forall i :: 0 <= i < |xs| - 1 ==> xs[..|xs| - 1][i] == xs[i];
      if rest >= xs[|xs| - 1] then rest else xs[|xs| - 1]
  }

  function MinOf(xs: seq<real>): (m: real)
    requires |xs| > 0
    ensures forall i :: 0 <= i < |xs| ==> m <= xs[i]
    ensures exists i :: 0 <= i < |xs| && m == xs[i]
    decreases |xs|
  {
    if |xs| == 1 then xs[0]
    else
      var rest := MinOf(xs[..|xs| - 1]);
      assert forall i :: 0 <= i < |xs| - 1 ==> xs[..|xs| - 1][i] == xs[i];
      if rest <= xs[|xs| - 1] then rest else xs[|xs| - 1]
  }

  /** The condition of `MetricMultipleTrajsExitCondition` on one report
      column: its maximum above the value for ">", its minimum below the
      value otherwise. */
  predicate ColumnMeets(c: Comparison, column: seq<real>, value: real)
    requires |column| > 0
  {
    match c
    case Greater => MaxOf(column) > value
    case Less => MinOf(column) < value
  }

  /** A column meets the condition exactly when one of its entries does. */
  lemma ColumnMeetsSome(c: Comparison, column: seq<real>, value: real)
    requires |column| > 0
    ensures ColumnMeets(c, column, value) <==> exists i :: 0 <= i < |column| && Holds(c, column[i], value)
  {
    if exists i :: 0 <= i < |column| && Holds(c, column[i], value) {
      var i :| 0 <= i < |column| && Holds(c, column[i], value);
      match c
      case Greater => assert column[i] <= MaxOf(column);
      case Less => assert MinOf(column) <= column[i];
    }
  }

  // ----------------------------------------------------------------------
  // Exit conditions
  // ----------------------------------------------------------------------

  /** Whether the clustering exit condition is met when the cluster count
      goes from `previous` to `current`: fewer than a tenth of `ntrajs` new
      clusters. */
  predicate FewNewClusters(previous: int, current: int, ntrajs: int) {
    ((current - previous) as real) < 0.1 * (ntrajs as real)
  }

  /** Two checks in a row with the same cluster count: the second finds no
      new cluster, so it is met exactly when `ntrajs` is positive. */
  lemma SameCountTwice(count: int, ntrajs: int)
    ensures FewNewClusters(count, count, ntrajs) <==> ntrajs > 0
  {
  }

  /** Stops once an epoch adds fewer than `ntrajs / 10` clusters. */
  class ClusteringExitCondition {
    var clusterNum: int
    const ntrajs: int

    constructor (ntrajs: int)
      ensures clusterNum == 0 && this.ntrajs == ntrajs
    {
      clusterNum := 0;
      this.ntrajs := ntrajs;
    }

    /** `checkExitCondition(clustering)`: compares with the count of the
        previous check and always records the new count. */
    method CheckExitCondition(clustering: Clustering.Clustering) returns (met: bool)
      modifies this
      ensures clusterNum == |clustering.clusters.clusters|
      ensures met <==> FewNewClusters(old(clusterNum), |clustering.clusters.clusters|, ntrajs)
    {
      var newClusterNum := clustering.clusters.GetNumberClusters();
      var clusterDiff := newClusterNum - clusterNum;
      clusterNum := newClusterNum;
      met := (clusterDiff as real) < 0.1 * (ntrajs as real);
    }
  }

  /** The metric of every cluster can be read from column `metricCol`. */
  predicate ColumnReadable(clusters: seq<Clustering.Cluster>, metricCol: int)
    reads set c | c in clusters
  {
    forall c :: c in clusters ==> Clustering.MetricReadable(c, Some(metricCol))
  }

  /** Some cluster has a metric in the column that meets the condition. */
  predicate SomeMetricMeets(metrics: seq<Option<real>>, c: Comparison, value: real) {
    exists i :: 0 <= i < |metrics| && metrics[i].Some? && Holds(c, metrics[i].value, value)
  }

  /** Stops once some cluster's metric passes a value. */
  class MetricExitCondition {
    const metricCol: int
    const metricValue: real
    const condition: Comparison

    constructor (metricCol: int, metricValue: real, condition: string)
      ensures this.metricCol == metricCol && this.metricValue == metricValue
      ensures this.condition == ComparisonOf(condition)
    {
      this.metricCol := metricCol;
      this.metricValue := metricValue;
      this.condition := ComparisonOf(condition);
    }

    /** `checkExitCondition(clustering)`: clusters without metrics are
        skipped; nothing changes. */
    method CheckExitCondition(clustering: Clustering.Clustering) returns (met: bool)
      requires ColumnReadable(clustering.clusters.clusters, metricCol)
      ensures met <==> SomeMetricMeets(Clustering.MetricsOf(clustering.clusters.clusters, Some(metricCol)),
                                       condition, metricValue)
    {
      var clusters := clustering.clusters.clusters;
      ghost var metrics := Clustering.MetricsOf(clusters, Some(metricCol));
      var i := 0;
      while i < |clusters|
        invariant 0 <= i <= |clusters|
        invariant forall j :: 0 <= j < i ==> !(metrics[j].Some? && Holds(condition, metrics[j].value, metricValue))
      {
        var cluster := clusters[i];
        assert cluster in clusters;
        var metric := cluster.GetMetricFromColumn(metricCol);
        Clustering.MetricsOfAt(clusters, Some(metricCol), i);
        if metric.Some? && Holds(condition, metric.value, metricValue) {
          return true;
        }
        i := i + 1;
      }
      return false;
    }
  }

  /** `report[:, col]` of a report table. */
  function Column(rows: seq<seq<real>>, col: int): (column: seq<real>)
    requires forall r :: 0 <= r < |rows| ==> -|rows[r]| <= col < |rows[r]|
    ensures |column| == |rows|
  {
    seq(|rows|, r requires 0 <= r < |rows| => At(rows[r], col))
  }

  /** `report[:, col]` of `np.loadtxt(path)` exists and its maximum or
      minimum can be taken. Without `ndmin`, `loadtxt` squeezes every axis of
      length one, so it gives a two-dimensional array only for a report of at
      least two rows and at least two columns (otherwise `report[:, col]`
      raises `IndexError`), and every row must hold the column. */
  predicate ReportReadable(rows: seq<seq<real>>, col: int) {
    |rows| >= 2 && forall r :: 0 <= r < |rows| ==> |rows[r]| >= 2 && -|rows[r]| <= col < |rows[r]|
  }

  /** Reports of one row, or of one column, cannot be read. */
  lemma SqueezedReportsUnreadable(rows: seq<seq<real>>, col: int)
    ensures |rows| < 2 ==> !ReportReadable(rows, col)
    ensures |rows| > 0 && (forall r :: 0 <= r < |rows| ==> |rows[r]| == 1) ==> !ReportReadable(rows, col)
  {
    if |rows| > 0 && forall r :: 0 <= r < |rows| ==> |rows[r]| == 1 {
      assert |rows[0]| == 1;
    }
  }

  /** Stops once enough trajectories have passed a metric value. */
  class MetricMultipleTrajsExitCondition {
    const metricCol: int
    const metricValue: real
    const condition: Comparison
    const report: Utilities.Wildcard
    const numTrajs: int
    const nProcessors: int
    var trajsFound: int

    constructor (metricCol: int, metricValue: real, condition: string, reportWildCard: Utilities.Wildcard,
                 numTrajs: int, nProcessors: int)
      ensures this.metricCol == metricCol && this.metricValue == metricValue
      ensures this.condition == ComparisonOf(condition) && report == reportWildCard
      ensures this.numTrajs == numTrajs && this.nProcessors == nProcessors && trajsFound == 0
    {
      this.metricCol := metricCol;
      this.metricValue := metricValue;
      this.condition := ComparisonOf(condition);
      report := reportWildCard;
      this.numTrajs := numTrajs;
      this.nProcessors := nProcessors;
      trajsFound := 0;
    }

    /** The path of the report of trajectory `j`. */
    function ReportPath(outputFolder: string, j: int): string {
      PathJoin(outputFolder, report.Fill(j))
    }

    /** The reports of trajectories `1 .. upTo - 1` hold the column. */
    predicate ReadableBelow(outputFolder: string, loadtxt: string -> seq<seq<real>>, upTo: int) {
      forall j :: 1 <= j < upTo ==> ReportReadable(loadtxt(ReportPath(outputFolder, j)), metricCol)
    }

    /** The reports of trajectories `1 .. nProcessors - 1` hold the column. */
    predicate ReportsReadable(outputFolder: string, loadtxt: string -> seq<seq<real>>) {
      ReadableBelow(outputFolder, loadtxt, nProcessors)
    }

    /** The first trajectory from `from` on whose report cannot be read,
        or the end of the loop (`nProcessors`, never below `from`) when
        every one can. */
    function FirstUnreadable(outputFolder: string, loadtxt: string -> seq<seq<real>>, from: int): (stop: int)
      ensures from <= stop && (stop == from || stop <= nProcessors)
      ensures forall j :: from <= j < stop ==> ReportReadable(loadtxt(ReportPath(outputFolder, j)), metricCol)
      ensures stop < nProcessors ==> !ReportReadable(loadtxt(ReportPath(outputFolder, stop)), metricCol)
      decreases nProcessors - from
    {
      if from >= nProcessors || !ReportReadable(loadtxt(ReportPath(outputFolder, from)), metricCol) then from
      else FirstUnreadable(outputFolder, loadtxt, from + 1)
    }

    /** How many of the reports of trajectories `1 .. upTo - 1` meet the
        condition. */
    function Meeting(outputFolder: string, loadtxt: string -> seq<seq<real>>, upTo: int): (n: nat)
      requires ReadableBelow(outputFolder, loadtxt, upTo)
      ensures n <= if upTo < 1 then 0 else upTo - 1
      decreases upTo
    {
      if upTo <= 1 then 0
      else
        var j := upTo - 1;
        var rows := loadtxt(ReportPath(outputFolder, j));
        Meeting(outputFolder, loadtxt, j) + if ColumnMeets(condition, Column(rows, metricCol), metricValue) then 1 else 0
    }

    lemma MeetingStep(outputFolder: string, loadtxt: string -> seq<seq<real>>, j: int, rows: seq<seq<real>>)
      requires 1 <= j && ReadableBelow(outputFolder, loadtxt, j)
      requires rows == loadtxt(ReportPath(outputFolder, j)) && ReportReadable(rows, metricCol)
      ensures ReadableBelow(outputFolder, loadtxt, j + 1)
      ensures Meeting(outputFolder, loadtxt, j + 1)
              == Meeting(outputFolder, loadtxt, j) + if ColumnMeets(condition, Column(rows, metricCol), metricValue) then 1 else 0
    {
    }

    /** `checkExitCondition(outputFolder)`: every report that meets the
        condition adds one to `trajsFound`, which is never reset. The first
        report that cannot be read raises `IndexError` (`Err`), after the
        reports before it have been counted. */
    method CheckExitCondition(outputFolder: string, loadtxt: string -> seq<seq<real>>) returns (r: Result<bool>)
      modifies this
      ensures trajsFound == old(trajsFound) + Meeting(outputFolder, loadtxt, FirstUnreadable(outputFolder, loadtxt, 1))
      ensures old(trajsFound) <= trajsFound
      ensures r.Ok? <==> ReportsReadable(outputFolder, loadtxt)
      ensures r.Ok? ==> (r.value <==> trajsFound >= numTrajs)
    {
      var j := 1;
      ghost var found0 := trajsFound;
      while j < nProcessors
        invariant (if nProcessors < 1 then j == 1 else 1 <= j <= nProcessors)
        invariant ReadableBelow(outputFolder, loadtxt, j)
        invariant FirstUnreadable(outputFolder, loadtxt, 1) == FirstUnreadable(outputFolder, loadtxt, j)
        invariant trajsFound == found0 + Meeting(outputFolder, loadtxt, j)
      {
        var rows := loadtxt(ReportPath(outputFolder, j));
        if !ReportReadable(rows, metricCol) {
          return Err("IndexError: too many indices for array");
        }
        MeetingStep(outputFolder, loadtxt, j, rows);
        if ColumnMeets(condition, Column(rows, metricCol), metricValue) {
          trajsFound := trajsFound + 1;
        }
        j := j + 1;
      }
      r := Ok(trajsFound >= numTrajs);
    }
  }

  /** The exit condition a simulation was configured with. */
  datatype ExitCondition =
    | ClusteringCondition(clustering: ClusteringExitCondition)
    | MetricCondition(metric: MetricExitCondition)
    | MultipleTrajsCondition(multipleTrajs: MetricMultipleTrajsExitCondition)

  /** The exit-condition block of a control file. */
  datatype ExitConditionBlock =
    | MetricBlock(metricCol: int, exitValue: real, condition: Option<string>)
    | MetricMultipleTrajsBlock(metricCol: int, exitValue: real, numTrajs: int, condition: Option<string>)
    | ClusteringBlock(trajectories: int)
    | UnknownBlock(typeName: string)

  /** The condition string of a metric block, `"<"` when absent. */
  function ConditionText(condition: Option<string>): (text: string)
    ensures condition.None? ==> text == "<"
    ensures condition.Some? ==> text == condition.value
  {
    match condition
    case None => "<"
    case Some(text) => text
  }

  /** The only conditions the metric exit conditions accept. */
  predicate AcceptedCondition(text: string) {
    text == ">" || text == "<"
  }

  /** Whether `ExitConditionBuilder.build` rejects a block: a metric
      condition other than ">" or "<", or an unknown type. */
  predicate Rejected(block: ExitConditionBlock) {
    match block
    case MetricBlock(_, _, condition) => !AcceptedCondition(ConditionText(condition))
    case MetricMultipleTrajsBlock(_, _, _, condition) => !AcceptedCondition(ConditionText(condition))
    case ClusteringBlock(_) => false
    case UnknownBlock(_) => true
  }

  const ConditionError := "ValueError: the parameter condition only accepts > or <"
  const UnknownTypeError := "Unknown exit condition type!"

  /** `ExitConditionBuilder.build(block, templetizedControlFile, nProcessors)`,
      where `reportWildCard` is the report wildcard of the control file.
      A rejected condition raises `ValueError` and an unknown type exits;
      both are `Err`. */
  method BuildExitCondition(block: ExitConditionBlock, reportWildCard: Utilities.Wildcard, nProcessors: int)
    returns (r: Result<ExitCondition>)
    ensures r.Err? <==> Rejected(block)
    ensures r.Ok? && block.MetricBlock? ==>
              r.value.MetricCondition? && fresh(r.value.metric)
              && r.value.metric.metricCol == block.metricCol && r.value.metric.metricValue == block.exitValue
              && r.value.metric.condition == ComparisonOf(ConditionText(block.condition))
    ensures r.Ok? && block.MetricMultipleTrajsBlock? ==>
              r.value.MultipleTrajsCondition? && fresh(r.value.multipleTrajs)
              && r.value.multipleTrajs.metricCol == block.metricCol
              && r.value.multipleTrajs.metricValue == block.exitValue
              && r.value.multipleTrajs.condition == ComparisonOf(ConditionText(block.condition))
              && r.value.multipleTrajs.numTrajs == block.numTrajs
              && r.value.multipleTrajs.nProcessors == nProcessors
              && r.value.multipleTrajs.report == reportWildCard && r.value.multipleTrajs.trajsFound == 0
    ensures r.Ok? && block.ClusteringBlock? ==>
              r.value.ClusteringCondition? && fresh(r.value.clustering)
              && r.value.clustering.ntrajs == block.trajectories && r.value.clustering.clusterNum == 0
  {
    match block
    case MetricBlock(metricCol, metricValue, condition) =>
      var text := ConditionText(condition);
      if !AcceptedCondition(text) {
        return Err(ConditionError);
      }
      var c := new MetricExitCondition(metricCol, metricValue, text);
      return Ok(MetricCondition(c));
    case MetricMultipleTrajsBlock(metricCol, metricValue, numTrajs, condition) =>
      var text := ConditionText(condition);
      if !AcceptedCondition(text) {
        return Err(ConditionError);
      }
      var c := new MetricMultipleTrajsExitCondition(metricCol, metricValue, text, reportWildCard, numTrajs, nProcessors);
      return Ok(MultipleTrajsCondition(c));
    case ClusteringBlock(ntrajs) =>
      var c := new ClusteringExitCondition(ntrajs);
      return Ok(ClusteringCondition(c));
    case UnknownBlock(_) =>
      return Err(UnknownTypeError);
  }

  /** The object an exit condition keeps its state in. */
  function ConditionObject(e: ExitCondition): object {
    match e
    case ClusteringCondition(c) => c
    case MetricCondition(m) => m
    case MultipleTrajsCondition(t) => t
  }

  // ----------------------------------------------------------------------
  // Simulation runner
  // ----------------------------------------------------------------------

  /** The processor mapping file of an epoch folder. */
  function ProcessorMappingPath(epochDir: string): string {
    epochDir + "/processorMapping.txt"
  }

  /** `setZeroMapping`: one zero per trajectory, that is `processors - 1`. */
  function ZeroMapping(processors: int): (mapping: seq<int>)
    ensures |mapping| == if processors <= 1 then 0 else processors - 1
    ensures forall i :: 0 <= i < |mapping| ==> mapping[i] == 0
  {
    if processors <= 1 then [] else seq(processors - 1, _ => 0)
  }

  /** The file system after `writeMappingToDisk`: nothing is written for an
      empty mapping; otherwise the colon-joined numbers, without a newline. */
  function WriteProcessorMapping(fs: Utilities.FileSystem, epochDir: string, mapping: seq<int>): (r: Utilities.FileSystem)
    ensures |mapping| == 0 ==> r == fs
    ensures |mapping| > 0 ==> ProcessorMappingPath(epochDir) in r
    ensures forall path :: path in fs && path != ProcessorMappingPath(epochDir) ==> path in r && r[path] == fs[path]
  {
    if |mapping| == 0 then fs
    else fs[ProcessorMappingPath(epochDir) := Utilities.IntsText(mapping)]
  }

  /** A runner: its number of processors, its exit condition and the
      processor-to-cluster mapping carried between epochs. */
  class SimulationRunner {
    const processors: int
    const exitCondition: Option<ExitCondition>
    var processorsToClusterMapping: seq<int>

    constructor (processors: int, exitCondition: Option<ExitCondition>)
      ensures this.processors == processors && this.exitCondition == exitCondition
      ensures processorsToClusterMapping == []
    {
      this.processors := processors;
      this.exitCondition := exitCondition;
      processorsToClusterMapping := [];
    }

    /** `hasExitCondition()`. */
    function HasExitCondition(): (r: bool)
      ensures r <==> exitCondition.Some?
    {
      exitCondition.Some?
    }

    /** `checkExitCondition(clustering, outputFolder)`: the multi-trajectory
        condition looks at the reports under the output folder, and fails
        (`Err`) on one it cannot read; the others look at the clustering. */
    method CheckExitCondition(clustering: Clustering.Clustering, outputFolder: string,
                              loadtxt: string -> seq<seq<real>>) returns (r: Result<bool>)
      requires exitCondition.Some?
      requires exitCondition.value.MetricCondition? ==>
                 ColumnReadable(clustering.clusters.clusters, exitCondition.value.metric.metricCol)
      modifies ConditionObject(exitCondition.value)
      ensures match exitCondition.value
              case ClusteringCondition(c) =>
                r.Ok? && c.clusterNum == |clustering.clusters.clusters|
                && (r.value <==> FewNewClusters(old(c.clusterNum), |clustering.clusters.clusters|, c.ntrajs))
              case MetricCondition(m) =>
                r.Ok? && (r.value <==> SomeMetricMeets(Clustering.MetricsOf(clustering.clusters.clusters, Some(m.metricCol)),
                                                       m.condition, m.metricValue))
              case MultipleTrajsCondition(t) =>
                t.trajsFound == old(t.trajsFound) + t.Meeting(outputFolder, loadtxt, t.FirstUnreadable(outputFolder, loadtxt, 1))
                && (r.Ok? <==> t.ReportsReadable(outputFolder, loadtxt))
                && (r.Ok? ==> (r.value <==> t.trajsFound >= t.numTrajs))
    {
      match exitCondition.value
      case MultipleTrajsCondition(t) =>
        r := t.CheckExitCondition(outputFolder, loadtxt);
      case ClusteringCondition(c) =>
        var met := c.CheckExitCondition(clustering);
        r := Ok(met);
      case MetricCondition(m) =>
        var met := m.CheckExitCondition(clustering);
        r := Ok(met);
    }

    /** `updateMappingProcessors(mapping)`: the mapping rotated one place to
        the left. */
    method UpdateMappingProcessors(mapping: seq<int>)
      requires |mapping| > 0
      modifies this
      ensures processorsToClusterMapping == RotateLeft(mapping)
    {
      processorsToClusterMapping := mapping[1..] + [mapping[0]];
    }

    /** `writeMappingToDisk(epochDir)`: the runner's own mapping, which
        `readMappingFromDisk` finds again when it is non-empty. */
    function WriteMappingToDisk(fs: Utilities.FileSystem, epochDir: string): (r: Utilities.FileSystem)
      reads this
      ensures |processorsToClusterMapping| == 0 ==> r == fs
      ensures |processorsToClusterMapping| > 0 ==>
                ProcessorMappingPath(epochDir) in r
                && Utilities.ParseInts(r[ProcessorMappingPath(epochDir)]) == Some(processorsToClusterMapping)
    {
      ProcessorMappingRoundTrip(fs, epochDir, processorsToClusterMapping);
      WriteProcessorMapping(fs, epochDir, processorsToClusterMapping)
    }

    /** `readMappingFromDisk(epochDir)`: a missing file only prints a warning
        (`Ok(false)`); a field that is not an integer raises `ValueError`;
        otherwise the mapping is replaced (`Ok(true)`). */
    method ReadMappingFromDisk(fs: Utilities.FileSystem, epochDir: string) returns (r: Result<bool>)
      modifies this
      ensures ProcessorMappingPath(epochDir) !in fs ==>
                r == Ok(false) && processorsToClusterMapping == old(processorsToClusterMapping)
      ensures ProcessorMappingPath(epochDir) in fs ==>
                match Utilities.ParseInts(fs[ProcessorMappingPath(epochDir)])
                case None => r.Err? && processorsToClusterMapping == old(processorsToClusterMapping)
                case Some(mapping) => r == Ok(true) && processorsToClusterMapping == mapping
    {
      var path := ProcessorMappingPath(epochDir);
      if path !in fs {
        return Ok(false);
      }
      var parsed := Utilities.ParseInts(fs[path]);
      if parsed.None? {
        return Err("ValueError: invalid literal for int()");
      }
      processorsToClusterMapping := parsed.value;
      r := Ok(true);
    }

    /** `setZeroMapping()`. */
    method SetZeroMapping()
      modifies this
      ensures processorsToClusterMapping == ZeroMapping(processors)
    {
      processorsToClusterMapping := if processors <= 1 then [] else seq(processors - 1, _ => 0);
    }
  }

  /** Rotating a mapping of `n` elements `n` times, each rotation one call
      of `updateMappingProcessors` on the previous result, gives the mapping
      back; one rotation moves every element one place to the left and the
      first to the end, keeping the same elements. */
  lemma MappingRotationCycle(mapping: seq<int>)
    requires |mapping| > 0
    ensures RotateTimes(mapping, |mapping|) == mapping
    ensures forall i :: 0 <= i < |mapping| - 1 ==> RotateLeft(mapping)[i] == mapping[i + 1]
    ensures RotateLeft(mapping)[|mapping| - 1] == mapping[0]
    ensures multiset(RotateLeft(mapping)) == multiset(mapping)
  {
    RotateFullCircle(mapping);
    RotateLeftAt(mapping);
  }

  /** What `readMappingFromDisk` finds after `writeMappingToDisk` of a
      non-empty mapping is that mapping; after an empty one, whatever was
      there before. */
  lemma ProcessorMappingRoundTrip(fs: Utilities.FileSystem, epochDir: string, mapping: seq<int>)
    ensures |mapping| > 0 ==>
              var written := WriteProcessorMapping(fs, epochDir, mapping);
              ProcessorMappingPath(epochDir) in written
              && Utilities.ParseInts(written[ProcessorMappingPath(epochDir)]) == Some(mapping)
    ensures |mapping| == 0 ==> WriteProcessorMapping(fs, epochDir, mapping) == fs
  {
    if |mapping| > 0 {
      Utilities.IntsTextRoundTrip(mapping, "");
      assert Utilities.IntsText(mapping) + "" == Utilities.IntsText(mapping);
    }
  }

  /** The runner used for testing copies a finished simulation once. */
  class TestSimulation {
    var copied: bool

    constructor ()
      ensures !copied
    {
      copied := false;
    }

    /** `runSimulation()`: copies (outside this model) only on the first
        call, then remembers that it did. */
    method RunSimulation() returns (copies: bool)
      modifies this
      ensures copies <==> !old(copied)
      ensures copied
    {
      copies := !copied;
      if !copied {
        copied := true;
      }
    }
  }

  // ----------------------------------------------------------------------
  // getMetricColumns
  // ----------------------------------------------------------------------

  predicate IsRmsd(metricType: string) {
    LowerContains(metricType, "rmsd")
  }

  predicate IsDistance(metricType: string) {
    LowerContains(metricType, "distance")
  }

  /** The last position of `types` whose entry passes `p`. */
  function LastWhere(types: seq<string>, p: string -> bool): (r: Option<nat>)
    ensures r.Some? <==> exists j :: 0 <= j < |types| && p(types[j])
    ensures r.Some? ==> r.value < |types| && p(types[r.value])
                        && forall j :: r.value < j < |types| ==> !p(types[j])
    decreases |types|
  {
    if |types| == 0 then None
    else if p(types[|types| - 1]) then Some(|types| - 1)
    else LastWhere(types[..|types| - 1], p)
  }

  lemma LastWhereStep(types: seq<string>, p: string -> bool, i: nat)
    requires i < |types|
    ensures LastWhere(types[..i + 1], p) == if p(types[i]) then Some(i) else LastWhere(types[..i], p)
  {
    assert types[..i + 1][..i] == types[..i];
  }

  /** Only one position is the last to pass `p`. */
  lemma LastWhereIs(types: seq<string>, p: string -> bool, i: nat)
    requires i < |types| && p(types[i])
    requires forall j :: i < j < |types| ==> !p(types[j])
    ensures LastWhere(types, p) == Some(i)
  {
  }

  /** The column `getMetricColumns` chooses: four fixed report columns come
      first, then the metrics; the last RMSD metric wins over the last
      distance metric. */
  function MetricColumn(metricTypes: seq<string>): Option<int> {
    match LastWhere(metricTypes, IsRmsd)
    case Some(i) => Some(i + 4)
    case None =>
      match LastWhere(metricTypes, IsDistance)
      case Some(i) => Some(i + 4)
      case None => None
  }

  /** The column is that of the last metric whose lower-cased type contains
      "rmsd"; when there is none, of the last one containing "distance";
      when there is neither, there is no column. */
  lemma MetricColumnChoice(metricTypes: seq<string>)
    ensures var column := MetricColumn(metricTypes);
            (column.Some? <==> exists j :: 0 <= j < |metricTypes| && (IsRmsd(metricTypes[j]) || IsDistance(metricTypes[j])))
            && (column.Some? ==> 4 <= column.value < |metricTypes| + 4)
    ensures var column := MetricColumn(metricTypes);
            (exists j :: 0 <= j < |metricTypes| && IsRmsd(metricTypes[j])) ==>
              column.Some? && IsRmsd(metricTypes[column.value - 4])
              && forall j :: column.value - 4 < j < |metricTypes| ==> !IsRmsd(metricTypes[j])
    ensures var column := MetricColumn(metricTypes);
            (forall j :: 0 <= j < |metricTypes| ==> !IsRmsd(metricTypes[j])) && column.Some? ==>
              IsDistance(metricTypes[column.value - 4])
              && forall j :: column.value - 4 < j < |metricTypes| ==> !IsDistance(metricTypes[j])
  {
  }

  /** The loop of `getMetricColumns`, for any two type tests: one pass over
      the types remembering the last position passing `p` and, in the
      `elif`, the last position passing `q`. */
  method ScanMetricTypes(metricTypes: seq<string>, p: string -> bool, q: string -> bool)
    returns (pCol: Option<nat>, qCol: Option<nat>)
    ensures pCol == LastWhere(metricTypes, p)
    ensures pCol.None? ==> qCol == LastWhere(metricTypes, q)
  {
    pCol := None;
    qCol := None;
    var i := 0;
    while i < |metricTypes|
      invariant 0 <= i <= |metricTypes|
      invariant pCol == LastWhere(metricTypes[..i], p)
      invariant pCol.None? ==> qCol == LastWhere(metricTypes[..i], q)
    {
      LastWhereStep(metricTypes, p, i);
      LastWhereStep(metricTypes, q, i);
      if p(metricTypes[i]) {
        pCol := Some(i);
      } else if q(metricTypes[i]) {
        qCol := Some(i);
      }
      i := i + 1;
    }
    assert metricTypes[..|metricTypes|] == metricTypes;
  }

  /** `getMetricColumns`: the RMSD column if some metric type mentions
      "rmsd", else the distance column, each four places after its metric. */
  method GetMetricColumns(metricTypes: seq<string>) returns (column: Option<int>)
    ensures column == MetricColumn(metricTypes)
  {
    var rmsdCol, distanceCol := ScanMetricTypes(metricTypes, IsRmsd, IsDistance);
    if rmsdCol.Some? {
      column := Some(rmsdCol.value + 4);
    } else if distanceCol.Some? {
      column := Some(distanceCol.value + 4);
    } else {
      column := None;
    }
  }

  // ----------------------------------------------------------------------
  // Equilibration
  // ----------------------------------------------------------------------

  /** The last element of a non-empty list, `s[-1]`. */
  function Last<T>(s: seq<T>): T
    requires |s| > 0
  {
    s[|s| - 1]
  }

  /** The snapshot `selectEquilibrationLastSnapshot` takes from trajectory
      `ij`: the last model of its file, or `None` when the file is missing. */
  function LastSnapshotOf(fs: Utilities.FileSystem, trajWildcard: Utilities.Wildcard, ij: int): Option<string> {
    var path := trajWildcard.Fill(ij);
    if path in fs then Some(Last(Utilities.PdbSnapshots(fs[path], false, path))) else None
  }

  /** `selectEquilibrationLastSnapshot(nTrajs, trajWildcard)`: one structure
      per trajectory `1 .. nTrajs - 1`, the last snapshot of its file; a
      missing file raises (`None`). */
  function SelectEquilibrationLastSnapshot(fs: Utilities.FileSystem, nTrajs: int, trajWildcard: Utilities.Wildcard)
    : (structures: Option<seq<string>>)
    ensures structures.Some? <==> forall ij :: 1 <= ij < nTrajs ==> trajWildcard.Fill(ij) in fs
    ensures structures.Some? ==>
              |structures.value| == (if nTrajs <= 1 then 0 else nTrajs - 1)
              && forall k :: 0 <= k < |structures.value| ==>
                   var path := trajWildcard.Fill(k + 1);
                   structures.value[k] == Last(Utilities.PdbSnapshots(fs[path], false, path))
  {
    var lastOf := ij => LastSnapshotOf(fs, trajWildcard, ij);
    LastSnapshotsOfRange(fs, trajWildcard, nTrajs, lastOf);
    MapAll(Range(1, nTrajs), lastOf)
  }

  lemma LastSnapshotsOfRange(fs: Utilities.FileSystem, trajWildcard: Utilities.Wildcard, nTrajs: int,
                             lastOf: int -> Option<string>)
    requires forall ij :: lastOf(ij) == LastSnapshotOf(fs, trajWildcard, ij)
    ensures var r := MapAll(Range(1, nTrajs), lastOf);
            (r.Some? <==> forall ij :: 1 <= ij < nTrajs ==> trajWildcard.Fill(ij) in fs)
            && (r.Some? ==>
                  |r.value| == (if nTrajs <= 1 then 0 else nTrajs - 1)
                  && forall k :: 0 <= k < |r.value| ==>
                       var path := trajWildcard.Fill(k + 1);
                       r.value[k] == Last(Utilities.PdbSnapshots(fs[path], false, path)))
  {
    MapAllRange(1, nTrajs, lastOf);
    forall ij
      ensures lastOf(ij).Some? <==> trajWildcard.Fill(ij) in fs
    {
    }
  }

  /** The rows of all trajectories, one after the other, as
      `values.extend(report_values)` builds them. */
  function Flatten(rows: seq<seq<real>>): (r: seq<real>)
  {
    if |rows| == 0 then [] else Flatten(rows[..|rows| - 1]) + rows[|rows| - 1]
  }

  /** The global index of the first row of trajectory `i` (0-based): the
      value of `rowIndex` when `indices.append(rowIndex)` runs for it. */
  function Offset(scores: seq<seq<real>>, i: nat): nat
    requires i <= |scores|
  {
    |Flatten(scores[..i])|
  }

  /** The list `indices` of row offsets. */
  function Offsets(scores: seq<seq<real>>): (offsets: seq<nat>)
    ensures |offsets| == |scores|
  {
    seq(|scores|, i requires 0 <= i < |scores| => Offset(scores, i))
  }

  lemma FlattenStep(scores: seq<seq<real>>, i: nat)
    requires i < |scores|
    ensures Flatten(scores[..i + 1]) == Flatten(scores[..i]) + scores[i]
  {
    assert scores[..i + 1][..i] == scores[..i];
  }

  /** The rows of the first trajectories come first in the whole list. */
  lemma {:induction false} FlattenPrefix(scores: seq<seq<real>>, i: nat, k: nat)
    requires i <= k <= |scores|
    ensures Flatten(scores[..i]) <= Flatten(scores[..k])
    decreases k - i
  {
    if i < k {
      FlattenStep(scores, i);
      FlattenPrefix(scores, i + 1, k);
    }
  }

  /** Row `j` of trajectory `t` sits at global index `Offset(scores, t) + j`. */
  lemma FlattenAt(scores: seq<seq<real>>, t: nat, j: nat)
    requires t < |scores| && j < |scores[t]|
    ensures Offset(scores, t) + j < |Flatten(scores)|
    ensures Flatten(scores)[Offset(scores, t) + j] == scores[t][j]
  {
    FlattenStep(scores, t);
    FlattenPrefix(scores, t + 1, |scores|);
    assert scores[..|scores|] == scores;
  }

  /** The next offset is this one plus this trajectory's row count, and no
      trajectory reaches past the total. */
  lemma OffsetStep(scores: seq<seq<real>>, i: nat)
    requires i < |scores|
    ensures Offset(scores, i + 1) == Offset(scores, i) + |scores[i]|
    ensures Offset(scores, i + 1) <= |Flatten(scores)|
  {
    FlattenStep(scores, i);
    FlattenPrefix(scores, i + 1, |scores|);
    assert scores[..|scores|] == scores;
  }

  /** Offsets start at zero, grow by each trajectory's row count and never
      pass the total. */
  lemma OffsetsGrow(scores: seq<seq<real>>)
    ensures |scores| > 0 ==> Offsets(scores)[0] == 0
    ensures forall i :: 0 <= i < |scores| - 1 ==> Offsets(scores)[i + 1] == Offsets(scores)[i] + |scores[i]|
    ensures forall i :: 0 <= i < |scores| ==> Offsets(scores)[i] + |scores[i]| <= |Flatten(scores)|
    ensures Ascending(Offsets(scores))
  {
    var offsets := Offsets(scores);
    forall i | 0 <= i < |scores|
      ensures offsets[i] + |scores[i]| <= |Flatten(scores)|
      ensures i < |scores| - 1 ==> offsets[i + 1] == offsets[i] + |scores[i]|
    {
      OffsetStep(scores, i);
    }
    OffsetsAscending(scores);
  }

  /** `values`, `indices` and `rowIndex` after the loop over trajectories. */
  method RowOffsets(scores: seq<seq<real>>) returns (values: seq<real>, indices: seq<nat>)
    ensures values == Flatten(scores)
    ensures indices == Offsets(scores)
  {
    values := [];
    indices := [];
    var rowIndex := 0;
    var i := 0;
    while i < |scores|
      invariant 0 <= i <= |scores|
      invariant values == Flatten(scores[..i]) && rowIndex == |values|
      invariant |indices| == i && forall k :: 0 <= k < i ==> indices[k] == Offset(scores, k)
    {
      indices := indices + [rowIndex];
      FlattenStep(scores, i);
      values := values + scores[i];
      rowIndex := rowIndex + |scores[i]|;
      i := i + 1;
    }
    assert scores[..|scores|] == scores;
  }

  /** `np.argmax`: the first position of the largest value. */
  predicate IsFirstMax(values: seq<real>, sel: nat) {
    sel < |values|
    && (forall k :: 0 <= k < |values| ==> values[k] <= values[sel])
    && (forall k :: 0 <= k < sel ==> values[k] < values[sel])
  }

  method FirstArgMax(values: seq<real>) returns (sel: nat)
    requires |values| > 0
    ensures IsFirstMax(values, sel)
  {
    sel := 0;
    var j := 1;
    while j < |values|
      invariant 1 <= j <= |values| && sel < j
      invariant forall k :: 0 <= k < j ==> values[k] <= values[sel]
      invariant forall k :: 0 <= k < sel ==> values[k] < values[sel]
    {
      if values[j] > values[sel] {
        sel := j;
      }
      j := j + 1;
    }
  }

  /** The reverse lookup from position `i` on: the first trajectory whose
      offset equals `sel`, else the one before the first offset past `sel`,
      else the last. */
  function LookupFrom(offsets: seq<nat>, sel: nat, i: nat): int
    requires i <= |offsets|
    decreases |offsets| - i
  {
    if i == |offsets| then |offsets| - 1
    else if offsets[i] == sel then i
    else if sel < offsets[i] then i - 1
    else LookupFrom(offsets, sel, i + 1)
  }

  function TrajectoryOfRow(offsets: seq<nat>, sel: nat): int {
    LookupFrom(offsets, sel, 0)
  }

  predicate Ascending(offsets: seq<nat>) {
    forall i, k :: 0 <= i <= k < |offsets| ==> offsets[i] <= offsets[k]
  }

  lemma {:induction false} LookupFromChoice(offsets: seq<nat>, sel: nat, i: nat)
    requires 0 < |offsets| && offsets[0] == 0 && Ascending(offsets)
    requires i <= |offsets|
    requires forall k :: 0 <= k < i ==> offsets[k] < sel
    ensures var t := LookupFrom(offsets, sel, i);
            0 <= t < |offsets| && offsets[t] <= sel
            && (forall k :: 0 <= k < t ==> offsets[k] < sel)
            && (offsets[t] == sel || forall k :: t < k < |offsets| ==> sel < offsets[k])
    decreases |offsets| - i
  {
    if i < |offsets| && offsets[i] != sel && sel >= offsets[i] {
      LookupFromChoice(offsets, sel, i + 1);
    }
  }

  /** The chosen trajectory starts at or before `sel`; it is the first one
      starting exactly at `sel` if there is one, and otherwise every later
      trajectory starts after `sel`. */
  lemma TrajectoryOfRowChoice(offsets: seq<nat>, sel: nat)
    requires 0 < |offsets| && offsets[0] == 0 && Ascending(offsets)
    ensures var t := TrajectoryOfRow(offsets, sel);
            0 <= t < |offsets| && offsets[t] <= sel
            && ((exists k :: 0 <= k < |offsets| && offsets[k] == sel) ==>
                  offsets[t] == sel && forall k :: 0 <= k < t ==> offsets[k] != sel)
            && ((forall k :: 0 <= k < |offsets| ==> offsets[k] != sel) ==>
                  forall k :: t < k < |offsets| ==> sel < offsets[k])
  {
    LookupFromChoice(offsets, sel, 0);
  }

  /** The selected row lies inside the chosen trajectory unless that
      trajectory is empty. */
  lemma SelectedRowInTrajectory(scores: seq<seq<real>>, sel: nat)
    requires sel < |Flatten(scores)|
    ensures |scores| > 0
    ensures var t := TrajectoryOfRow(Offsets(scores), sel);
            0 <= t < |scores| && Offset(scores, t) <= sel
            && (|scores[t]| > 0 ==> sel - Offset(scores, t) < |scores[t]|
                                    && Flatten(scores)[sel] == scores[t][sel - Offset(scores, t)])
  {
    assert |scores| > 0;
    var offsets := Offsets(scores);
    OffsetsAscending(scores);
    TrajectoryOfRowChoice(offsets, sel);
    var t := TrajectoryOfRow(offsets, sel);
    assert offsets[t] == Offset(scores, t);
    if |scores[t]| > 0 {
      RowBeforeNextOffset(scores, t, sel);
      FlattenAt(scores, t, sel - offsets[t]);
    }
  }

  /** A row at or after trajectory `t`'s offset, before the total and before
      every later offset, is one of trajectory `t`'s rows. */
  lemma RowBeforeNextOffset(scores: seq<seq<real>>, t: nat, sel: nat)
    requires t < |scores| && sel < |Flatten(scores)| && Offset(scores, t) <= sel
    requires Offset(scores, t) == sel || forall k :: t < k < |scores| ==> sel < Offsets(scores)[k]
    requires |scores[t]| > 0
    ensures sel - Offset(scores, t) < |scores[t]|
  {
    OffsetStep(scores, t);
    if Offset(scores, t) != sel {
      if t + 1 < |scores| {
        assert sel < Offsets(scores)[t + 1] == Offset(scores, t + 1);
      } else {
        assert scores[..|scores|] == scores;
      }
    }
  }

  /** Offsets start at zero and never decrease. */
  lemma OffsetsAscending(scores: seq<seq<real>>)
    ensures |scores| > 0 ==> Offsets(scores)[0] == 0
    ensures Ascending(Offsets(scores))
  {
    var offsets := Offsets(scores);
    forall i, k | 0 <= i <= k < |scores|
      ensures offsets[i] <= offsets[k]
    {
      FlattenPrefix(scores, i, k);
    }
  }

  /** The lookup can choose an empty trajectory: with no rows in the first
      trajectory, row 0 is attributed to it, not to the second one. */
  lemma EmptyTrajectoryChosen()
    ensures var scores := [[], [1.0]];
            |Flatten(scores)| == 1 && IsFirstMax(Flatten(scores), 0)
            && TrajectoryOfRow(Offsets(scores), 0) == 0 && scores[0] == []
  {
    var scores: seq<seq<real>> := [[], [1.0]];
    assert scores[..0] == [] && scores[..1] == [[]];
    assert scores[..2] == scores;
    assert Flatten(scores[..1]) == [];
    assert Flatten(scores) == [1.0];
    assert Offsets(scores)[0] == 0;
  }

  /** The trajectory (1-based) and snapshot (0-based) that
      `selectEquilibratedStructure` picks. */
  datatype EquilibrationChoice = EquilibrationChoice(trajNum: int, snapshotNum: int)

  /** The index part of `selectEquilibratedStructure`: `scores[t]` holds the
      summed, normalised row values of trajectory `t + 1`. The row with the
      first largest score is mapped back to its trajectory and snapshot. With
      no rows at all NumPy raises (`None`). */
  method SelectEquilibratedStructure(scores: seq<seq<real>>) returns (choice: Option<EquilibrationChoice>)
    ensures choice.None? <==> |Flatten(scores)| == 0
    ensures choice.Some? ==> 1 <= choice.value.trajNum <= |scores| && 0 <= choice.value.snapshotNum
    ensures choice.Some? ==>
              var t := choice.value.trajNum - 1;
              var sel := Offset(scores, t) + choice.value.snapshotNum;
              IsFirstMax(Flatten(scores), sel) && t == TrajectoryOfRow(Offsets(scores), sel)
              && (|scores[t]| > 0 ==>
                    choice.value.snapshotNum < |scores[t]|
                    && forall i, j :: 0 <= i < |scores| && 0 <= j < |scores[i]| ==>
                         scores[i][j] <= scores[t][choice.value.snapshotNum])
  {
    var values, indices := RowOffsets(scores);
    if |values| == 0 {
      return None;
    }
    var indexSelected := FirstArgMax(values);
    var trajNum := |indices| - 1;
    var i := 0;
    while i < |indices|
      invariant 0 <= i <= |indices|
      invariant LookupFrom(indices, indexSelected, i) == TrajectoryOfRow(indices, indexSelected)
    {
      if indices[i] == indexSelected {
        trajNum := i;
        break;
      } else if indexSelected < indices[i] {
        trajNum := i - 1;
        break;
      }
      i := i + 1;
    }
    SelectedRowInTrajectory(scores, indexSelected);
    var snapshotNum := indexSelected - indices[trajNum];
    choice := Some(EquilibrationChoice(trajNum + 1, snapshotNum));
    if |scores[trajNum]| > 0 {
      forall i, j | 0 <= i < |scores| && 0 <= j < |scores[i]|
        ensures scores[i][j] <= scores[trajNum][snapshotNum]
      {
        FlattenAt(scores, i, j);
      }
    }
  }
}

=== FILE: text.dfy ===
/** The parts of Python's `str` that the core relies on, restricted to ASCII:
    decimal digits and integers (`str(n)`, `int(s)`, `isdigit`), whitespace
    stripping, substring search (`in`, `find`), `split`/`join` and `lower`. */
module Text {
  import opened Wrappers

  // ----------------------------------------------------------------------
  // Digits and decimal integers
  // ----------------------------------------------------------------------

  predicate IsDigit(c: char) {
    '0' <= c <= '9'
  }

  predicate AllDigits(s: string) {
    forall i :: 0 <= i < |s| ==> IsDigit(s[i])
  }

  /** `s.isdigit()`: non-empty and every character a decimal digit. */
  predicate IsDigits(s: string) {
    |s| > 0 && AllDigits(s)
  }

  function DigitValue(c: char): nat
    requires IsDigit(c)
  {
    c as int - '0' as int
  }

  function DigitChar(d: nat): (c: char)
    requires d < 10
    ensures IsDigit(c) && DigitValue(c) == d
  {
    ('0' as int + d) as char
  }

  /** The value of a string of decimal digits, most significant digit first. */
  function DigitsValue(s: string): nat
    requires AllDigits(s)
    decreases |s|
  {
    if |s| == 0 then 0 else 10 * DigitsValue(s[..|s| - 1]) + DigitValue(s[|s| - 1])
  }

  /** `str(n)` for a natural number. */
  function NatToString(n: nat): (s: string)
    ensures IsDigits(s)
    ensures |s| > 1 ==> s[0] != '0'
    decreases n
  {
    if n < 10 then [DigitChar(n)] else NatToString(n / 10) + [DigitChar(n % 10)]
  }

  /** `str(i)` for any integer: a minus sign for negative values. */
  function IntToString(i: int): (s: string)
    ensures |s| > 0
    ensures i < 0 <==> s[0] == '-'
    ensures forall k :: 0 < k < |s| ==> IsDigit(s[k])
  {
    if i < 0 then "-" + NatToString(-i) else NatToString(i)
  }

  lemma {:induction false} NatToStringValue(n: nat)
    ensures DigitsValue(NatToString(n)) == n
    decreases n
  {
    if n >= 10 {
      var s := NatToString(n / 10);
      NatToStringValue(n / 10);
      assert (s + [DigitChar(n % 10)])[..|s|] == s;
    }
  }

  // ----------------------------------------------------------------------
  // Whitespace
  // ----------------------------------------------------------------------

  /** Whitespace of a Python byte string: space, tab, newline, \v, \f, \r. */
  predicate IsSpace(c: char) {
    c == ' ' || 9 <= c as int <= 13
  }

  /** `s.rstrip()`. */
  function RStrip(s: string): (r: string)
    ensures r <= s
    ensures forall i :: |r| <= i < |s| ==> IsSpace(s[i])
    ensures r == [] || !IsSpace(r[|r| - 1])
    decreases |s|
  {
    if |s| > 0 && IsSpace(s[|s| - 1]) then RStrip(s[..|s| - 1]) else s
  }

  /** `s.lstrip()`. */
  function LStrip(s: string): (r: string)
    ensures |r| <= |s| && r == s[|s| - |r|..]
    ensures forall i :: 0 <= i < |s| - |r| ==> IsSpace(s[i])
    ensures r == [] || !IsSpace(r[0])
    decreases |s|
  {
    if |s| > 0 && IsSpace(s[0]) then LStrip(s[1..]) else s
  }

  /** `s.strip()`. */
  function Strip(s: string): string {
    LStrip(RStrip(s))
  }

  lemma StripUnspaced(s: string)
    requires |s| > 0 && !IsSpace(s[0]) && !IsSpace(s[|s| - 1])
    ensures Strip(s) == s
  {
    assert RStrip(s) == s;
  }

  /** `int(s)` on text: surrounding whitespace, an optional sign, then decimal
      digits. `None` where Python raises `ValueError`. */
  function ParseInt(s: string): Option<int> {
    var t := Strip(s);
    if |t| > 0 && (t[0] == '-' || t[0] == '+') then
      if IsDigits(t[1..]) then
        Some(if t[0] == '-' then -(DigitsValue(t[1..]) as int) else DigitsValue(t[1..]))
      else None
    else if IsDigits(t) then Some(DigitsValue(t))
    else None
  }

  /** `int(str(i)) == i`: the decimal text of an integer parses back to it. */
  lemma IntToStringParses(i: int)
    ensures ParseInt(IntToString(i)) == Some(i)
  {
    if i < 0 {
      NegativeParses(-i);
    } else {
      NaturalParses(i);
    }
  }

  /** `int(str(n)) == n` for a natural number. */
  lemma NaturalParses(n: nat)
    ensures ParseInt(NatToString(n)) == Some(n as int)
  {
    NatToStringValue(n);
    DigitsParse(NatToString(n));
  }

  /** `int("-" + str(n)) == -n` for a positive `n`. */
  lemma NegativeParses(n: nat)
    requires n > 0
    ensures ParseInt("-" + NatToString(n)) == Some(-(n as int))
  {
    NatToStringValue(n);
    MinusDigitsParse(NatToString(n), n);
  }

  /** A minus sign and a digit string of value `v` parse to `-v`. */
  lemma MinusDigitsParse(d: string, v: nat)
    requires IsDigits(d) && DigitsValue(d) == v
    ensures ParseInt("-" + d) == Some(-(v as int))
  {
    var s := "-" + d;
    assert s[0] == '-' && s[1..] == d;
    StripUnspaced(s);
  }

  /** A digit string parses to its decimal value. */
  lemma DigitsParse(s: string)
    requires IsDigits(s)
    ensures ParseInt(s) == Some(DigitsValue(s))
  {
    StripUnspaced(s);
  }

  // ----------------------------------------------------------------------
  // Substrings
  // ----------------------------------------------------------------------

  predicate OccursAt(s: string, sub: string, k: int) {
    0 <= k && k + |sub| <= |s| && s[k..k + |sub|] == sub
  }

  function FindFrom(s: string, sub: string, i: nat): (r: Option<nat>)
    ensures r.Some? ==> i <= r.value && OccursAt(s, sub, r.value)
    ensures r.Some? ==> forall j :: i <= j < r.value ==> !OccursAt(s, sub, j)
    ensures r.None? ==> forall j :: i <= j ==> !OccursAt(s, sub, j)
    decreases |s| - i
  {
    if i + |sub| > |s| then None
    else if OccursAt(s, sub, i) then Some(i)
    else FindFrom(s, sub, i + 1)
  }

  /** The index of the leftmost occurrence of `sub` in `s` (`s.find(sub)`). */
  function FindFirst(s: string, sub: string): (r: Option<nat>)
    ensures r.Some? ==> OccursAt(s, sub, r.value)
    ensures r.Some? ==> forall j :: 0 <= j < r.value ==> !OccursAt(s, sub, j)
    ensures r.None? ==> forall j :: !OccursAt(s, sub, j)
  {
    FindFrom(s, sub, 0)
  }

  /** `sub in s`. */
  predicate Contains(s: string, sub: string) {
    FindFirst(s, sub).Some?
  }

  lemma ContainsChar(s: string, c: char)
    ensures Contains(s, [c]) <==> c in s
  {
    if c in s {
      var j :| 0 <= j < |s| && s[j] == c;
      assert s[j..j + 1] == [c];
      assert OccursAt(s, [c], j);
    }
    if Contains(s, [c]) {
      var j := FindFirst(s, [c]).value;
      assert s[j..j + 1][0] == s[j];
    }
  }

  /** The index of the last occurrence of `c` in `s` (`s.rfind(c)`). */
  function LastIndexOf(s: string, c: char): (r: Option<nat>)
    ensures r.Some? ==> r.value < |s| && s[r.value] == c
    ensures r.Some? ==> forall j :: r.value < j < |s| ==> s[j] != c
    ensures r.None? ==> forall j :: 0 <= j < |s| ==> s[j] != c
    decreases |s|
  {
    if |s| == 0 then None
    else if s[|s| - 1] == c then Some(|s| - 1)
    else LastIndexOf(s[..|s| - 1], c)
  }

  /** `LastIndexOf` is determined by its characterisation. */
  lemma LastIndexOfIs(s: string, c: char, i: nat)
    requires i < |s| && s[i] == c
    requires forall j :: i < j < |s| ==> s[j] != c
    ensures LastIndexOf(s, c) == Some(i)
  {
  }

  lemma LastIndexOfNone(s: string, c: char)
    requires forall j :: 0 <= j < |s| ==> s[j] != c
    ensures LastIndexOf(s, c) == None
  {
  }

  function LowerChar(c: char): char {
    if 'A' <= c <= 'Z' then (c as int + 32) as char else c
  }

  /** `s.lower()` on ASCII letters. */
  function ToLower(s: string): (r: string)
    ensures |r| == |s|
    ensures forall i :: 0 <= i < |s| ==> r[i] == LowerChar(s[i])
  {
    seq(|s|, i requires 0 <= i < |s| => LowerChar(s[i]))
  }

  /** Whether `sub` occurs in `s` at position `i` or later: `FindFrom`
      without its characterisation, which is cheaper to unfold. */
  predicate OccursFrom(s: string, sub: string, i: nat)
    decreases |s| - i
  {
    i + |sub| <= |s| && (OccursAt(s, sub, i) || OccursFrom(s, sub, i + 1))
  }

  lemma {:induction false} OccursFromFind(s: string, sub: string, i: nat)
    ensures OccursFrom(s, sub, i) <==> FindFrom(s, sub, i).Some?
    decreases |s| - i
  {
    if i + |sub| <= |s| {
      OccursFromFind(s, sub, i + 1);
    }
  }

  /** `word in s.lower()`. */
  predicate LowerContains(s: string, word: string) {
    OccursFrom(ToLower(s), word, 0)
  }

  lemma LowerContainsIsContains(s: string, word: string)
    ensures LowerContains(s, word) <==> Contains(ToLower(s), word)
  {
    OccursFromFind(ToLower(s), word, 0);
  }

  // ----------------------------------------------------------------------
  // split and join
  // ----------------------------------------------------------------------

  /** `sep.join(parts)`. */
  function Join(parts: seq<string>, sep: string): string
    decreases |parts|
  {
    if |parts| == 0 then ""
    else if |parts| == 1 then parts[0]
    else parts[0] + sep + Join(parts[1..], sep)
  }

  /** The concatenation of `p + sep` for every part `p`. */
  function Terminated(parts: seq<string>, sep: string): string
    decreases |parts|
  {
    if |parts| == 0 then "" else parts[0] + sep + Terminated(parts[1..], sep)
  }

  /** `s.split(sep)` for a non-empty separator: the text between successive
      leftmost non-overlapping occurrences of `sep`. */
  function Split(s: string, sep: string): (parts: seq<string>)
    requires |sep| > 0
    ensures |parts| >= 1
    decreases |s|
  {
    match FindFirst(s, sep)
    case None => [s]
    case Some(k) => [s[..k]] + Split(s[k + |sep|..], sep)
  }

  /** A split at the leftmost separator: the text before it, then the
      split of the rest. */
  lemma SplitAtFirst(s: string, sep: string, k: nat)
    requires |sep| > 0 && FindFirst(s, sep) == Some(k)
    ensures k + |sep| <= |s|
    ensures Split(s, sep) == [s[..k]] + Split(s[k + |sep|..], sep)
    ensures s == s[..k] + sep + s[k + |sep|..]
  {
    SeparatorAt(s, sep, k);
  }

  lemma SeparatorAt(s: string, sep: string, k: nat)
    requires OccursAt(s, sep, k)
    ensures s == s[..k] + sep + s[k + |sep|..]
  {
    assert s == s[..k] + s[k..k + |sep|] + s[k + |sep|..];
  }

  lemma JoinCons(a: string, parts: seq<string>, sep: string)
    requires |parts| >= 1
    ensures Join([a] + parts, sep) == a + sep + Join(parts, sep)
  {
    assert ([a] + parts)[1..] == parts;
  }

  /** Joining the pieces of a split with the same separator gives back the text. */
  lemma {:induction false} SplitJoin(s: string, sep: string)
    requires |sep| > 0
    ensures Join(Split(s, sep), sep) == s
    decreases |s|
  {
    var first := FindFirst(s, sep);
    if first.Some? {
      var k := first.value;
      var rest := s[k + |sep|..];
      SplitAtFirst(s, sep, k);
      SplitJoin(rest, sep);
      JoinCons(s[..k], Split(rest, sep), sep);
    }
  }

  /** No piece of a split contains the separator. */
  lemma {:induction false} SplitPiecesFree(s: string, sep: string)
    requires |sep| > 0
    ensures forall i :: 0 <= i < |Split(s, sep)| ==> !Contains(Split(s, sep)[i], sep)
    decreases |s|
  {
    match FindFirst(s, sep)
    case None =>
    case Some(k) =>
      var rest := s[k + |sep|..];
      SplitPiecesFree(rest, sep);
      var ps := Split(s, sep);
      assert ps[1..] == Split(rest, sep);
      if Contains(s[..k], sep) {
        var j := FindFirst(s[..k], sep).value;
        assert s[..k][j..j + |sep|] == s[j..j + |sep|];
        assert OccursAt(s, sep, j);
        assert false;
      }
      forall i | 0 <= i < |ps| ensures !Contains(ps[i], sep) {
        if i > 0 {
          assert ps[i] == Split(rest, sep)[i - 1];
        }
      }
  }

  lemma NoCharNoOccurrence(p: string, c: char)
    requires c !in p
    ensures forall j :: !OccursAt(p, [c], j)
  {
    forall j | 0 <= j < |p| ensures !OccursAt(p, [c], j) {
      assert p[j..j + 1][0] == p[j];
    }
  }

  /** Splitting on a one-character separator undoes joining with it, for
      pieces that do not contain that character. */
  lemma {:induction false} JoinSplitChar(parts: seq<string>, c: char)
    requires |parts| >= 1
    requires forall i :: 0 <= i < |parts| ==> c !in parts[i]
    ensures Split(Join(parts, [c]), [c]) == parts
    decreases |parts|
  {
    var s := Join(parts, [c]);
    if |parts| == 1 {
      NoCharNoOccurrence(parts[0], c);
    } else {
      var a := parts[0];
      var rest := Join(parts[1..], [c]);
      assert s == a + [c] + rest;
      assert s[|a|..|a| + 1] == [c];
      assert OccursAt(s, [c], |a|);
      forall j | 0 <= j < |a| ensures !OccursAt(s, [c], j) {
        assert s[j..j + 1][0] == a[j];
      }
      var r := FindFirst(s, [c]);
      assert r == Some(|a|);
      JoinSplitChar(parts[1..], c);
      assert s[..|a|] == a;
      assert s[|a| + 1..] == rest;
      assert Split(s, [c]) == [a] + Split(rest, [c]);
    }
  }

  /** A join of at least two parts ends in the separator followed by the last part. */
  lemma {:induction false} JoinLast(parts: seq<string>, sep: string)
    requires |parts| >= 2
    ensures Join(parts, sep) == Join(parts[..|parts| - 1], sep) + sep + parts[|parts| - 1]
    decreases |parts|
  {
    if |parts| > 2 {
      JoinLast(parts[1..], sep);
      assert parts[1..][..|parts| - 2] == parts[..|parts| - 1][1..];
    }
  }

  /** Joining `parts + [t]` is terminating every part with `sep`, then `t`. */
  lemma {:induction false} JoinAsTerminated(parts: seq<string>, t: string, sep: string)
    ensures Join(parts + [t], sep) == Terminated(parts, sep) + t
    decreases |parts|
  {
    if |parts| > 0 {
      assert (parts + [t])[1..] == parts[1..] + [t];
      JoinAsTerminated(parts[1..], t, sep);
    }
  }

  /** In `a + [c] + t`, the `c` sits just before the last `|t|` characters. */
  lemma MarkBeforeTail(a: string, t: string, c: char)
    ensures var v := a + [c] + t;
            v[|a|] == c && |v| == |a| + 1 + |t|
            && forall k :: 0 <= k < |t| ==> v[|a| + 1 + k] == t[k]
  {
  }

  /** Two texts free of `c` that both follow the last `c` of `v` are equal. */
  lemma AfterLastMark(a: string, t: string, b: string, last: string, c: char)
    requires c !in t && c !in last
    requires a + [c] + t == b + [c] + last
    ensures t == last
  {
    var v := a + [c] + t;
    MarkBeforeTail(a, t, c);
    MarkBeforeTail(b, last, c);
    if |last| != |t| {
      assert false;
    }
    assert t == v[|v| - |t|..] == last;
  }

  /** A text with a separator is its pieces but the last, each followed by
      the separator, then the last piece. */
  lemma SplitAsTerminated(s: string, sep: string)
    requires |sep| > 0 && Contains(s, sep)
    ensures var parts := Split(s, sep);
            |parts| >= 2 && Terminated(parts[..|parts| - 1], sep) + parts[|parts| - 1] == s
  {
    SplitHasTwo(s, sep);
    var parts := Split(s, sep);
    SplitJoin(s, sep);
    JoinedAsTerminated(parts, sep);
  }

  /** A text holding the separator splits into at least two pieces. */
  lemma SplitHasTwo(s: string, sep: string)
    requires |sep| > 0 && Contains(s, sep)
    ensures |Split(s, sep)| >= 2
  {
    var k := FindFirst(s, sep).value;
    SplitAtFirst(s, sep, k);
  }

  lemma JoinedAsTerminated(parts: seq<string>, sep: string)
    requires |parts| >= 1
    ensures Terminated(parts[..|parts| - 1], sep) + parts[|parts| - 1] == Join(parts, sep)
  {
    assert parts == parts[..|parts| - 1] + [parts[|parts| - 1]];
    JoinAsTerminated(parts[..|parts| - 1], parts[|parts| - 1], sep);
  }

  /** When `s` ends with `c` followed by text free of `c`, that text is the
      last piece of `s.split(c)`. */
  lemma SplitLastPiece(u: string, c: char, t: string)
    requires c !in t
    ensures var parts := Split(u + [c] + t, [c]); parts[|parts| - 1] == t
  {
    var v := u + [c] + t;
    var parts := Split(v, [c]);
    var last := parts[|parts| - 1];
    SplitLastPieceFree(v, [c]);
    ContainsChar(last, c);
    EndAfterMark(u, t, last, c);
  }

  /** If `u + [c] + t` is `last`, or ends in `c` then `last`, and neither
      `t` nor `last` holds `c`, then `t` is `last`. */
  lemma EndAfterMark(u: string, t: string, last: string, c: char)
    requires c !in t && c !in last
    requires LastAfter(u + [c] + t, [c], last)
    ensures t == last
  {
    var v := u + [c] + t;
    MarkBeforeTail(u, t, c);
    if v == last {
      assert false;
    }
    var b := v[..|v| - |last| - 1];
    assert v == b + [c] + last;
    AfterLastMark(u, t, b, last, c);
  }

  /** The last piece of a split does not contain the separator. */
  lemma LastPieceFree(s: string, sep: string)
    requires |sep| > 0
    ensures var parts := Split(s, sep); !Contains(parts[|parts| - 1], sep)
  {
    SplitPiecesFree(s, sep);
  }

  /** The last piece of a split is the text after the last separator. */
  lemma SplitLastPieceFree(s: string, sep: string)
    requires |sep| > 0
    ensures var parts := Split(s, sep);
            var last := parts[|parts| - 1];
            !Contains(last, sep) && LastAfter(s, sep, last)
  {
    LastPieceFree(s, sep);
    SplitLastPieceSuffix(s, sep);
  }

  /** A join of at least two parts ends in the separator and the last part. */
  lemma JoinSuffix(parts: seq<string>, sep: string)
    requires |parts| >= 2
    ensures var j := Join(parts, sep);
            var last := parts[|parts| - 1];
            |last| + |sep| <= |j| && j[|j| - |last| - |sep|..] == sep + last
  {
    JoinLast(parts, sep);
    var head := Join(parts[..|parts| - 1], sep);
    var last := parts[|parts| - 1];
    assert head + sep + last == head + (sep + last);
  }

  /** `s` is `last`, or ends in `sep` followed by `last`. */
  predicate LastAfter(s: string, sep: string, last: string) {
    s == last || (|last| + |sep| <= |s| && s[|s| - |last| - |sep|..] == sep + last)
  }

  lemma SplitLastPieceSuffix(s: string, sep: string)
    requires |sep| > 0
    ensures var parts := Split(s, sep); LastAfter(s, sep, parts[|parts| - 1])
  {
    var parts := Split(s, sep);
    SplitJoin(s, sep);
    JoinEndsWithLast(parts, sep, s);
  }

  /** A join `j` is its only part, or ends in the separator and the last part. */
  lemma JoinEndsWithLast(parts: seq<string>, sep: string, j: string)
    requires |parts| >= 1 && Join(parts, sep) == j
    ensures LastAfter(j, sep, parts[|parts| - 1])
  {
    if |parts| >= 2 {
      JoinSuffix(parts, sep);
    }
  }

  /** `(s + w).rstrip() == s` when `w` is whitespace and `s` does not end in it. */
  lemma {:induction false} RStripTrailingSpace(s: string, w: string)
    requires s == [] || !IsSpace(s[|s| - 1])
    requires forall i :: 0 <= i < |w| ==> IsSpace(w[i])
    ensures RStrip(s + w) == s
    decreases |w|
  {
    if |w| == 0 {
      assert s + w == s;
    } else {
      var w' := w[..|w| - 1];
      assert (s + w)[..|s + w| - 1] == s + w';
      RStripTrailingSpace(s, w');
    }
  }

  /** One leading blank does not change a stripped text. */
  lemma StripLeadingBlank(s: string)
    requires |s| > 0 && !IsSpace(s[0]) && !IsSpace(s[|s| - 1])
    ensures Strip(" " + s) == s
  {
    RStripTrailingSpace(" " + s, "");
    assert " " + s + "" == " " + s;
    assert (" " + s)[1..] == s;
  }

  /** A join ends with the last character of its last part. */
  lemma JoinEndsLikeLastPart(parts: seq<string>, sep: string)
    requires |parts| >= 1 && |parts[|parts| - 1]| > 0
    ensures var j := Join(parts, sep); |j| > 0 && j[|j| - 1] == parts[|parts| - 1][|parts[|parts| - 1]| - 1]
  {
    if |parts| >= 2 {
      JoinLast(parts, sep);
    }
  }

  lemma JoinThree(x: string, y: string, z: string, sep: string)
    ensures Join([x, y, z], sep) == x + sep + y + sep + z
  {
    var parts := [x, y, z];
    assert parts[1..] == [y, z];
    assert [y, z][1..] == [z];
    assert Join([z], sep) == z;
    assert Join([y, z], sep) == y + sep + z;
    assert Join(parts, sep) == x + sep + (y + sep + z);
  }
}

=== FILE: utilities.dfy ===
/** The helpers of `utilities.py`: atom-name generation, report and trajectory
    file names, epoch folder listing, splitting PDB trajectories into
    snapshots, the metric tables of an epoch, and the colon-separated mapping
    files together with the `Topology` bookkeeping that writes and reads them.

    The file system is a map from path to file content; reading a path that
    is not in the map is Python's `IOError`. */
module Utilities {
  import opened Wrappers
  import opened Text
  import opened PyList
  import opened OsPath

  // ----------------------------------------------------------------------
  // gen_atom_name
  // ----------------------------------------------------------------------

  /** 26 * 26 * 26 * 10: the number of distinct names `GenAtomName` spells. */
  const AtomNameCount: nat := 175760

  function Letter(k: nat): (c: char)
    requires k < 26
    ensures 'A' <= c <= 'Z'
  {
    (65 + k) as char
  }

  predicate IsAtomName(name: string) {
    |name| == 4 && 'A' <= name[0] <= 'Z' && 'A' <= name[1] <= 'Z' && 'A' <= name[2] <= 'Z'
    && IsDigit(name[3])
  }

  /** `gen_atom_name(index)`: `index` written in the mixed radix
      26 * 26 * 26 * 10, the three most significant places as letters. */
  function GenAtomName(index: nat): (name: string)
    requires index < AtomNameCount
    ensures IsAtomName(name)
  {
    var ind1 := index / 6760;
    var ind2 := index % 6760;
    var ind3 := ind2 % 260;
    [Letter(ind1), Letter(ind2 / 260), Letter(ind3 / 10)] + NatToString(ind3 % 10)
  }

  /** The index an atom name spells: the inverse of `GenAtomName`. */
  function AtomNameIndex(name: string): (index: nat)
    requires IsAtomName(name)
    ensures index < AtomNameCount
  {
    (name[0] as int - 65) * 6760 + (name[1] as int - 65) * 260 + (name[2] as int - 65) * 10
    + DigitValue(name[3])
  }

  lemma AtomNameRoundTrip(index: nat)
    requires index < AtomNameCount
    ensures AtomNameIndex(GenAtomName(index)) == index
  {
    var ind2 := index % 6760;
    var ind3 := ind2 % 260;
    assert NatToString(ind3 % 10) == [DigitChar(ind3 % 10)];
    assert index == (index / 6760) * 6760 + ind2;
    assert ind2 == (ind2 / 260) * 260 + ind3;
    assert ind3 == (ind3 / 10) * 10 + ind3 % 10;
  }

  /** Distinct indices get distinct names. */
  lemma GenAtomNameInjective(i: nat, j: nat)
    requires i < AtomNameCount && j < AtomNameCount
    requires GenAtomName(i) == GenAtomName(j)
    ensures i == j
  {
    AtomNameRoundTrip(i);
    AtomNameRoundTrip(j);
  }

  // ----------------------------------------------------------------------
  // getFileSuffix, isReport, getReportNum
  // ----------------------------------------------------------------------

  /** `getFileSuffix(filename, separator)`: the last `separator`-delimited
      piece of the file name without its extension. */
  function FileSuffix(filename: string, separator: string): string
    requires |separator| > 0
  {
    var parts := Split(SplitExt(filename).0, separator);
    parts[|parts| - 1]
  }

  /** The suffix is the text after the last separator of the name without
      extension (or that whole name when it has no separator). */
  lemma FileSuffixIsLastPiece(filename: string, separator: string)
    requires |separator| > 0
    ensures var root := SplitExt(filename).0;
            var s := FileSuffix(filename, separator);
            !Contains(s, separator) && LastAfter(root, separator, s)
  {
    var root := SplitExt(filename).0;
    var parts := Split(root, separator);
    assert FileSuffix(filename, separator) == parts[|parts| - 1];
    SplitLastPieceFree(root, separator);
  }

  /** `isReport(name)`: the `_`-suffix is a non-empty string of digits. */
  predicate IsReport(reportFilename: string) {
    IsDigits(FileSuffix(reportFilename, "_"))
  }

  /** `getReportNum(name)`: `int()` of the `_`-suffix, which raises
      `ValueError` when the suffix is not an integer. */
  function ReportNum(reportFilename: string): Result<int> {
    match ParseInt(FileSuffix(reportFilename, "_"))
    case Some(n) => Ok(n)
    case None => Err("ValueError: invalid literal for int()")
  }

  /** Every report name has a report number: the value of its digit suffix. */
  lemma ReportNumOfReport(reportFilename: string)
    requires IsReport(reportFilename)
    ensures ReportNum(reportFilename) == Ok(DigitsValue(FileSuffix(reportFilename, "_")) as int)
  {
    DigitsParse(FileSuffix(reportFilename, "_"));
  }

  // ----------------------------------------------------------------------
  // getReportAndTrajectoryWildcard
  // ----------------------------------------------------------------------

  /** A `%d` file-name template `root + "_%d" + ext`. */
  datatype Wildcard = Wildcard(root: string, ext: string) {
    /** The template text. */
    function Pattern(): string {
      root + "_%d" + ext
    }

    /** `wildcard % n`. */
    function Fill(n: int): string {
      root + "_" + IntToString(n) + ext
    }
  }

  /** `'_%d'.join(os.path.splitext(os.path.split(path)[1]))`. */
  function MakeWildcard(path: string): (w: Wildcard)
    ensures w.root + w.ext == Basename(path)
    ensures w.ext == [] || (w.ext[0] == '.' && '.' !in w.ext[1..])
    ensures '/' !in w.root && '/' !in w.ext
  {
    var parts := SplitExt(Basename(path));
    assert forall i :: 0 <= i < |parts.0| ==> parts.0[i] == Basename(path)[i];
    Wildcard(parts.0, parts.1)
  }

  /** `getReportAndTrajectoryWildcard`: the wildcards of the control file's
      report path and trajectory path. */
  function ReportAndTrajectoryWildcard(reportPath: string, trajectoryPath: string): (r: (Wildcard, Wildcard))
    ensures r.0.Pattern() == SplitExt(Basename(reportPath)).0 + "_%d" + SplitExt(Basename(reportPath)).1
    ensures r.1.Pattern() == SplitExt(Basename(trajectoryPath)).0 + "_%d" + SplitExt(Basename(trajectoryPath)).1
  {
    (MakeWildcard(reportPath), MakeWildcard(trajectoryPath))
  }

  /** Inserting text with no '.', no '/' and a first character other than
      '.' before the extension leaves the extension where it was. */
  lemma SplitExtInsert(b: string, x: string)
    requires '/' !in b && '/' !in x && '.' !in x && |x| > 0
    ensures var (r, e) := SplitExt(b); SplitExt(r + x + e) == (r + x, e)
  {
    var (r, e) := SplitExt(b);
    var y := r + x + e;
    LastIndexOfNone(b, '/');
    match LastIndexOf(b, '.')
    case None =>
      assert r == b && e == [];
      assert y == b + x;
      SplitExtNoDot(y);
    case Some(dot) =>
      NonDotInIff(b, 0, dot);
      if exists k :: 0 <= k < dot && b[k] != '.' {
        assert r == b[..dot] && e == b[dot..];
        assert y[|r| + |x|] == '.';
        assert forall j :: |r| + |x| < j < |y| ==> y[j] == e[j - |r| - |x|];
        SplitExtAt(y, |r| + |x|, |r|);
        assert y[..|r| + |x|] == r + x && y[|r| + |x|..] == e;
      } else {
        assert r == b && e == [];
        assert y == b + x;
        SplitExtLeadingDots(y, dot);
      }
  }

  /** Filling a wildcard with a trajectory number `n` names a report file
      whose report number is `n`. */
  lemma WildcardReportNum(path: string, n: nat)
    ensures IsReport(MakeWildcard(path).Fill(n))
    ensures ReportNum(MakeWildcard(path).Fill(n)) == Ok(n)
  {
    var w := MakeWildcard(path);
    var d := NatToString(n);
    FilledSuffix(path, d);
    assert IntToString(n) == d;
    DigitsParse(d);
    NatToStringValue(n);
  }

  lemma DigitsExclude(d: string, c: char)
    requires AllDigits(d) && !IsDigit(c)
    ensures c !in d
  {
  }

  /** Text inserted between a wildcard's root and extension stays out of the
      extension. */
  lemma WildcardInsert(path: string, x: string)
    requires '/' !in x && '.' !in x && |x| > 0
    ensures var w := MakeWildcard(path); SplitExt(w.root + x + w.ext) == (w.root + x, w.ext)
  {
    var w := MakeWildcard(path);
    assert w.root == SplitExt(Basename(path)).0 && w.ext == SplitExt(Basename(path)).1;
    SplitExtInsert(Basename(path), x);
  }

  lemma NumberTextClean(d: string)
    requires IsDigits(d)
    ensures '/' !in "_" + d && '.' !in "_" + d && '_' !in d
  {
    DigitsExclude(d, '.');
    DigitsExclude(d, '/');
    DigitsExclude(d, '_');
  }

  /** A filled wildcard keeps the wildcard's extension: the name without
      extension is the root, "_" and the number. */
  lemma FilledRoot(path: string, d: string)
    requires IsDigits(d)
    ensures var w := MakeWildcard(path); SplitExt(w.root + "_" + d + w.ext).0 == w.root + "_" + d
  {
    var w := MakeWildcard(path);
    NumberTextClean(d);
    WildcardInsert(path, "_" + d);
    Regroup(w.root, d, w.ext);
  }

  lemma Regroup(r: string, d: string, e: string)
    requires SplitExt(r + ("_" + d) + e) == (r + ("_" + d), e)
    ensures SplitExt(r + "_" + d + e).0 == r + "_" + d
  {
    assert r + "_" + d + e == r + ("_" + d) + e;
    assert r + ("_" + d) == r + "_" + d;
  }

  lemma FilledSuffix(path: string, d: string)
    requires IsDigits(d)
    ensures FileSuffix(MakeWildcard(path).root + "_" + d + MakeWildcard(path).ext, "_") == d
  {
    var w := MakeWildcard(path);
    FilledRoot(path, d);
    NumberTextClean(d);
    SuffixAfterRoot(w.root + "_" + d + w.ext, w.root, d);
  }

  /** A name whose part before the extension ends in "_" and a text free of
      "_" has that text as its suffix. */
  lemma SuffixAfterRoot(name: string, root: string, d: string)
    requires SplitExt(name).0 == root + "_" + d && '_' !in d
    ensures FileSuffix(name, "_") == d
  {
    assert root + "_" + d == root + ['_'] + d;
    SplitLastPiece(root, '_', d);
  }

  // ----------------------------------------------------------------------
  // get_epoch_folders
  // ----------------------------------------------------------------------

  /** The names that are all digits, in their original order. */
  function DigitNames(names: seq<string>): (r: seq<string>)
    ensures forall i :: 0 <= i < |r| ==> IsDigits(r[i])
    ensures forall x :: multiset(r)[x] == if IsDigits(x) then multiset(names)[x] else 0
    decreases |names|
  {
    if |names| == 0 then []
    else
      assert names == [names[0]] + names[1..];
      (if IsDigits(names[0]) then [names[0]] else []) + DigitNames(names[1..])
  }

  predicate AllDigitNames(s: seq<string>) {
    forall i :: 0 <= i < |s| ==> IsDigits(s[i])
  }

  /** Sorted by integer value. */
  predicate SortedByValue(s: seq<string>)
    requires AllDigitNames(s)
  {
    forall i, j :: 0 <= i < j < |s| ==> DigitsValue(s[i]) <= DigitsValue(s[j])
  }

  /** A name no larger than the first of a sorted list can go in front. */
  lemma ConsSorted(h: string, rest: seq<string>)
    requires IsDigits(h) && AllDigitNames(rest) && SortedByValue(rest)
    requires |rest| > 0 ==> DigitsValue(h) <= DigitsValue(rest[0])
    ensures AllDigitNames([h] + rest) && SortedByValue([h] + rest)
  {
    var r := [h] + rest;
    forall i, j | 0 <= i < j < |r|
      ensures DigitsValue(r[i]) <= DigitsValue(r[j])
    {
      if i == 0 {
        assert r[j] == rest[j - 1];
      } else {
        assert r[i] == rest[i - 1] && r[j] == rest[j - 1];
      }
    }
  }

  /** Insert `x` after every element whose value does not exceed its own. */
  function InsertByValue(x: string, s: seq<string>): (r: seq<string>)
    requires IsDigits(x) && AllDigitNames(s) && SortedByValue(s)
    ensures AllDigitNames(r) && SortedByValue(r)
    ensures multiset(r) == multiset(s) + multiset{x}
    ensures r[0] == x || (|s| > 0 && r[0] == s[0])
    decreases |s|
  {
    if |s| == 0 then [x]
    else if DigitsValue(x) < DigitsValue(s[0]) then
      ConsSorted(x, s);
      [x] + s
    else
      TailSorted(s);
      var rest := InsertByValue(x, s[1..]);
      InsertBehindHead(x, s, rest);
      [s[0]] + rest
  }

  lemma TailSorted(s: seq<string>)
    requires |s| > 0 && AllDigitNames(s) && SortedByValue(s)
    ensures AllDigitNames(s[1..]) && SortedByValue(s[1..])
  {
    forall i, j | 0 <= i < j < |s| - 1
      ensures DigitsValue(s[1..][i]) <= DigitsValue(s[1..][j])
    {
      assert s[1..][i] == s[i + 1] && s[1..][j] == s[j + 1];
    }
  }

  /** Putting the head back in front of the tail with `x` inserted. */
  lemma InsertBehindHead(x: string, s: seq<string>, rest: seq<string>)
    requires IsDigits(x) && |s| > 0 && AllDigitNames(s) && SortedByValue(s)
    requires DigitsValue(s[0]) <= DigitsValue(x)
    requires AllDigitNames(rest) && SortedByValue(rest)
    requires multiset(rest) == multiset(s[1..]) + multiset{x}
    requires rest[0] == x || (|s| > 1 && rest[0] == s[1])
    ensures AllDigitNames([s[0]] + rest) && SortedByValue([s[0]] + rest)
    ensures multiset([s[0]] + rest) == multiset(s) + multiset{x}
  {
    assert s == [s[0]] + s[1..];
    ConsSorted(s[0], rest);
  }

  /** `sort(key=int)` on digit names: insertion of each element in turn,
      which keeps equal-valued names in their original order. */
  function SortByValue(s: seq<string>): (r: seq<string>)
    requires AllDigitNames(s)
    ensures AllDigitNames(r) && SortedByValue(r)
    ensures multiset(r) == multiset(s)
    decreases |s|
  {
    if |s| == 0 then []
    else
      assert s == s[..|s| - 1] + [s[|s| - 1]];
      InsertByValue(s[|s| - 1], SortByValue(s[..|s| - 1]))
  }

  /** `get_epoch_folders` on the listing `names` of the simulation folder. */
  function EpochFolders(names: seq<string>): (folders: seq<string>)
    ensures AllDigitNames(folders) && SortedByValue(folders)
  {
    SortByValue(DigitNames(names))
  }

  /** The epoch folders are exactly the all-digit names, each as often as it
      is listed. */
  lemma EpochFoldersAreDigitNames(names: seq<string>)
    ensures forall x :: multiset(EpochFolders(names))[x] == if IsDigits(x) then multiset(names)[x] else 0
    ensures forall x :: x in EpochFolders(names) <==> x in names && IsDigits(x)
  {
    var folders := EpochFolders(names);
    forall x ensures x in folders <==> x in names && IsDigits(x) {
      assert x in folders <==> multiset(folders)[x] > 0;
      assert x in names <==> multiset(names)[x] > 0;
    }
  }

  // ----------------------------------------------------------------------
  // getSnapshots, PDB branch
  // ----------------------------------------------------------------------

  const EndModel: string := "ENDMDL"

  /** The remark block put before snapshot number `modelNumber` in verbose mode. */
  function RemarkHeader(trajectoryFile: string, modelNumber: int): string {
    "REMARK 000 File created using PELE++\nREMARK source            : " + trajectoryFile
    + "\nREMARK original model nr : " + IntToString(modelNumber)
    + "\nREMARK First snapshot is 1, not 0 (as opposed to report)\n"
  }

  /** The PDB branch of `getSnapshots`: the file `content` split on "ENDMDL",
      the piece after the last separator dropped; in verbose mode each
      snapshot gets the remark block with its 1-based model number. */
  function PdbSnapshots(content: string, verbose: bool, trajectoryFile: string): (snapshots: seq<string>)
    ensures |snapshots| >= 1
  {
    var pieces := Split(content, EndModel);
    var plain := if |pieces| > 1 then pieces[..|pieces| - 1] else pieces;
    if !verbose then plain
    else seq(|plain|, i requires 0 <= i < |plain| => RemarkHeader(trajectoryFile, i + 1) + plain[i])
  }

  /** Without separator the whole content is the one snapshot; otherwise the
      content is the snapshots, each followed by "ENDMDL", then a trailing
      piece, and no snapshot contains the separator. */
  lemma PdbSnapshotsReassemble(content: string, trajectoryFile: string)
    ensures var snaps := PdbSnapshots(content, false, trajectoryFile);
            (forall i :: 0 <= i < |snaps| ==> !Contains(snaps[i], EndModel))
            && (!Contains(content, EndModel) ==> snaps == [content])
            && (Contains(content, EndModel) ==>
                  var t := Terminated(snaps, EndModel);
                  |t| <= |content| && content[..|t|] == t && !Contains(content[|t|..], EndModel))
  {
    var pieces := Split(content, EndModel);
    var snaps := PdbSnapshots(content, false, trajectoryFile);
    assert snaps == if |pieces| > 1 then pieces[..|pieces| - 1] else pieces;
    SplitPiecesFree(content, EndModel);
    forall i | 0 <= i < |snaps|
      ensures !Contains(snaps[i], EndModel)
    {
      assert snaps[i] == pieces[i];
    }
    if Contains(content, EndModel) {
      SplitAsTerminated(content, EndModel);
      var t := Terminated(snaps, EndModel);
      var last := pieces[|pieces| - 1];
      assert content == t + last;
      assert content[..|t|] == t;
      assert content[|t|..] == last;
    }
  }

  /** Verbose snapshots are the plain ones, each behind its remark block. */
  lemma VerboseSnapshots(content: string, trajectoryFile: string)
    ensures |PdbSnapshots(content, true, trajectoryFile)| == |PdbSnapshots(content, false, trajectoryFile)|
    ensures forall i :: 0 <= i < |PdbSnapshots(content, true, trajectoryFile)| ==>
              PdbSnapshots(content, true, trajectoryFile)[i]
              == RemarkHeader(trajectoryFile, i + 1) + PdbSnapshots(content, false, trajectoryFile)[i]
  {
  }

  // ----------------------------------------------------------------------
  // getSASAcolumnFromControlFile
  // ----------------------------------------------------------------------

  /** `"sasa" in metricType.lower()`. */
  predicate IsSasa(metricType: string) {
    LowerContains(metricType, "sasa")
  }

  /** The report column of the first SASA metric at or after position `i` of
      the control file's metric types; report files have four fixed columns
      before the metrics. */
  function SasaColumnFrom(metricTypes: seq<string>, i: nat): (r: Result<int>)
    ensures r.Ok? ==> i + 4 <= r.value < |metricTypes| + 4 && IsSasa(metricTypes[r.value - 4])
    ensures r.Ok? ==> forall j :: i <= j < r.value - 4 ==> !IsSasa(metricTypes[j])
    ensures r.Err? ==> forall j :: i <= j < |metricTypes| ==> !IsSasa(metricTypes[j])
    decreases |metricTypes| - i
  {
    if i >= |metricTypes| then Err("ValueError: No SASA metric found in control file")
    else if IsSasa(metricTypes[i]) then Ok(i + 4)
    else SasaColumnFrom(metricTypes, i + 1)
  }

  /** `getSASAcolumnFromControlFile`: four plus the position of the first
      metric whose lower-cased type contains "sasa"; an error when none does. */
  function SasaColumn(metricTypes: seq<string>): (r: Result<int>)
    ensures r.Ok? <==> exists j :: 0 <= j < |metricTypes| && IsSasa(metricTypes[j])
    ensures r.Ok? ==> 4 <= r.value < |metricTypes| + 4 && IsSasa(metricTypes[r.value - 4])
    ensures r.Ok? ==> forall j :: 0 <= j < r.value - 4 ==> !IsSasa(metricTypes[j])
  {
    SasaColumnFrom(metricTypes, 0)
  }

  // ----------------------------------------------------------------------
  // getMetricsFromReportsInEpoch
  // ----------------------------------------------------------------------

  /** A report file as `np.loadtxt` returns it: one row (a one-dimensional
      array, which is also what an empty file gives) or a table of rows. */
  datatype LoadedReport = Row(values: seq<real>) | Table(rows: seq<seq<real>>)

  function RowsOf(report: LoadedReport): nat {
    match report
    case Row(_) => 1
    case Table(rows) => |rows|
  }

  /** Row `j` of the report of trajectory `trajectory`, followed by the
      trajectory number and the 0-based row index. */
  function TaggedRow(report: LoadedReport, trajectory: nat, j: nat): seq<real>
    requires j < RowsOf(report)
  {
    match report
    case Row(values) => values + [trajectory as real, 0.0]
    case Table(rows) => rows[j] + [trajectory as real, j as real]
  }

  function TaggedRows(report: LoadedReport, trajectory: nat): (r: seq<seq<real>>)
    ensures |r| == RowsOf(report)
  {
    seq(RowsOf(report), j requires 0 <= j < RowsOf(report) => TaggedRow(report, trajectory, j))
  }

  /** The metric table of an epoch whose report of trajectory `t` is
      `reports[t - 1]`, for `t` from 1 to `|reports|`. */
  function EpochMetrics(reports: seq<LoadedReport>): seq<seq<real>>
    decreases |reports|
  {
    if |reports| == 0 then []
    else EpochMetrics(reports[..|reports| - 1]) + TaggedRows(reports[|reports| - 1], |reports|)
  }

  /** The number of rows contributed by the first `|reports|` trajectories. */
  function RowCount(reports: seq<LoadedReport>): nat
    decreases |reports|
  {
    if |reports| == 0 then 0 else RowCount(reports[..|reports| - 1]) + RowsOf(reports[|reports| - 1])
  }

  /** Row `j` of trajectory `t` sits after the rows of trajectories 1..t-1
      and is that report row tagged with `t` and `j`. */
  lemma {:induction false} EpochMetricsAt(reports: seq<LoadedReport>, t: nat, j: nat)
    requires 1 <= t <= |reports| && j < RowsOf(reports[t - 1])
    ensures |EpochMetrics(reports)| == RowCount(reports)
    ensures RowCount(reports[..t - 1]) + j < RowCount(reports)
    ensures EpochMetrics(reports)[RowCount(reports[..t - 1]) + j] == TaggedRow(reports[t - 1], t, j)
    decreases |reports|
  {
    var n := |reports|;
    var init := reports[..n - 1];
    EpochMetricsLength(reports);
    if t < n {
      assert init[..t - 1] == reports[..t - 1];
      EpochMetricsAt(init, t, j);
      EpochMetricsLength(init);
    } else {
      assert init == reports[..t - 1];
      EpochMetricsLength(init);
    }
  }

  lemma {:induction false} EpochMetricsLength(reports: seq<LoadedReport>)
    ensures |EpochMetrics(reports)| == RowCount(reports)
    decreases |reports|
  {
    if |reports| > 0 {
      EpochMetricsLength(reports[..|reports| - 1]);
    }
  }

  /** `getMetricsFromReportsInEpoch`, given the loaded report of each
      trajectory 1..nTrajs-1 in order (`reports[i - 1]` for trajectory `i`). */
  method MetricsFromReportsInEpoch(reports: seq<LoadedReport>) returns (metrics: seq<seq<real>>)
    ensures metrics == EpochMetrics(reports)
  {
    metrics := [];
    var i := 1;
    while i < |reports| + 1
      invariant 1 <= i <= |reports| + 1
      invariant metrics == EpochMetrics(reports[..i - 1])
    {
      var report := reports[i - 1];
      if report.Row? {
        metrics := metrics + [report.values + [i as real, 0.0]];
      } else {
        var rows := report.rows;
        metrics := metrics + seq(|rows|, j requires 0 <= j < |rows| => rows[j] + [i as real, j as real]);
      }
      assert reports[..i][..i - 1] == reports[..i - 1];
      i := i + 1;
    }
    assert reports[..|reports|] == reports;
  }

  // ----------------------------------------------------------------------
  // getAtomNames
  // ----------------------------------------------------------------------

  const AtomLetters: seq<string> := ["O", "H", "N"]

  /** The name given to value `v`: `["O", "H", "N"][v + 1]`, with Python's
      negative indexing, `None` where that index raises. */
  function AtomNameOf(v: int): (r: Option<string>)
    ensures r.Some? <==> -4 <= v <= 1
    ensures v == -1 ==> r == Some("O")
    ensures v == 0 ==> r == Some("H")
    ensures v == 1 ==> r == Some("N")
  {
    if -4 <= v <= 1 then Some(At(AtomLetters, v + 1)) else None
  }

  /** `getAtomNames(values)`: increments the array in place, then names each
      incremented value; `None` where the indexing raises `IndexError`. */
  method GetAtomNames(values: array<int>) returns (names: Option<seq<string>>)
    modifies values
    ensures forall i :: 0 <= i < values.Length ==> values[i] == old(values[i]) + 1
    ensures names == MapAll(old(values[..]), AtomNameOf)
  {
    ghost var original := values[..];
    var i := 0;
    while i < values.Length
      invariant 0 <= i <= values.Length
      invariant forall k :: 0 <= k < i ==> values[k] == original[k] + 1
      invariant forall k :: i <= k < values.Length ==> values[k] == original[k]
    {
      values[i] := values[i] + 1;
      i := i + 1;
    }
    var result: seq<string> := [];
    i := 0;
    while i < values.Length
      invariant 0 <= i <= values.Length
      invariant forall k :: 0 <= k < values.Length ==> values[k] == original[k] + 1
      invariant |result| == i
      invariant forall k :: 0 <= k < i ==> AtomNameOf(original[k]) == Some(result[k])
    {
      var index := values[i];
      if !(-3 <= index < 3) {
        names := None;
        assert AtomNameOf(original[i]).None?;
        return;
      }
      result := result + [At(AtomLetters, index)];
      i := i + 1;
    }
    names := Some(result);
    MapAllSome(original, AtomNameOf, result);
  }

  // ----------------------------------------------------------------------
  // Colon-separated mapping files
  // ----------------------------------------------------------------------

  /** File contents by path; a path that is absent cannot be opened. */
  type FileSystem = map<string, string>

  /** `map(str, xs)`. */
  function IntStrings(xs: seq<int>): (r: seq<string>)
    ensures |r| == |xs|
    ensures forall i :: 0 <= i < |xs| ==> r[i] == IntToString(xs[i])
  {
    seq(|xs|, i requires 0 <= i < |xs| => IntToString(xs[i]))
  }

  /** `':'.join(map(str, xs))`. */
  function IntsText(xs: seq<int>): string {
    Join(IntStrings(xs), ":")
  }

  /** `list(map(int, text.rstrip().split(':')))`; `None` where `int()` raises. */
  function ParseInts(text: string): Option<seq<int>> {
    MapAll(Split(RStrip(text), ":"), ParseInt)
  }

  lemma IntTextChars(i: int)
    ensures forall k :: 0 <= k < |IntToString(i)| ==> IntToString(i)[k] == '-' || IsDigit(IntToString(i)[k])
    ensures !IsSpace(IntToString(i)[0]) && IsDigit(IntToString(i)[|IntToString(i)| - 1])
  {
    var t := IntToString(i);
    if i < 0 {
      assert |t| > 1;
    }
  }

  /** The decimal texts split back out of their colon-joined text. */
  lemma IntsTextSplits(xs: seq<int>)
    requires |xs| > 0
    ensures Split(IntsText(xs), ":") == IntStrings(xs)
  {
    var strs := IntStrings(xs);
    forall i | 0 <= i < |xs| ensures ':' !in strs[i] {
      IntTextChars(xs[i]);
    }
    JoinSplitChar(strs, ':');
  }

  /** The colon-joined text of a non-empty list ends in a digit. */
  lemma IntsTextEnd(xs: seq<int>, trailer: string)
    requires |xs| > 0
    requires forall i :: 0 <= i < |trailer| ==> IsSpace(trailer[i])
    ensures RStrip(IntsText(xs) + trailer) == IntsText(xs)
  {
    var strs := IntStrings(xs);
    IntTextChars(xs[|xs| - 1]);
    JoinEndsLikeLastPart(strs, ":");
    RStripTrailingSpace(IntsText(xs), trailer);
  }

  lemma IntStringsParse(xs: seq<int>)
    ensures MapAll(IntStrings(xs), ParseInt) == Some(xs)
  {
    var strs := IntStrings(xs);
    forall i | 0 <= i < |xs| ensures ParseInt(strs[i]) == Some(xs[i]) {
      IntToStringParses(xs[i]);
    }
    MapAllSome(strs, ParseInt, xs);
  }

  /** Writing a non-empty list of integers, followed by any trailing
      whitespace, and parsing it back gives the same list. */
  lemma IntsTextRoundTrip(xs: seq<int>, trailer: string)
    requires |xs| > 0
    requires forall i :: 0 <= i < |trailer| ==> IsSpace(trailer[i])
    ensures ParseInts(IntsText(xs) + trailer) == Some(xs)
  {
    IntsTextEnd(xs, trailer);
    IntsTextSplits(xs);
    IntStringsParse(xs);
  }

  /** An empty list is written as an empty line, which does not parse back. */
  lemma EmptyIntsText(trailer: string)
    requires forall i :: 0 <= i < |trailer| ==> IsSpace(trailer[i])
    ensures ParseInts(IntsText([]) + trailer) == None
  {
    RStripTrailingSpace("", trailer);
    assert IntsText([]) + trailer == "" + trailer;
    assert Split("", ":") == [""];
  }

  /** A step of a trajectory: epoch, trajectory number and snapshot. */
  datatype TrajectoryPosition = TrajectoryPosition(epoch: int, trajectory: int, snapshot: int)

  /** An entry of a processor mapping: a cluster index or a trajectory position. */
  datatype MappingEntry = Index(value: int) | Position(position: TrajectoryPosition)

  /** `str(entry)`. */
  function EntryText(e: MappingEntry): string {
    match e
    case Index(v) => IntToString(v)
    case Position(p) => "(" + FieldsText(p) + ")"
  }

  /** The text between the parentheses of `str((epoch, trajectory, snapshot))`. */
  function FieldsText(p: TrajectoryPosition): string {
    IntToString(p.epoch) + ", " + IntToString(p.trajectory) + ", " + IntToString(p.snapshot)
  }

  /** `ast.literal_eval` on an entry: an integer or a parenthesised triple of
      integers; `None` where it raises. */
  function ParseEntry(s: string): Option<MappingEntry> {
    var t := Strip(s);
    if |t| >= 2 && t[0] == '(' && t[|t| - 1] == ')' then
      var fields := Split(t[1..|t| - 1], ",");
      if |fields| != 3 then None
      else match (ParseInt(fields[0]), ParseInt(fields[1]), ParseInt(fields[2]))
        case (Some(a), Some(b), Some(c)) => Some(Position(TrajectoryPosition(a, b, c)))
        case _ => None
    else match ParseInt(t)
      case Some(v) => Some(Index(v))
      case None => None
  }

  lemma CommaBlankJoin(a: string, b: string, c: string)
    ensures a + "," + (" " + b) + "," + (" " + c) == a + ", " + b + ", " + c
  {
  }

  /** The three fields of a triple's text split back out on ','. */
  lemma TripleFieldsSplit(a: string, b: string, c: string)
    requires ',' !in a && ',' !in b && ',' !in c
    ensures Split(a + ", " + b + ", " + c, ",") == [a, " " + b, " " + c]
  {
    var fields := [a, " " + b, " " + c];
    assert ',' !in " " + b && ',' !in " " + c;
    forall i | 0 <= i < |fields|
      ensures ',' !in fields[i]
    {
      if i == 0 {
        assert fields[i] == a;
      } else if i == 1 {
        assert fields[i] == " " + b;
      } else {
        assert fields[i] == " " + c;
      }
    }
    JoinThree(a, " " + b, " " + c, ",");
    CommaBlankJoin(a, b, c);
    JoinSplitChar(fields, ',');
  }

  /** The integer behind one blank parses as the integer. */
  lemma BlankIntParses(i: int)
    ensures ParseInt(" " + IntToString(i)) == Some(i)
  {
    IntTextChars(i);
    StripLeadingBlank(IntToString(i));
    IntToStringParses(i);
  }

  /** A parenthesised text whose three comma-separated fields parse as
      integers evaluates to that triple. */
  lemma ParseTriple(s: string, inner: string, f: seq<string>, p: TrajectoryPosition)
    requires s == "(" + inner + ")" && Strip(s) == s
    requires Split(inner, ",") == f && |f| == 3
    requires ParseInt(f[0]) == Some(p.epoch) && ParseInt(f[1]) == Some(p.trajectory)
    requires ParseInt(f[2]) == Some(p.snapshot)
    ensures ParseEntry(s) == Some(Position(p))
  {
    assert s[1..|s| - 1] == inner;
  }

  lemma PositionTextStripped(p: TrajectoryPosition)
    ensures Strip(EntryText(Position(p))) == EntryText(Position(p))
  {
    var s := EntryText(Position(p));
    assert s[0] == '(' && s[|s| - 1] == ')';
    StripUnspaced(s);
  }

  lemma FieldsTextSplits(p: TrajectoryPosition)
    ensures Split(FieldsText(p), ",") == [IntToString(p.epoch), " " + IntToString(p.trajectory), " " + IntToString(p.snapshot)]
  {
    IntTextChars(p.epoch);
    IntTextChars(p.trajectory);
    IntTextChars(p.snapshot);
    TripleFieldsSplit(IntToString(p.epoch), IntToString(p.trajectory), IntToString(p.snapshot));
  }

  lemma PositionTextParses(p: TrajectoryPosition)
    ensures ParseEntry(EntryText(Position(p))) == Some(Position(p))
  {
    PositionTextStripped(p);
    FieldsTextSplits(p);
    IntToStringParses(p.epoch);
    BlankIntParses(p.trajectory);
    BlankIntParses(p.snapshot);
    ParseTriple(EntryText(Position(p)), FieldsText(p),
      [IntToString(p.epoch), " " + IntToString(p.trajectory), " " + IntToString(p.snapshot)], p);
  }

  /** Every entry parses back from its text. */
  lemma EntryTextParses(e: MappingEntry)
    ensures ParseEntry(EntryText(e)) == Some(e)
  {
    match e
    case Index(v) =>
      IntTextChars(v);
      StripUnspaced(IntToString(v));
      IntToStringParses(v);
    case Position(p) =>
      PositionTextParses(p);
  }

  /** `map(str, mapping)`. */
  function EntryTexts(mapping: seq<MappingEntry>): (r: seq<string>)
    ensures |r| == |mapping|
    ensures forall i :: 0 <= i < |mapping| ==> r[i] == EntryText(mapping[i])
  {
    seq(|mapping|, i requires 0 <= i < |mapping| => EntryText(mapping[i]))
  }

  /** `':'.join(map(str, mapping))`. */
  function MappingText(mapping: seq<MappingEntry>): string {
    Join(EntryTexts(mapping), ":")
  }

  /** `writeProcessorMappingToDisk(folder, filename, mapping)`. */
  function WriteProcessorMapping(fs: FileSystem, folder: string, filename: string, mapping: seq<MappingEntry>)
    : (r: FileSystem)
    ensures PathJoin(folder, filename) in r
    ensures forall path :: path in fs && path != PathJoin(folder, filename) ==> path in r && r[path] == fs[path]
  {
    fs[PathJoin(folder, filename) := MappingText(mapping) + "\n"]
  }

  /** `readProcessorMappingFromDisk(folder, filename)`: `Ok(None)` when the
      file is missing (a warning is printed), `Err` when an entry does not
      evaluate, otherwise the entries. */
  function ReadProcessorMapping(fs: FileSystem, folder: string, filename: string)
    : (r: Result<Option<seq<MappingEntry>>>)
    ensures PathJoin(folder, filename) !in fs <==> r == Ok(None)
    ensures r.Ok? && r.value.Some? ==> |r.value.value| >= 1
  {
    var path := PathJoin(folder, filename);
    if path !in fs then Ok(None)
    else match MapAll(Split(RStrip(fs[path]), ":"), ParseEntry)
      case None => Err("SyntaxError: malformed processor mapping entry")
      case Some(entries) => Ok(Some(entries))
  }

  /** An entry's text is not empty and does not end in whitespace. */
  lemma EntryTextEnd(e: MappingEntry)
    ensures |EntryText(e)| > 0 && !IsSpace(EntryText(e)[|EntryText(e)| - 1])
  {
    match e
    case Index(v) =>
      IntTextChars(v);
    case Position(p) =>
      assert EntryText(e)[|EntryText(e)| - 1] == ')';
  }

  lemma EntryTextFree(mapping: seq<MappingEntry>)
    ensures forall i :: 0 <= i < |mapping| ==> ':' !in EntryText(mapping[i])
  {
    forall i | 0 <= i < |mapping|
      ensures ':' !in EntryText(mapping[i])
    {
      var e := mapping[i];
      match e
      case Index(v) =>
        IntTextChars(v);
      case Position(p) =>
        IntTextChars(p.epoch);
        IntTextChars(p.trajectory);
        IntTextChars(p.snapshot);
        var a, b, c := IntToString(p.epoch), IntToString(p.trajectory), IntToString(p.snapshot);
        assert forall k :: 0 <= k < |FieldsText(p)| ==> FieldsText(p)[k] != ':';
        assert forall k :: 0 <= k < |EntryText(e)| ==> EntryText(e)[k] != ':';
    }
  }

  /** Reading back a written non-empty processor mapping gives it unchanged. */
  lemma ProcessorMappingRoundTrip(fs: FileSystem, folder: string, filename: string, mapping: seq<MappingEntry>)
    requires |mapping| > 0
    ensures ReadProcessorMapping(WriteProcessorMapping(fs, folder, filename, mapping), folder, filename)
            == Ok(Some(mapping))
  {
    MappingTextEnd(mapping);
    MappingTextSplits(mapping);
    EntryTextsParse(mapping);
  }

  lemma MappingTextEnd(mapping: seq<MappingEntry>)
    requires |mapping| > 0
    ensures RStrip(MappingText(mapping) + "\n") == MappingText(mapping)
  {
    var parts := EntryTexts(mapping);
    EntryTextEnd(mapping[|mapping| - 1]);
    assert parts[|parts| - 1] == EntryText(mapping[|mapping| - 1]);
    JoinEndsLikeLastPart(parts, ":");
    RStripTrailingSpace(MappingText(mapping), "\n");
  }

  lemma MappingTextSplits(mapping: seq<MappingEntry>)
    requires |mapping| > 0
    ensures Split(MappingText(mapping), ":") == EntryTexts(mapping)
  {
    EntryTextFree(mapping);
    JoinSplitChar(EntryTexts(mapping), ':');
  }

  lemma EntryTextsParse(mapping: seq<MappingEntry>)
    ensures MapAll(EntryTexts(mapping), ParseEntry) == Some(mapping)
  {
    forall i | 0 <= i < |mapping| ensures ParseEntry(EntryTexts(mapping)[i]) == Some(mapping[i]) {
      EntryTextParses(mapping[i]);
    }
    MapAllSome(EntryTexts(mapping), ParseEntry, mapping);
  }

  /** An empty processor mapping is written as an empty line, which reads
      back as an error. */
  lemma EmptyProcessorMapping(fs: FileSystem, folder: string, filename: string)
    ensures ReadProcessorMapping(WriteProcessorMapping(fs, folder, filename, []), folder, filename).Err?
  {
    RStripTrailingSpace("", "\n");
    assert MappingText([]) + "\n" == "" + "\n";
    assert Split("", ":") == [""];
  }

  // ----------------------------------------------------------------------
  // Topology
  // ----------------------------------------------------------------------

  /** The mapping file of an epoch folder. */
  function TopologyMappingPath(epochDir: string): string {
    epochDir + "/topologyMapping.txt"
  }

  /** The file system after writing the topology indices of an epoch. */
  function WriteTopologyMapping(fs: FileSystem, epochDir: string, indices: seq<int>): (r: FileSystem)
    ensures TopologyMappingPath(epochDir) in r
    ensures forall path :: path in fs && path != TopologyMappingPath(epochDir) ==> path in r && r[path] == fs[path]
  {
    fs[TopologyMappingPath(epochDir) := IntsText(indices) + "\n"]
  }

  /** Reading the mapping file of an epoch folder gives back the written
      indices when there is at least one; an empty list reads back as an
      error. */
  lemma TopologyMappingRoundTrip(fs: FileSystem, epochDir: string, indices: seq<int>)
    ensures |indices| > 0 ==>
              ParseInts(WriteTopologyMapping(fs, epochDir, indices)[TopologyMappingPath(epochDir)]) == Some(indices)
    ensures |indices| == 0 ==>
              ParseInts(WriteTopologyMapping(fs, epochDir, indices)[TopologyMappingPath(epochDir)]) == None
  {
    if |indices| > 0 {
      IntsTextRoundTrip(indices, "\n");
    } else {
      EmptyIntsText("\n");
    }
  }

  /** Whether trajectory `trajectory` (1-based) of epoch `epoch` has a
      recorded topology index. */
  predicate KnownTrajectory(topologyMap: map<int, seq<int>>, epoch: int, trajectory: int) {
    epoch in topologyMap && -|topologyMap[epoch]| <= trajectory - 1 < |topologyMap[epoch]|
  }

  predicate AllKnown(topologyMap: map<int, seq<int>>, mapping: seq<TrajectoryPosition>) {
    forall k :: 0 <= k < |mapping| ==> KnownTrajectory(topologyMap, mapping[k].epoch, mapping[k].trajectory)
  }

  /** For each entry of `mapping`, the topology index of the trajectory it
      names. */
  function MappedTopologies(topologyMap: map<int, seq<int>>, mapping: seq<TrajectoryPosition>): (r: seq<int>)
    requires AllKnown(topologyMap, mapping)
    ensures |r| == |mapping|
  {
    seq(|mapping|, k requires 0 <= k < |mapping| => At(topologyMap[mapping[k].epoch], mapping[k].trajectory - 1))
  }

  /** After rotating the mapping, trajectory `k + 1` of the next epoch takes
      the topology of the trajectory named by entry `k + 1`, and the last
      one that of entry 0. */
  lemma NextEpochTopologies(topologyMap: map<int, seq<int>>, mapping: seq<TrajectoryPosition>)
    requires |mapping| > 0 && AllKnown(topologyMap, mapping)
    ensures AllKnown(topologyMap, RotateLeft(mapping))
    ensures var next := MappedTopologies(topologyMap, RotateLeft(mapping));
            |next| == |mapping|
            && (forall k :: 0 <= k < |mapping| - 1 ==>
                  next[k] == At(topologyMap[mapping[k + 1].epoch], mapping[k + 1].trajectory - 1))
            && next[|mapping| - 1] == At(topologyMap[mapping[0].epoch], mapping[0].trajectory - 1)
  {
    RotateLeftAt(mapping);
  }

  /** The topologies of a simulation and, per epoch, the topology index of
      each trajectory. */
  class Topology {
    /** The ATOM/HETATM lines of each topology file. */
    var topologies: seq<seq<string>>
    var topologyFiles: seq<string>
    var topologyMap: map<int, seq<int>>

    constructor ()
      ensures topologies == [] && topologyFiles == [] && topologyMap == map[]
    {
      topologies := [];
      topologyFiles := [];
      topologyMap := map[];
    }

    /** `getTopologyIndex(epoch, trajectoryNumber)`. */
    function GetTopologyIndex(epoch: int, trajectoryNumber: int): (index: int)
      reads this
      requires KnownTrajectory(topologyMap, epoch, trajectoryNumber)
      ensures index in topologyMap[epoch]
    {
      At(topologyMap[epoch], trajectoryNumber - 1)
    }

    /** `getTopologyFromIndex(index)`. */
    function GetTopologyFromIndex(index: int): (topology: seq<string>)
      reads this
      requires -|topologies| <= index < |topologies|
      ensures topology in topologies
    {
      At(topologies, index)
    }

    /** `getTopology(epoch, trajectoryNumber)`. */
    function GetTopology(epoch: int, trajectoryNumber: int): (topology: seq<string>)
      reads this
      requires KnownTrajectory(topologyMap, epoch, trajectoryNumber)
      requires -|topologies| <= GetTopologyIndex(epoch, trajectoryNumber) < |topologies|
      ensures topology in topologies
    {
      GetTopologyFromIndex(GetTopologyIndex(epoch, trajectoryNumber))
    }

    /** `getTopologyFile(epoch, trajectoryNumber)`. */
    function GetTopologyFile(epoch: int, trajectoryNumber: int): (file: string)
      reads this
      requires KnownTrajectory(topologyMap, epoch, trajectoryNumber)
      requires -|topologyFiles| <= GetTopologyIndex(epoch, trajectoryNumber) < |topologyFiles|
      ensures file in topologyFiles
    {
      At(topologyFiles, GetTopologyIndex(epoch, trajectoryNumber))
    }

    /** `mapEpochTopologies(epoch, trajectoryMapping)`: the trajectories of
        the next epoch start from the rotated mapping, and each takes the
        topology of the trajectory it starts from. */
    method MapEpochTopologies(epoch: int, trajectoryMapping: seq<TrajectoryPosition>)
      requires |trajectoryMapping| > 0 && AllKnown(topologyMap, trajectoryMapping)
      modifies this
      ensures AllKnown(old(topologyMap), RotateLeft(trajectoryMapping))
      ensures topologyMap == old(topologyMap)[epoch := MappedTopologies(old(topologyMap), RotateLeft(trajectoryMapping))]
      ensures topologies == old(topologies) && topologyFiles == old(topologyFiles)
      ensures forall k :: 1 <= k < |trajectoryMapping| ==>
                KnownTrajectory(topologyMap, epoch, k)
                && GetTopologyIndex(epoch, k)
                   == old(GetTopologyIndex(trajectoryMapping[k].epoch, trajectoryMapping[k].trajectory))
      ensures KnownTrajectory(topologyMap, epoch, |trajectoryMapping|)
      ensures GetTopologyIndex(epoch, |trajectoryMapping|)
              == old(GetTopologyIndex(trajectoryMapping[0].epoch, trajectoryMapping[0].trajectory))
    {
      NextEpochTopologies(topologyMap, trajectoryMapping);
      var mapping := trajectoryMapping[1..] + [trajectoryMapping[0]];
      topologyMap := topologyMap[epoch := MappedTopologies(topologyMap, mapping)];
    }

    /** `writeMappingToDisk(epochDir, epoch)`; a missing epoch is a `KeyError`. */
    function WriteMappingToDisk(fs: FileSystem, epochDir: string, epoch: int): (r: FileSystem)
      reads this
      requires epoch in topologyMap
      ensures TopologyMappingPath(epochDir) in r
      ensures ParseInts(r[TopologyMappingPath(epochDir)]) == if |topologyMap[epoch]| > 0 then Some(topologyMap[epoch]) else None
    {
      TopologyMappingRoundTrip(fs, epochDir, topologyMap[epoch]);
      WriteTopologyMapping(fs, epochDir, topologyMap[epoch])
    }

    /** `readMappingFromDisk(epochDir, epoch)`: a missing file prints a
        warning and leaves the mapping as it was (`Ok(false)`); a file whose
        fields are not all integers raises `ValueError` before anything
        changes; otherwise the epoch's indices are replaced (`Ok(true)`). */
    method ReadMappingFromDisk(fs: FileSystem, epochDir: string, epoch: int) returns (r: Result<bool>)
      modifies this
      ensures topologies == old(topologies) && topologyFiles == old(topologyFiles)
      ensures TopologyMappingPath(epochDir) !in fs ==> r == Ok(false) && topologyMap == old(topologyMap)
      ensures TopologyMappingPath(epochDir) in fs ==>
                match ParseInts(fs[TopologyMappingPath(epochDir)])
                case None => r.Err? && topologyMap == old(topologyMap)
                case Some(indices) => r == Ok(true) && topologyMap == old(topologyMap)[epoch := indices]
    {
      var path := TopologyMappingPath(epochDir);
      if path !in fs {
        return Ok(false);
      }
      var parsed := ParseInts(fs[path]);
      if parsed.None? {
        return Err("ValueError: invalid literal for int()");
      }
      topologyMap := topologyMap[epoch := parsed.value];
      r := Ok(true);
    }
  }
}

=== FILE: wrappers.dfy ===
/** Failure-compatible wrappers used for Python's `None` results and raised errors. */
module Wrappers {

  /** `None` stands for Python's `None`. */
  datatype Option<+T> = None | Some(value: T)

  /** `Err` stands for an exception the source raises (its message says which). */
  datatype Result<+T> = Ok(value: T) | Err(message: string)
}
